=== FILE: README.md ===
# TemporalVR core, modelled in Dafny

TemporalVR is a Unity VR modelling tool that treats time as a fourth dimension:
every vertex of a mesh carries its own time value, keyframed meshes are morphed
along a timeline, and controllers scrub, paint and sculpt that time. A set of
Python scripts keeps the project's daily notes and schedule.

This project models the logic of that system as pure Dafny functions over
immutable datatypes and proves properties of it:

| file | module | models |
|---|---|---|
| `wrappers.dfy` | `Wrappers` | `Option`, and `Completion` (`Done` / `Raised`) for operations that can throw after changing state |
| `unity_math.dfy` | `UnityMath` | `Mathf.Clamp`, `Clamp01`, `Lerp` (clamped parameter), `Max`, `Abs`, `CeilToInt`, `Vector3` and `Color` arithmetic |
| `text.dfy` | `Text` | Python `str.startswith`, `in`, `strip`, `join`, `split`, ASCII `lower` / `upper` |
| `mesh_data.dfy` | `TemporalMesh` | `TemporalMeshData`: per-vertex times, the neighbour map, the temporal brush and propagation |
| `keyframes.dfy` | `Keyframes` | `TKeyframe`, capture / apply, the first-bracketing-segment search |
| `morph.dfy` | `Morph` | `TMorphObj.UpdateToTime`, `LerpMesh`, `ApplyKeyframe`, `KeyframeCount` |
| `morph_v2.dfy` | `MorphV2` | `TMorphObj_V2`: keyframe lookup, brush marking and stroke interpolation, playback |
| `modes.dfy` | `Modes` | the four interaction modes and their cyclic order |
| `controller.dfy` | `Controller` | the three controller variants' per-frame handlers, as a step function over a state record |
| `event_system.dfy` | `EventSystem` | `TemporalEventSystem`: global time and mode, the object registry |
| `feedback.dfy` | `Feedback` | `TVRFeedback` (Core): the 20-point brush trail, colour parameters, mode indicators |
| `brush.dfy` | `Brush` | `TemporalBrushData`: the stroke recorder, radius, per-mode target time |
| `calendar.dfy` | `Calendar` | day numbers as Python's `date.toordinal` and the project day count |
| `automation.dfy` | `Automation` | the pure helpers of the automation scripts |

Conventions:

- C# `float` is modelled as `real`, `Vector3` as a triple of reals, `int` as
  unbounded `int`. Python `//` and `%` with a positive divisor agree with
  Dafny's operators and are used directly.
- Engine and library calls with no logic of their own are parameters:
  `Vector3.Distance` takes the square root as a function `sqrt`,
  `Vector3.Slerp` is `slerp`, `Mesh.RecalculateNormals` is `recalc`,
  `Transform.TransformPoint` / `InverseTransformPoint` is `toLocal` or a
  precomputed world-position sequence, `Time.deltaTime` / `Time.time` are
  `deltaTime` / `now`, and "is this object still alive" is `alive`.
- Trigger values, button states, controller positions and raycast hits are
  fields of an `Input` record; a missing controller reference is a `false`
  availability flag.
- A method that throws part-way returns `Raised(state left behind)`. Null
  references are `Option.None`.
- File contents, git output and the clock of the Python scripts are
  parameters: `Option<string>` for a file that may be missing, a `Date` for
  "now", a day number and a weekday for the schedule helpers.

## Model

| member | source | states |
|---|---|---|
| TemporalMesh.New | unity/TemporalVR/Assets/Scripts/TemporalVR/TMeshData.cs:25-37 | both per-vertex arrays have one entry per vertex and every entry is 0; the time range is [0, 10]; the neighbour map is empty |
| TemporalMesh.AddNeighbor | unity/TemporalVR/Assets/Scripts/TemporalVR/TMeshData.cs:123-134 | no neighbour list ever holds a duplicate; the neighbour relation gains exactly the pair (vertex, neighbour); other lists are untouched; adding a present pair changes nothing |
| TemporalMesh.AddTriangle | unity/TemporalVR/Assets/Scripts/TemporalVR/TMeshData.cs:105-119 | the six AddNeighbor calls of one triangle add exactly the ordered pairs of distinct corners, keep lists duplicate-free and make all three corners keys |
| TemporalMesh.Scan | unity/TemporalVR/Assets/Scripts/TemporalVR/TMeshData.cs:103-120 | the loop finishes normally exactly when the triangle array length is a multiple of 3; otherwise it throws reading past the end, leaving the map of the complete triangles; either way the map describes exactly the corner pairs of the complete triangles |
| TemporalMesh.BuildVertexGroups | unity/TemporalVR/Assets/Scripts/TemporalVR/TMeshData.cs:98-121 | starts from a cleared map, so the result depends only on the triangle array: its keys are the vertices of complete triangles and v has n as neighbour iff some complete triangle has both as distinct corners |
| TemporalMesh.TriangleCornersAreNeighbors | unity/TemporalVR/Assets/Scripts/TemporalVR/TMeshData.cs:105-119 | for every complete triangle (a, b, c): b and c are neighbours of a, a and c of b, a and b of c |
| TemporalMesh.NeighborsSymmetric | unity/TemporalVR/Assets/Scripts/TemporalVR/TMeshData.cs:98-121 | the neighbour relation built from triangles is symmetric |
| TemporalMesh.GroupsNonNegative | unity/TemporalVR/Assets/Scripts/TemporalVR/TMeshData.cs:98-121 | non-negative triangle indices give non-negative keys and neighbours |
| TemporalMesh.Falloff | unity/TemporalVR/Assets/Scripts/TemporalVR/TMeshData.cs:55-56 | the squared falloff (1 - d/r)² is non-negative, at most 1 inside the radius, 1 at the centre and 0 on the rim |
| TemporalMesh.Propagate | unity/TemporalVR/Assets/Scripts/TemporalVR/TMeshData.cs:73-93 | only listed neighbours change; a neighbour changes only when it differs from the source by more than 0.1; every entry stays between its old time and the source's time; the source and the length are unchanged |
| TemporalMesh.BrushVertex | unity/TemporalVR/Assets/Scripts/TemporalVR/TMeshData.cs:49-66 | a vertex outside the brush radius changes nothing; one inside moves between its old time and the target time (Lerp clamps its parameter) |
| TemporalMesh.ApplyTemporalBrush | unity/TemporalVR/Assets/Scripts/TemporalVR/TMeshData.cs:42-68 | the brush changes only vertex times; the array length, neighbour map, velocities and time range are kept |
| TemporalMesh.ApplyTemporalBrushStaysWithin | unity/TemporalVR/Assets/Scripts/TemporalVR/TMeshData.cs:52-65 | when all times and the target lie in an interval, the brushed times (after propagation) still do |
| TemporalMesh.ApplyTemporalBrushIsLocal | unity/TemporalVR/Assets/Scripts/TemporalVR/TMeshData.cs:52-65 | a vertex outside the radius that is no neighbour of a vertex inside it keeps its time |
| Keyframes.CaptureFromMesh | unity/TemporalVR/Assets/Scripts/TemporalVR/Morphing/TKeyframe.cs:15-19 | the keyframe takes copies of the mesh's vertices and normals and keeps its time and colour |
| Keyframes.ApplyToMesh | unity/TemporalVR/Assets/Scripts/TemporalVR/Morphing/TKeyframe.cs:22-30 | null vertices or a vertex count different from the mesh's leave the mesh unchanged; otherwise its vertices and normals become exactly the keyframe's (a null normals array clears them) |
| Keyframes.CaptureApplyRoundTrip | unity/TemporalVR/Assets/Scripts/TemporalVR/Morphing/TKeyframe.cs:15-29 | capturing a mesh and applying the keyframe back leaves the mesh unchanged |
| Keyframes.ApplyToMeshIdempotent | unity/TemporalVR/Assets/Scripts/TemporalVR/Morphing/TKeyframe.cs:22-30 | applying a keyframe twice is the same as once |
| Keyframes.FirstBracket | unity/TemporalVR/Assets/Scripts/TemporalVR/Morphing/TMorphObj.cs:98-106 | the search returns the first consecutive pair whose times bracket the time, and none when no pair does |
| Keyframes.BracketExists | unity/TemporalVR/Assets/Scripts/TemporalVR/Morphing/TMorphObj.cs:94-106 | a time between the first and last key times is bracketed by some consecutive pair, whatever the order of the times in between |
| Keyframes.BracketAtKeyframe | unity/TemporalVR/Assets/Scripts/TemporalVR/Morphing/TMorphObj.cs:98-106 | with increasing key times, the time of keyframe j is first bracketed by the pair ending at j (the first pair for j = 0) |
| Keyframes.BracketInterior | unity/TemporalVR/Assets/Scripts/TemporalVR/Morphing/TMorphObj.cs:98-106 | with increasing key times, a time strictly after keyframe i and not after keyframe i + 1 is first bracketed by the pair (i, i + 1) |
| Keyframes.SegmentParameter | unity/TemporalVR/Assets/Scripts/TemporalVR/Morphing/TMorphObj.cs:125 | t lies in [0, 1], is 0 and 1 at the segment ends and maps back to the time by linear interpolation |
| Keyframes.LerpVertices | unity/TemporalVR/Assets/Scripts/TemporalVR/Morphing/TMorphObj.cs:175-179 | one lerped vertex per keyframe vertex; t ≤ 0 gives the first array, t ≥ 1 the second |
| Keyframes.SlerpNormals | unity/TemporalVR/Assets/Scripts/TemporalVR/Morphing/TMorphObj.cs:188-192 | one slerped normal per keyframe normal, pairwise |
| Morph.ApplyColor | unity/TemporalVR/Assets/Scripts/TemporalVR/Morphing/TMorphObj.cs:211-231 | only an object with a renderer takes the colour |
| Morph.ApplyKeyframe | unity/TemporalVR/Assets/Scripts/TemporalVR/Morphing/TMorphObj.cs:149-166 | null vertices or no mesh change nothing; otherwise the mesh takes the keyframe's vertices, its normals when present, and the renderer its colour |
| Morph.LerpMesh | unity/TemporalVR/Assets/Scripts/TemporalVR/Morphing/TMorphObj.cs:168-201 | a no-op on null or mismatched vertex arrays; otherwise one lerped vertex per keyframe vertex, t = 0 reproduces from and t = 1 reproduces to; normals are slerped only when both exist with equal length, else recalculated |
| Morph.ClampedTime | unity/TemporalVR/Assets/Scripts/TemporalVR/Morphing/TMorphObj.cs:94 | the requested time is clamped into [first key time, last key time] |
| Morph.DistinctSegmentDefined | unity/TemporalVR/Assets/Scripts/TemporalVR/Morphing/TMorphObj.cs:98-125 | distinct consecutive key times give a defined interpolation parameter for every time |
| Morph.Interpolate | unity/TemporalVR/Assets/Scripts/TemporalVR/Morphing/TMorphObj.cs:92-141 | the try block keeps the keyframes, renderer and flag, and leaves a working mesh in place |
| Morph.UpdateToTime | unity/TemporalVR/Assets/Scripts/TemporalVR/Morphing/TMorphObj.cs:81-147 | a no-op while already updating, with fewer than two keyframes or without a mesh; a null keyframe list throws; the re-entrancy flag is the same on exit as on entry; only on the interpolating path must the segment the time falls into have distinct end times |
| Morph.EarlyReturnsIgnoreKeyTimes | unity/TemporalVR/Assets/Scripts/TemporalVR/Morphing/TMorphObj.cs:81-87 | while updating, with fewer than two keyframes or without a working mesh the object comes back unchanged whatever its key times, repeated ones included |
| Morph.UpdateToTimeFindsSegment | unity/TemporalVR/Assets/Scripts/TemporalVR/Morphing/TMorphObj.cs:94-125 | the clamped time always falls in some segment and its interpolation parameter is in [0, 1] |
| Morph.UpdateToTimeReachesKeyframe | unity/TemporalVR/Assets/Scripts/TemporalVR/Morphing/TMorphObj.cs:81-141 | with increasing key times, updating to keyframe j's time reproduces its vertices and colour |
| Morph.InteriorInterpolates | unity/TemporalVR/Assets/Scripts/TemporalVR/Morphing/TMorphObj.cs:94-136 | with increasing key times, a time in (time of key i, time of key i + 1] gives the vertices lerped from key i to key i + 1 by (time - tᵢ) / (tᵢ₊₁ - tᵢ), and the colour likewise when there is a renderer (unchanged otherwise) |
| Morph.UpdateToTimeClamps | unity/TemporalVR/Assets/Scripts/TemporalVR/Morphing/TMorphObj.cs:94-119 | with increasing key times, a time at or before the first key shows the first keyframe's vertices and one at or after the last shows the last keyframe's |
| MorphV2.FindKeyframesForTime | unity/TemporalVR/Assets/Scripts/TemporalVR/Morphing/TMorphObj_V2.cs:398-437 | no keyframes give nulls; up to the first key time (first, first, 0); from the last key time (last, last, 1); otherwise the first bracketing consecutive pair; t in [0, 1] and 0 when the pair's times are equal |
| MorphV2.LookupReproducesTime | unity/TemporalVR/Assets/Scripts/TemporalVR/Morphing/TMorphObj_V2.cs:422-436 | for an interior time the pair and t interpolate back to the time |
| MorphV2.MarkedTime | unity/TemporalVR/Assets/Scripts/TemporalVR/Morphing/TMorphObj_V2.cs:222-229 | a marked vertex time lies in [0, 1] and, for non-negative strength and deltaTime, is at least a current time taken from [0, 1] |
| MorphV2.MarkTimeAtPosition | unity/TemporalVR/Assets/Scripts/TemporalVR/Morphing/TMorphObj_V2.cs:203-238 | only vertices whose squared distance to the brush is at most radius² change, each to its marked time; the array length is kept |
| MorphV2.MarkTimeKeepsUnitRange | unity/TemporalVR/Assets/Scripts/TemporalVR/Morphing/TMorphObj_V2.cs:209-231 | all times stay in [0, 1] and, for non-negative strength and deltaTime, none decreases |
| MorphV2.StrokeSteps | unity/TemporalVR/Assets/Scripts/TemporalVR/Morphing/TMorphObj_V2.cs:246-247 | at least 2 steps, and enough that no step is longer than half the radius |
| MorphV2.StrokePoints | unity/TemporalVR/Assets/Scripts/TemporalVR/Morphing/TMorphObj_V2.cs:249-252 | steps + 1 points, the first the start and the last the end, all on the segment between them |
| MorphV2.MarkAlongKeepsUnitRange | unity/TemporalVR/Assets/Scripts/TemporalVR/Morphing/TMorphObj_V2.cs:249-254 | marking along a stroke keeps all times in [0, 1] and monotone for non-negative strength |
| MorphV2.MarkAlongIsLocal | unity/TemporalVR/Assets/Scripts/TemporalVR/Morphing/TMorphObj_V2.cs:249-254 | a vertex outside the brush at every stroke point keeps its time |
| MorphV2.InterpolateBrushStroke | unity/TemporalVR/Assets/Scripts/TemporalVR/Morphing/TMorphObj_V2.cs:243-255 | the filled-in stroke keeps the number of vertex times, keeps them in [0, 1] and, for a non-negative brush, lowers none |
| MorphV2.MarkTemporalData | unity/TemporalVR/Assets/Scripts/TemporalVR/Morphing/TMorphObj_V2.cs:175-195 | without temporal data nothing changes; otherwise the brush position is remembered and brushing recorded; keyframes, playback and well-formedness are kept |
| MorphV2.MarkTemporalDataKeepsUnitRange | unity/TemporalVR/Assets/Scripts/TemporalVR/Morphing/TMorphObj_V2.cs:175-195 | marking, with or without stroke interpolation, keeps vertex times in [0, 1] and monotone for non-negative strength |
| MorphV2.Tick | unity/TemporalVR/Assets/Scripts/TemporalVR/Morphing/TMorphObj_V2.cs:151-167 | a stopped playback is unchanged; otherwise the position advances by deltaTime × speed, and past the end it restarts at 0 when looping or stops at the end |
| MorphV2.TogglePlayback | unity/TemporalVR/Assets/Scripts/TemporalVR/Morphing/TMorphObj_V2.cs:350-357 | flips playing, rewinding to 0 when starting at or past the end |
| MorphV2.Seek | unity/TemporalVR/Assets/Scripts/TemporalVR/Morphing/TMorphObj_V2.cs:364 | the position is clamped to [0, scale]; nothing else changes |
| MorphV2.OnPlaybackToggled | unity/TemporalVR/Assets/Scripts/TemporalVR/Morphing/TMorphObj_V2.cs:390-393 | sets the playing flag to the broadcast value and nothing else |
| MorphV2.PlaybackStaysOnTimeline | unity/TemporalVR/Assets/Scripts/TemporalVR/Morphing/TMorphObj_V2.cs:151-167 | tick, toggle, seek and the toggle broadcast keep the position in [0, scale] |
| MorphV2.ToggleTwice | unity/TemporalVR/Assets/Scripts/TemporalVR/Morphing/TMorphObj_V2.cs:350-357 | toggling twice before the end restores the playback state |
| MorphV2.EffectiveTime | unity/TemporalVR/Assets/Scripts/TemporalVR/Morphing/TMorphObj_V2.cs:270-274 | each vertex's effective time is clamped into [minTime, maxTime] |
| MorphV2.PlaybackVertex | unity/TemporalVR/Assets/Scripts/TemporalVR/Morphing/TMorphObj_V2.cs:276-295 | a vertex without a keyframe pair keeps its original position and normal; with a pair, it throws iff the from keyframe's vertex array is null, or the vertex is within it and the to keyframe's array is null; a vertex beyond either array keeps its original position and normal; otherwise its position lies componentwise between the two keyframes' positions |
| MorphV2.PlaybackAtKeyframe | unity/TemporalVR/Assets/Scripts/TemporalVR/Morphing/TMorphObj_V2.cs:270-284 | with increasing key times, a vertex whose effective time is keyframe j's time takes keyframe j's position |
| MorphV2.PlaybackFrom | unity/TemporalVR/Assets/Scripts/TemporalVR/Morphing/TMorphObj_V2.cs:264-296 | the loop completes iff every vertex does, and then yields one position and one normal per original vertex, each the vertex's own result |
| MorphV2.UpdateMeshForPlayback | unity/TemporalVR/Assets/Scripts/TemporalVR/Morphing/TMorphObj_V2.cs:260-302 | fewer than two keyframes change nothing; two or more without a mesh throw; a throw leaves the object unchanged; on success the output arrays have the original vertex and normal counts, and the temporal data, keyframes and playback are untouched |
| MorphV2.PlaybackShowsKeyframe | unity/TemporalVR/Assets/Scripts/TemporalVR/Morphing/TMorphObj_V2.cs:260-302 | with no brushed offsets and increasing key times, playback at keyframe j's time succeeds and shows keyframe j's vertices |
| MorphV2.Update | unity/TemporalVR/Assets/Scripts/TemporalVR/Morphing/TMorphObj_V2.cs:148-170 | a stopped object is unchanged; a playing one advances its playback by one tick |
| MorphV2.SetPlaybackTime | unity/TemporalVR/Assets/Scripts/TemporalVR/Morphing/TMorphObj_V2.cs:362-369 | the position is clamped into [0, scale]; the mesh is refreshed only while playing |
| MorphV2.OnGlobalTimeChanged | unity/TemporalVR/Assets/Scripts/TemporalVR/Morphing/TMorphObj_V2.cs:382-385 | for every received time the position is time × scale clamped into [0, scale]: a time in [0, 1] lands at time × scale, every time from 1 on at the end of the timeline |
| MorphV2.ControllerTimesCollapse | unity/TemporalVR/Assets/Scripts/TemporalVR/Morphing/TMorphObj_V2.cs:382-385 | as written, any two received times from 1 on (the controllers broadcast times up to their temporal range, 100) show the same position, the end of the timeline |
| MorphV2.OnControllerTimeChanged | unity/TemporalVR/Assets/Scripts/TemporalVR/Morphing/TMorphObj_V2.cs:382-385 | corrected: the received time is first divided by the controllers' temporal range, so a time in [0, range] lands at time / range × scale and the range's end at the timeline's end |
| MorphV2.CorrectedTimePreservesOrder | unity/TemporalVR/Assets/Scripts/TemporalVR/Morphing/TMorphObj_V2.cs:382-385 | corrected, two distinct controller times in [0, range] give strictly ordered, hence distinct, playback positions |
| Modes.Next | unity/TemporalVR/Assets/Scripts/TemporalVR/Core/TVR_Controller.cs:214 | the next mode has index (index + 1) mod 4 and differs from the current one |
| Modes.IndexRoundTrip | unity/TemporalVR/Assets/Scripts/TemporalVR/Core/TVR_Controller.cs:49-55 | the mode-to-index cast is inverted by the index-to-mode cast |
| Modes.AdvanceIndex | unity/TemporalVR/Assets/Scripts/TemporalVR/Core/TVR_Controller.cs:214 | k advances add k to the index modulo 4 |
| Modes.CycleLength | unity/TemporalVR/Assets/Scripts/TemporalVR/Core/TVR_Controller.cs:214 | k advances return to the starting mode iff k is a multiple of 4 |
| Controller.ModeSwitch | unity/TemporalVR/Assets/Scripts/TemporalVR/Core/TVR_Controller.cs:202-240 | without the right controller nothing happens; the edge-triggered variants advance only on a rising edge of select and always record the button; the earliest variant advances on every pressed frame; a switch in Core announces the new mode (broadcast and colour), in the older variant updates the colour only, and in the earliest announces nothing |
| Controller.HoldButtonSwitches | unity/TemporalVR/Assets/Scripts/TemporalVRController.cs:125-128 | holding the button k frames advances k modes in the earliest variant and at most one in the others |
| Controller.NextGrab | unity/TemporalVR/Assets/Scripts/TemporalVR/Core/TVR_Controller.cs:253-264 | a grab starts only above the grab threshold when not grabbing, ends only below 0.2 while grabbing, and otherwise the state is unchanged |
| Controller.GrabThreshold | unity/TemporalVR/Assets/Scripts/TemporalVRController.cs:145 | the grab threshold (0.8 in the earliest variant, 0.5 in the others) exceeds the release threshold |
| Controller.ScrubbedTime | unity/TemporalVR/Assets/Scripts/TemporalVR/Core/TVR_Controller.cs:269-275 | the scrubbed time lies in [0, temporalRange] and equals the clamped grab-start time when the hand has not moved in x |
| Controller.ScrubFrame | unity/TemporalVR/Assets/Scripts/TemporalVR/Core/TVR_Controller.cs:243-288 | without the right controller nothing happens; while grabbing the time is broadcast and kept in [0, temporalRange], and the action-based variants then update every time-bound object to it (the earliest only broadcasts); otherwise the time is unchanged and nothing is sent |
| Controller.GrabStartKeepsTime | unity/TemporalVR/Assets/Scripts/TemporalVR/Core/TVR_Controller.cs:253-275 | on the frame a grab starts the time stays where it was (clamped) |
| Controller.HysteresisBand | unity/TemporalVR/Assets/Scripts/TemporalVR/TVR_Controller.cs:223-234 | a trigger between the release and grab thresholds never changes the grab state |
| Controller.BrushRadius | unity/TemporalVR/Assets/Scripts/TemporalVR/Core/TVR_Controller.cs:301-302 | for a trigger in [0, 1] the radius 0.05 + 0.08 × trigger lies in [0.05, 0.13] |
| Controller.TargetTime | unity/TemporalVR/Assets/Scripts/TemporalVR/Core/TVR_Controller.cs:304 | the paint target time lies in [0, 1] and is (y - 0.5) / 2 for hand heights in [0.5, 2.5] |
| Controller.PaintFrame | unity/TemporalVR/Assets/Scripts/TemporalVR/Core/TVR_Controller.cs:290-392 | painting acts only above trigger 0.1 with the right controller; in Core a hit on a V2 morph object gets a brush of radius 0.05 + 0.08 × trigger, strength trigger and the height's target time, every hit extends the trail there, and Shift over a V2 morph object adds a brush of half the radius and 1.5 × the strength, nothing else being sent; the older variants brush a temporal object under the ray with the trigger at the current time and send nothing otherwise; a light trigger only clears the trail (Core variant) |
| Controller.PaintShiftAddsPrecise | unity/TemporalVR/Assets/Scripts/TemporalVR/Core/TVR_Controller.cs:365-377 | holding Shift over a V2 morph object adds exactly the precise brush to what the frame sends without Shift |
| Controller.SculptFrame | unity/TemporalVR/Assets/Scripts/TemporalVR/Core/TVR_Controller.cs:394-425 | nothing is sent unless both triggers exceed 0.8 (and both controllers exist, except in the earliest variant); then exactly the sculpt ranges of the TemporalObjects the sphere query returns for the midpoint of the hands and half their distance |
| Controller.SculptTargets | unity/TemporalVR/Assets/Scripts/TemporalVR/Core/TVR_Controller.cs:415-423 | the targets are exactly the ids of the returned colliders that carry a TemporalObject, and there are none iff no collider carries one |
| Controller.SculptRanges | unity/TemporalVR/Assets/Scripts/TemporalVR/Core/TVR_Controller.cs:405-421 | one range per target, in order, each centred on the current time and 20 × hand distance wide |
| Controller.SculptReachesEveryTemporalObject | unity/TemporalVR/Assets/Scripts/TemporalVR/Core/TVR_Controller.cs:415-423 | every collider in the sphere with a TemporalObject is sent the range current ± 10 × hand distance |
| Controller.SculptAnnouncesIffTargets | unity/TemporalVR/Assets/Scripts/TemporalVR/Core/TVR_Controller.cs:402-423 | sculpting sends something iff it is active and the sphere holds at least one TemporalObject |
| Controller.PreviewFrame | unity/TemporalVR/Assets/Scripts/TemporalVRController.cs:239-256 | only the earliest variant acts; a joystick within ±0.1 changes nothing; otherwise the time moves by x × dt × 10, clamped to [0, temporalRange] |
| Controller.FrameKeepsTimeInRange | unity/TemporalVR/Assets/Scripts/TemporalVR/Core/TVR_Controller.cs:178-199 | a whole frame keeps the current time in [0, temporalRange] |
| Controller.CursorFraction | unity/TemporalVR/Assets/Scripts/TemporalVR/Core/TVR_Controller.cs:436 | the cursor's normalised time scales back to the current time and lies in [0, 1] while the time is in range |
| EventSystem.BroadcastTimeChange | unity/TemporalVR/Assets/Scripts/TemporalVR/TEventSystem.cs:68-77 | afterwards the global time getter returns the broadcast time; mode and registry are kept |
| EventSystem.BroadcastModeChange | unity/TemporalVR/Assets/Scripts/TemporalVR/TEventSystem.cs:82-91 | afterwards the mode getter returns the broadcast mode; time and registry are kept |
| EventSystem.Register | unity/TemporalVR/Assets/Scripts/TemporalVR/TEventSystem.cs:122-129 | an absent object is appended, a present one changes nothing, so the registry stays duplicate-free |
| EventSystem.RemoveFirst | unity/TemporalVR/Assets/Scripts/TemporalVR/TEventSystem.cs:136-140 | List.Remove drops the first occurrence and keeps the others in order |
| EventSystem.Unregister | unity/TemporalVR/Assets/Scripts/TemporalVR/TEventSystem.cs:134-141 | an absent object changes nothing; a present one is removed with the others kept in order |
| EventSystem.UnregisterRemoves | unity/TemporalVR/Assets/Scripts/TemporalVR/TEventSystem.cs:134-141 | in a duplicate-free registry the object is gone afterwards and every other object stays |
| EventSystem.RegisterUnregisterRoundTrip | unity/TemporalVR/Assets/Scripts/TemporalVR/TEventSystem.cs:122-141 | registering then unregistering a new object restores the registry |
| EventSystem.ApplyTimeToAllObjects | unity/TemporalVR/Assets/Scripts/TemporalVR/TEventSystem.cs:146-155 | one brush call per live registered object, in order, at its position with strength 1 and the given time |
| EventSystem.ApplyTimeVisitsEachOnce | unity/TemporalVR/Assets/Scripts/TemporalVR/TEventSystem.cs:146-155 | every live registered object is visited, and exactly once |
| Feedback.TimeToColorParam | unity/TemporalVR/Assets/Scripts/TemporalVR/Core/TVR_Feedback.cs:294 | the colour parameter time / 100 is clamped to [0, 1] |
| Feedback.UpdateBrushTrail | unity/TemporalVR/Assets/Scripts/TemporalVR/Core/TVR_Feedback.cs:372-411 | the trail never exceeds 20 positions; the renderer shows the trail's points in insertion order; the trail colour uses the clamped parameter |
| Feedback.TrailIsLastTwenty | unity/TemporalVR/Assets/Scripts/TemporalVR/Core/TVR_Feedback.cs:384-393 | the trail is first-in first-out: after any run of updates it holds exactly the newest min(n, 20) positions, oldest first |
| Feedback.ClearBrushTrail | unity/TemporalVR/Assets/Scripts/TemporalVR/Core/TVR_Feedback.cs:416-423 | the trail is emptied and an existing renderer shows no points |
| Feedback.GetModeColor | unity/TemporalVR/Assets/Scripts/TemporalVR/Core/TVR_Feedback.cs:256-266 | every mode colour is opaque |
| Feedback.ModeColorsDistinct | unity/TemporalVR/Assets/Scripts/TemporalVR/Core/TVR_Feedback.cs:30-33 | two modes share a colour iff they are the same mode |
| Feedback.UpdateModeColor | unity/TemporalVR/Assets/Scripts/TemporalVR/Core/TVR_Feedback.cs:232-254 | with indicators, exactly the given mode's indicator is active; without them nothing changes |
| Feedback.UpdateModeIndicators | unity/TemporalVR/Assets/Scripts/TemporalVR/Core/TVR_Feedback.cs:181-189 | the same activation, throwing (with no change) when the indicators were never created |
| Brush.StartStroke | unity/TemporalVR/Assets/Scripts/TemporalVR/Brush/TBrushData.cs:135-141 | recording is on and the stroke holds exactly the one new sample |
| Brush.UpdateStroke | unity/TemporalVR/Assets/Scripts/TemporalVR/Brush/TBrushData.cs:156-161 | ignored unless recording; otherwise exactly one sample is appended |
| Brush.EndStroke | unity/TemporalVR/Assets/Scripts/TemporalVR/Brush/TBrushData.cs:177-179 | recording is off and the samples are kept |
| Brush.StrokeRecordsSamples | unity/TemporalVR/Assets/Scripts/TemporalVR/Brush/TBrushData.cs:135-188 | start, any run of updates and end record exactly the samples given, in order |
| Brush.SetBrushRadius | unity/TemporalVR/Assets/Scripts/TemporalVR/Brush/TBrushData.cs:283-285 | the radius is never below 0.1 and equals any requested radius of at least 0.1 |
| Brush.SetBrushMode | unity/TemporalVR/Assets/Scripts/TemporalVR/Brush/TBrushData.cs:290-294 | the mode changes and nothing else |
| Brush.TargetTimeFrom | unity/TemporalVR/Assets/Scripts/TemporalVR/Brush/TBrushData.cs:237-258 | Absolute returns the brush time; Relative lies in [0, 100]; Smooth lies between the current and brush times; Ripple, and only Ripple, gives no value |
| Brush.CalculateTargetTime | unity/TemporalVR/Assets/Scripts/TemporalVR/Brush/TBrushData.cs:231-260 | the same with the current time fixed at 0, as written |
| Brush.RelativeIgnoresObjectTime | unity/TemporalVR/Assets/Scripts/TemporalVR/Brush/TBrushData.cs:234-246 | as written, a neutral Relative stroke sends any object to time 0 |
| Brush.RelativeKeepsObjectTime | unity/TemporalVR/Assets/Scripts/TemporalVR/Brush/TBrushData.cs:243-246 | reading the object's time, a neutral Relative stroke leaves it where it is |
| Brush.RelativeMonotone | unity/TemporalVR/Assets/Scripts/TemporalVR/Brush/TBrushData.cs:245-246 | for non-negative strength a later brush time never gives an earlier Relative target |
| Brush.SmoothEndpoints | unity/TemporalVR/Assets/Scripts/TemporalVR/Brush/TBrushData.cs:250 | Smooth reaches the brush time from strength 10 up and stays at the current time from strength 0 down |
| Calendar.OrdinalNext | automation/end_session.py:87-91 | the day number of the next calendar date is one more |
| Calendar.ProjectDayCounts | automation/end_session.py:87-91 | the start date 2025-06-26 is day 1 and each calendar day adds one |
| Calendar.ProjectDayLandmarks | automation/update_contexs.py:12-15 | 2025-07-09 is day 14 and 2026-01-01 is day 190 |
| Automation.PhaseIsStepCount | automation/temporal_vr_automation.py:390-405 | the phase of a day is the number of phase ends (14, 60, 120, 180, 240, 300) strictly below it |
| Automation.PhaseMonotone | automation/temporal_vr_automation.py:390-405 | a later day is never in an earlier phase |
| Automation.ResearchFocus | automation/temporal_vr_automation.py:407-417 | the focus is always one of the three research questions |
| Automation.ResearchFocusCycles | automation/temporal_vr_automation.py:407-417 | the question advances every week, repeats every 21 days, and the "General research" default is never reached |
| Automation.CurrentPaperFocus | automation/temporal_vr_automation.py:419-430 | progress below 20 is literature review, 80 and above results; in [0, 100) the focus index is progress / 20 rounded down |
| Automation.PaperFocusMonotone | automation/temporal_vr_automation.py:419-430 | more progress never moves the paper focus back |
| Automation.FormatList | automation/temporal_vr_automation.py:546-550 | an empty list gives "- None"; otherwise "- item" lines joined by newlines |
| Automation.FormatListLines | automation/temporal_vr_automation.py:546-550 | the output's lines are exactly one "- item" per item, in order |
| Automation.ListItems | automation/end_session.py:83-85 | the printed items are never empty; a list argument keeps exactly its non-empty items with their multiplicities; every non-blank stripped comma piece of a string argument is printed |
| Automation.NonEmpty | automation/end_session.py:85 | the items with every empty one removed and the others kept with their multiplicities |
| Automation.NonEmptyAppend | automation/end_session.py:85 | filtering distributes over concatenation, so the kept items keep their order |
| Automation.CommaItems | automation/end_session.py:84 | the pieces of a string argument are non-empty and contain no comma, and every non-blank stripped piece of the split is among them |
| Automation.CommaItemsOfJoin | automation/end_session.py:84 | a string joined by commas from comma-free pieces gives exactly those pieces, stripped and with blanks dropped, in order |
| Automation.StrippedNonEmpty | automation/end_session.py:84 | every kept piece is non-blank, comma-free and has no whitespace at either end, there are no more pieces than the split produced, and every non-blank stripped piece is kept |
| Automation.StrippedMember | automation/end_session.py:84 | x is kept iff it is non-blank and the stripped form of some piece |
| Automation.StrippedAppend | automation/end_session.py:84 | stripping and dropping blanks distributes over concatenation, so the pieces keep their order |
| Automation.StrippedOne | automation/end_session.py:84 | one piece is kept, stripped, iff its stripped form is not blank |
| Automation.TextItems | automation/end_session.py:83-85 | the falsy-item filter of the join changes nothing for a string argument: its items are already non-empty |
| Automation.TextItemMember | automation/end_session.py:83-85 | a string argument prints x iff x is a non-blank stripped piece of its comma split |
| Automation.TextItemsOfJoin | automation/end_session.py:83-85 | a string joined by commas from comma-free pieces prints exactly those pieces, stripped and with blanks dropped, in order |
| Automation.FormatListEnd | automation/end_session.py:81-85 | the output is empty exactly when there is no item to print |
| Automation.FormatListEndLines | automation/end_session.py:85 | the output's lines are exactly one "- item" per printed item, in order |
| Automation.FormattersCompared | automation/end_session.py:81-85 | the two scripts' formatters agree on non-empty lists and differ on the empty list ("- None" against "") |
| Automation.CalculateProgress | automation/temporal_vr_automation.py:136-161 | when file counting fails the schedule progress day / 330 × 100 is returned unchanged; otherwise the result is at most 100, at most the schedule progress plus the cap, and below the schedule progress only when clamped to 100 |
| Automation.ProgressMonotoneInFiles | automation/temporal_vr_automation.py:157-158 | on the normal path progress is at most 100, its bonus at most 15 (10 in the context script), and more files never lower it |
| Automation.SuggestTodayFocus | automation/temporal_vr_automation.py:186-222 | days 1 to 14 use the fixed day table, earlier days the foundation default, later days the weekday table; "General development" appears only for weekdays outside 0..6 |
| Automation.SuggestContextFocus | automation/update_contexs.py:106-122 | the weekday table answers every weekday 0..6; the default only outside it |
| Automation.WeekdayTablesInjective | automation/update_contexs.py:112-120 | each weekday has its own focus in both tables |
| Automation.DetectBlockers | automation/temporal_vr_automation.py:224-256 | the list is never empty, and it is the single "no blockers" line exactly when no TODO keyword, fix commit or large file was found |
| Automation.DetectContextBlockers | automation/update_contexs.py:124-147 | an unreadable TODO.md raises; otherwise the list is never empty, and it is the single "no blockers" line exactly when no TODO keyword and no fix or bug commit was found |
| Automation.LoadYesterdaySummary | automation/temporal_vr_automation.py:163-184 | a missing file, or a file with no "## 2025-" or "## 2026-" heading, gives "No previous work recorded"; otherwise the result is the window summary under the last such heading |
| Automation.YesterdayFromLines | automation/temporal_vr_automation.py:170-182 | the backwards search over the lines returns "No previous work recorded" exactly in the no-heading case and otherwise the window summary of the last heading: up to three stripped kept lines among the nine after it, or "No summary found" |
| Automation.LastHeadingIsLast | automation/temporal_vr_automation.py:173-174 | the heading the backwards search stops at is a date heading with no date heading after it, and "not found" means no line is a date heading |
| Automation.LastHeadingFinds | automation/update_contexs.py:86-87 | over the whole file the search answers exactly the last date heading, and answers nothing exactly when there is none |
| Automation.ExtractSectionSummary | automation/update_contexs.py:94-104 | the scan that stops at the next "## " line or after three kept lines returns the first three stripped, non-blank, non-"#" lines of the whole section under the heading, joined by spaces; a start past the end gives "" |
| Automation.CollectSummary | automation/update_contexs.py:96-103 | the early-exit loop collects exactly the first three lines of the section's full reference reading |
| Automation.ScanLine | automation/update_contexs.py:98-103 | one loop step either stops with the first three lines of what was collected plus the rest of the section, or keeps fewer than three and loses nothing of the section |
| Automation.LoadContextSummary | automation/update_contexs.py:77-92 | a missing file, or one with no "## 2025-" heading, gives "No previous work recorded"; otherwise the section summary under the last "## 2025-" heading |
| Automation.ContextFromLines | automation/update_contexs.py:85-90 | the backwards search followed by extract_section_summary yields the context read of the lines |
| Automation.SummaryUnder | automation/update_contexs.py:87-90 | given the search's answer, the scan yields the declarative context read |
| Automation.ContextSummaryIsRead | automation/update_contexs.py:85-90 | the declarative context read is "No previous work recorded" without a "## 2025-" heading and the section summary of the last such heading otherwise |
| Automation.ReadersAgree | automation/temporal_vr_automation.py:176-181 | when three kept lines fall within the nine-line window, the window reader returns the same lines as the unbounded reader |

`Morph.KeyframeCount` and `EventSystem.GetRegisteredObjects` are plain accessors; their contracts only restate the getters, so they have no row.

## Left out

- Rendering and scene code (materials, gradients, line-renderer widths, particles, text, gizmos, game-object creation) has no logic of its own; the trail colour is kept as one colour, not a gradient.
- Physics raycasts and XR input reads are inputs of the controller model, and `Physics.OverlapSphere` is the engine query `overlap`, a parameter returning the colliders with an id and a TemporalObject flag; the brush's effect on nearby objects (`ApplyTemporalBrushToNearbyObjects`) is left out because it only feeds engine queries into `CalculateTargetTime` and `UpdateToTime`.
- Coroutines (`ShowBrushArea`, playback animation) and the `lock (meshLock)` of TMorphObj are scheduling and concurrency, which this sequential model does not represent.
- Saving and loading morph data through the third-party ES3 plugin is left out, because the plugin's code is not part of this model.
- Brush Ripple mode uses `Mathf.Sin` of the engine clock and is not modelled; `CalculateTargetTime` returns `None` for it.
- The animation-curve falloff of the brush data component and the `maxTimeChange` field only feed Ripple and the nearby-object brush, both left out.
- File I/O, git subprocesses, `input()` prompts and `datetime.now()` of the automation scripts are parameters; `prepare_tomorrow_context` uses an unimported name and is left out.
- Automation.DetectBlockers: the large-file scan is a parameter (the name of the first large file found), and case mapping is ASCII-only, weaker than Python's Unicode `upper` / `lower`.
- Automation.LoadYesterdaySummary: the exception path ("Could not load yesterday's summary") is not modelled; a missing file is `None`.
- Automation.LoadContextSummary: likewise, the bare `except` branch ("Could not load yesterday's summary") is not modelled; a missing file is `None`.
- Automation.CalculateProgress: file counting is a parameter; `None` stands for the exception path, which returns the uncapped schedule progress.
- Morph.UpdateToTime: on the interpolating path only (not updating, two or more keyframes, a working mesh) requires that the first pair bracketing the clamped time has distinct times (`SegmentDefined`), because such a pair with equal times divides 0 by 0 at TMorphObj.cs:125 and real arithmetic has no NaN; repeated times elsewhere in the list are allowed. `Morph.Interpolate` and `Morph.UpdateToTimeFindsSegment` carry the same requires.
- TemporalMesh.Falloff: requires a non-zero brush radius; a zero radius divides by zero in the source. The same requires is carried by `MorphV2.MarkedTime`, `MorphV2.MarkTimeAtPosition`, `MorphV2.MarkTimeKeepsUnitRange`, `MorphV2.InterpolateBrushStroke`, `MorphV2.MarkTemporalData`, `MorphV2.MarkTemporalDataKeepsUnitRange` and the stroke step count.
- TemporalMesh.ApplyTemporalBrush: requires non-negative neighbour indices (a negative index would throw in the source) and at most as many mesh vertices as vertex times; a longer vertex array would throw at the first out-of-range vertex.
- MorphV2.UpdateMeshForPlayback: requires well-formed temporal data (one time and one normal per original vertex); a shorter array throws in the source.
- MorphV2.PlaybackVertex: the lerped position is stated as lying between the two keyframes' positions (and equal to a keyframe's at its time, in `MorphV2.PlaybackAtKeyframe`), not as the exact lerp at every parameter; the slerped normal is the engine's and is not stated.
- Controller.ScrubbedTime: requires a non-zero timeline length, which the serialized default (10 in all three variants) satisfies.
- Controller.CursorFraction: requires a non-zero temporal range, which the serialized default (100) satisfies.
- Controller.PaintFrame: the Core variant's `BroadcastObjectSelected` for the Shift hit and its brush on a `TMorphTest` component under the ray are not modelled, because hits carry no object identity and `TMorphTest.cs` is not part of this model; the feedback calls (`ShowBrushEffect`, the trail) assume the feedback component is present.
- The controllers' serialized settings are fixed to their defaults in `DefaultSettings` but can be passed in; feedback mode colours are the serialized defaults.
- `InitializeTemporalData` and mesh setup of TMorphObj_V2 only copy engine arrays, and are represented by `WellFormed` surfaces.
- The non-Core `TVR_Feedback.cs`, `TVR_Setup.cs`, `TObject.cs`, `PerformanceMonitor.cs`, `TMorphTest.cs` and the Blender script are not part of this model (UI, editor setup, profiling and bpy calls).
- Null objects in the event-system registry are represented by the `alive` predicate; registering a null reference is not modelled.

## Findings

| source | as written | input that shows it | evidently intended | confidence | as-written member | corrected member |
|---|---|---|---|---|---|---|
| unity/TemporalVR/Assets/Scripts/TemporalVR/Brush/TBrushData.cs:234-246 | the object's current time is a local fixed at 0; the getter's result is discarded (and `GetCurrentTime` is not declared in TMorphObj.cs, so the call does not resolve against that class as given) | Relative mode, object at time 50, brush time 50 (or strength 0): target 0 | a neutral stroke leaves the object at its time, 50 | high, not executed | Brush.CalculateTargetTime, Brush.RelativeIgnoresObjectTime | Brush.TargetTimeFrom, Brush.RelativeKeepsObjectTime |
| unity/TemporalVR/Assets/Scripts/TemporalVR/Morphing/TMorphObj_V2.cs:382-385 | the handler subscribed to the global time change multiplies the received time by the timeline length as if it were a fraction in [0, 1], but the controllers broadcast their own time, in [0, temporalRange] | a Core scrub to time 50 of 100 (unity/TemporalVR/Assets/Scripts/TemporalVR/Core/TVR_Controller.cs:275-278) shows the end of the timeline, the same as time 1 or 100 | the received time divided by the controllers' temporal range before scaling, so scrubbing sweeps the whole timeline | medium, not executed | MorphV2.OnGlobalTimeChanged, MorphV2.ControllerTimesCollapse | MorphV2.OnControllerTimeChanged, MorphV2.CorrectedTimePreservesOrder |

=== FILE: automation.dfy ===
/**
 The pure helpers of the project automation scripts: the schedule of phases,
 research questions and paper focus, markdown list formatting, the capped
 progress estimate, the daily focus tables, the blocker list and the
 extraction of the latest daily-notes summary. File, git and clock access
 become parameters.
 */
module Automation {
  import opened Wrappers
  import opened Text

  // ---------------------------------------------------------------------------
  // Schedules
  // ---------------------------------------------------------------------------

  datatype Phase =
    | FoundationSetup | CoreDevelopment | FeatureImplementation
    | TestingOptimization | UserStudies | PaperWriting | FinalPreparation

  function PhaseIndex(p: Phase): nat
  {
    match p
    case FoundationSetup => 0
    case CoreDevelopment => 1
    case FeatureImplementation => 2
    case TestingOptimization => 3
    case UserStudies => 4
    case PaperWriting => 5
    case FinalPreparation => 6
  }

  function PhaseName(p: Phase): string
  {
    match p
    case FoundationSetup => "Foundation & Setup"
    case CoreDevelopment => "Core Development"
    case FeatureImplementation => "Feature Implementation"
    case TestingOptimization => "Testing & Optimization"
    case UserStudies => "User Studies"
    case PaperWriting => "Paper Writing"
    case FinalPreparation => "Final Preparation"
  }

  /** The last day of each phase but the final one. */
  const PhaseEnds: seq<int> := [14, 60, 120, 180, 240, 300]

  /** How many of the bounds lie strictly below day. */
  function CountBelow(bounds: seq<int>, day: int): (n: nat)
    ensures n <= |bounds|
  {
    if |bounds| == 0 then 0
    else (if bounds[0] < day then 1 else 0) + CountBelow(bounds[1..], day)
  }

  /** _get_current_phase. */
  function CurrentPhase(day: int): Phase
  {
    if day <= 14 then FoundationSetup
    else if day <= 60 then CoreDevelopment
    else if day <= 120 then FeatureImplementation
    else if day <= 180 then TestingOptimization
    else if day <= 240 then UserStudies
    else if day <= 300 then PaperWriting
    else FinalPreparation
  }

  /** The phase of a day is the number of phase ends it has passed. */
  lemma PhaseIsStepCount(day: int)
    ensures PhaseIndex(CurrentPhase(day)) == CountBelow(PhaseEnds, day)
  {
    var one := if 300 < day then 1 else 0;
    assert CountBelow([300], day) == one;
    assert CountBelow([240, 300], day) == (if 240 < day then 1 else 0) + one;
    assert CountBelow([180, 240, 300], day) == (if 180 < day then 1 else 0) + CountBelow([240, 300], day);
    assert CountBelow([120, 180, 240, 300], day) == (if 120 < day then 1 else 0) + CountBelow([180, 240, 300], day);
    assert CountBelow([60, 120, 180, 240, 300], day) == (if 60 < day then 1 else 0) + CountBelow([120, 180, 240, 300], day);
    assert CountBelow(PhaseEnds, day) == (if 14 < day then 1 else 0) + CountBelow([60, 120, 180, 240, 300], day);
  }

  /** Raising a bound never raises the count below it. */
  lemma {:induction false} CountBelowMonotone(bounds: seq<int>, d1: int, d2: int)
    requires d1 <= d2
    ensures CountBelow(bounds, d1) <= CountBelow(bounds, d2)
  {
    if |bounds| > 0 {
      CountBelowMonotone(bounds[1..], d1, d2);
    }
  }

  /** Phases never go back: a later day is in the same or a later phase. */
  lemma PhaseMonotone(d1: int, d2: int)
    requires d1 <= d2
    ensures PhaseIndex(CurrentPhase(d1)) <= PhaseIndex(CurrentPhase(d2))
  {
    PhaseIsStepCount(d1);
    PhaseIsStepCount(d2);
    CountBelowMonotone(PhaseEnds, d1, d2);
  }

  /** Python's dict.get with a default. */
  function Get(m: map<int, string>, k: int, default: string): (r: string)
    ensures k in m ==> r == m[k]
    ensures k !in m ==> r == default
  {
    if k in m then m[k] else default
  }

  const ResearchQuestions: map<int, string> := map[
    0 := "RQ1: Intuitive time dimension representation in VR",
    1 := "RQ2: Efficient temporal manipulation paradigms",
    2 := "RQ3: Creative workflow enhancements"]

  const GeneralResearch := "General research"

  /** The research question index of a day: week ((day - 1) // 7) modulo 3,
      both with Python's floor semantics. */
  function ResearchCycle(day: int): (c: int)
    ensures 0 <= c < 3
  {
    ((day - 1) / 7) % 3
  }

  /** _get_current_research_focus. */
  function ResearchFocus(day: int): (r: string)
    ensures r == ResearchQuestions[ResearchCycle(day)]
  {
    Get(ResearchQuestions, ResearchCycle(day), GeneralResearch)
  }

  /** The focus moves to the next question every week and repeats every
      21 days, for every day including days before the start; the default
      "General research" is never produced. */
  lemma ResearchFocusCycles(day: int)
    ensures ResearchCycle(day + 7) == (ResearchCycle(day) + 1) % 3
    ensures ResearchFocus(day + 21) == ResearchFocus(day)
    ensures ResearchFocus(day) != GeneralResearch
  {
    var w := (day - 1) / 7;
    assert (day + 7 - 1) / 7 == w + 1;
    assert (day + 21 - 1) / 7 == w + 3;
    WeekShift(w);
    var c := ResearchCycle(day);
    assert ResearchCycle(day + 21) == c;
    assert ResearchQuestions[c] != GeneralResearch by {
      assert c == 0 || c == 1 || c == 2;
    }
  }

  /** The next week moves one place round the three questions, three weeks
      return to the same one. */
  lemma WeekShift(w: int)
    ensures (w + 1) % 3 == (w % 3 + 1) % 3
    ensures (w + 3) % 3 == w % 3
  {
    var q := w / 3;
    assert w == 3 * q + w % 3;
    assert w + 3 == 3 * (q + 1) + w % 3;
    if w % 3 == 2 {
      assert w + 1 == 3 * (q + 1);
    } else {
      assert w + 1 == 3 * q + (w % 3 + 1);
    }
  }

  datatype PaperFocus =
    | LiteratureReview | MethodOutline | ImplementationDetails
    | EvaluationDesign | ResultsDiscussion

  function PaperFocusIndex(f: PaperFocus): nat
  {
    match f
    case LiteratureReview => 0
    case MethodOutline => 1
    case ImplementationDetails => 2
    case EvaluationDesign => 3
    case ResultsDiscussion => 4
  }

  /** _get_current_paper_focus: one step per 20 points of progress, capped at
      the last step. */
  function CurrentPaperFocus(progress: real): (f: PaperFocus)
    ensures progress < 20.0 <==> f == LiteratureReview
    ensures progress >= 80.0 <==> f == ResultsDiscussion
    ensures 0.0 <= progress < 100.0 ==> (PaperFocusIndex(f) as real) * 20.0 <= progress < (PaperFocusIndex(f) as real + 1.0) * 20.0
  {
    if progress < 20.0 then LiteratureReview
    else if progress < 40.0 then MethodOutline
    else if progress < 60.0 then ImplementationDetails
    else if progress < 80.0 then EvaluationDesign
    else ResultsDiscussion
  }

  /** More progress never moves the paper focus back. */
  lemma PaperFocusMonotone(p1: real, p2: real)
    requires p1 <= p2
    ensures PaperFocusIndex(CurrentPaperFocus(p1)) <= PaperFocusIndex(CurrentPaperFocus(p2))
  {
  }

  // ---------------------------------------------------------------------------
  // Markdown lists
  // ---------------------------------------------------------------------------

  /** Each item as a "- item" line. */
  function Bullets(items: seq<string>): (r: seq<string>)
    ensures |r| == |items|
    ensures forall i :: 0 <= i < |items| ==> r[i] == "- " + items[i]
  {
    seq(|items|, i requires 0 <= i < |items| => "- " + items[i])
  }

  /** _format_list of the automation script. */
  function FormatList(items: seq<string>): (r: string)
    ensures |items| == 0 ==> r == "- None"
    ensures |items| > 0 ==> r == Join("\n", Bullets(items))
  {
    if |items| == 0 then "- None" else Join("\n", Bullets(items))
  }

  /** A bullet line holds no newline when its item holds none. */
  lemma BulletsHaveNoNewline(items: seq<string>)
    requires forall i :: 0 <= i < |items| ==> '\n' !in items[i]
    ensures forall k :: 0 <= k < |Bullets(items)| ==> '\n' !in Bullets(items)[k]
  {
    forall k | 0 <= k < |items|
      ensures '\n' !in Bullets(items)[k]
    {
      assert Bullets(items)[k] == "- " + items[k];
    }
  }

  /** The lines of _format_list's output are exactly the items' bullets, in
      order; the empty list gives the single line "- None". */
  lemma FormatListLines(items: seq<string>)
    requires forall i :: 0 <= i < |items| ==> '\n' !in items[i]
    ensures |items| > 0 ==> Split(FormatList(items), '\n') == Bullets(items)
    ensures |items| == 0 ==> Split(FormatList(items), '\n') == ["- None"]
  {
    if |items| > 0 {
      BulletsHaveNoNewline(items);
      SplitJoin(Bullets(items), '\n');
    } else {
      SplitNoSeparator("- None", '\n');
    }
  }

  /** The items with the empty (falsy) strings removed, in order. */
  function NonEmpty(items: seq<string>): (r: seq<string>)
    ensures |r| <= |items|
    ensures forall k :: 0 <= k < |r| ==> r[k] != ""
    ensures multiset(r) == multiset(items)["" := 0]
  {
    if |items| == 0 then []
    else
      assert items == [items[0]] + items[1..];
      (if items[0] == "" then [] else [items[0]]) + NonEmpty(items[1..])
  }

  /** Filtering distributes over concatenation, so the kept items stay in
      their original order. */
  lemma {:induction false} NonEmptyAppend(a: seq<string>, b: seq<string>)
    ensures NonEmpty(a + b) == NonEmpty(a) + NonEmpty(b)
  {
    if |a| == 0 {
      assert a + b == b;
    } else {
      var c := a + b;
      assert c[0] == a[0] && c[1..] == a[1..] + b;
      NonEmptyAppend(a[1..], b);
      assert NonEmpty(c) == (if a[0] == "" then [] else [a[0]]) + NonEmpty(c[1..]);
    }
  }

  /** A single item is kept iff it is non-empty. */
  lemma NonEmptyOne(x: string)
    ensures NonEmpty([x]) == if x == "" then [] else [x]
  {
  }

  /** The stripped pieces of a comma-separated string, blanks dropped. */
  function CommaItems(s: string): (r: seq<string>)
    ensures forall k :: 0 <= k < |r| ==> r[k] != "" && ',' !in r[k]
    ensures forall j :: 0 <= j < |Split(s, ',')| && Strip(Split(s, ',')[j]) != "" ==> Strip(Split(s, ',')[j]) in r
  {
    var pieces := Split(s, ',');
    StrippedNonEmpty(pieces)
  }

  /** A list item as format_list keeps it: non-blank, comma-free and with no
      whitespace at either end. */
  predicate IsItem(p: string)
  {
    p != "" && ',' !in p && !IsSpace(p[0]) && !IsSpace(p[|p| - 1])
  }

  function StrippedNonEmpty(pieces: seq<string>): (r: seq<string>)
    requires forall k :: 0 <= k < |pieces| ==> ',' !in pieces[k]
    ensures |r| <= |pieces|
    ensures forall k :: 0 <= k < |r| ==> IsItem(r[k])
    ensures forall j :: 0 <= j < |pieces| && Strip(pieces[j]) != "" ==> Strip(pieces[j]) in r
  {
    if |pieces| == 0 then []
    else
      var p := Strip(pieces[0]);
      StripKeepsOut(pieces[0], ',');
      var rest := StrippedNonEmpty(pieces[1..]);
      assert forall j :: 1 <= j < |pieces| ==> pieces[j] == pieces[1..][j - 1];
      if p == "" then rest else [p] + rest
  }

  /** Stripping and dropping blanks distributes over concatenation: the pieces
      keep their order. */
  lemma {:induction false} StrippedAppend(a: seq<string>, b: seq<string>)
    requires forall k :: 0 <= k < |a| ==> ',' !in a[k]
    requires forall k :: 0 <= k < |b| ==> ',' !in b[k]
    ensures StrippedNonEmpty(a + b) == StrippedNonEmpty(a) + StrippedNonEmpty(b)
  {
    if |a| == 0 {
      assert a + b == b;
    } else {
      assert (a + b)[1..] == a[1..] + b;
      StrippedAppend(a[1..], b);
    }
  }

  /** x is one of the pieces, stripped, and not blank. */
  predicate IsPieceOf(pieces: seq<string>, x: string)
  {
    x != "" && exists j :: 0 <= j < |pieces| && Strip(pieces[j]) == x
  }

  /** The kept pieces are exactly the non-blank stripped pieces. */
  lemma {:induction false} StrippedMember(pieces: seq<string>, x: string)
    requires forall k :: 0 <= k < |pieces| ==> ',' !in pieces[k]
    ensures x in StrippedNonEmpty(pieces) <==> IsPieceOf(pieces, x)
  {
    if |pieces| > 0 {
      var tail := pieces[1..];
      StrippedMember(tail, x);
      if exists j :: 0 <= j < |tail| && Strip(tail[j]) == x {
        var j :| 0 <= j < |tail| && Strip(tail[j]) == x;
        assert Strip(pieces[j + 1]) == x;
      }
      if exists j :: 0 <= j < |pieces| && Strip(pieces[j]) == x {
        var j :| 0 <= j < |pieces| && Strip(pieces[j]) == x;
        if j > 0 {
          assert Strip(tail[j - 1]) == x;
        }
      }
    }
  }

  /** One piece is kept, stripped, iff it is not blank. */
  lemma StrippedOne(p: string)
    requires ',' !in p
    ensures StrippedNonEmpty([p]) == if Strip(p) == "" then [] else [Strip(p)]
  {
  }

  /** A string made by joining comma-free pieces with commas yields exactly
      those pieces, stripped and with blanks dropped, in order. */
  lemma CommaItemsOfJoin(ps: seq<string>)
    requires |ps| >= 1
    requires forall k :: 0 <= k < |ps| ==> ',' !in ps[k]
    ensures CommaItems(Join(",", ps)) == StrippedNonEmpty(ps)
  {
    SplitJoin(ps, ',');
  }

  /** A character absent from s is absent from its stripped form. */
  lemma StripKeepsOut(s: string, c: char)
    requires c !in s
    ensures c !in Strip(s)
  {
    var r := Strip(s);
    StripIsInfix(s);
    var i :| 0 <= i <= |s| - |r| && OccursAt(s, r, i);
  }

  /** format_list's argument: a comma-separated string or a list. */
  datatype ListArg = Text(s: string) | Items(items: seq<string>)

  /** The items format_list prints: the comma pieces of a string, or the
      list's items, with falsy (empty) items skipped. */
  function ListItems(arg: ListArg): (items: seq<string>)
    ensures forall k :: 0 <= k < |items| ==> items[k] != ""
    ensures arg.Items? ==> multiset(items) == multiset(arg.items)["" := 0]
    ensures arg.Text? ==> forall j :: 0 <= j < |Split(arg.s, ',')| && Strip(Split(arg.s, ',')[j]) != "" ==>
      Strip(Split(arg.s, ',')[j]) in items
  {
    match arg
    case Text(s) => NonEmptyKeeps(CommaItems(s)); NonEmpty(CommaItems(s))
    case Items(xs) => NonEmpty(xs)
  }

  /** format_list of the end-of-session script: nothing to print gives the
      empty string (not "- None"). */
  function FormatListEnd(arg: ListArg): (r: string)
    ensures r == "" <==> ListItems(arg) == []
  {
    var bullets := Bullets(ListItems(arg));
    assert |bullets| > 0 ==> |bullets[0]| >= 2;
    Join("\n", bullets)
  }

  /** A string argument's items are its stripped comma pieces, blanks dropped. */
  lemma TextItems(s: string)
    ensures ListItems(Text(s)) == CommaItems(s)
  {
    NonEmptyKeeps(CommaItems(s));
  }

  /** A string argument prints x iff x is a non-blank stripped comma piece. */
  lemma TextItemMember(s: string, x: string)
    ensures x in ListItems(Text(s)) <==> IsPieceOf(Split(s, ','), x)
  {
    var pieces := Split(s, ',');
    assert ListItems(Text(s)) == StrippedNonEmpty(pieces) by {
      TextItems(s);
    }
    StrippedMember(pieces, x);
  }

  /** A string joined from comma-free pieces prints exactly those pieces,
      stripped and with blanks dropped, in order. */
  lemma TextItemsOfJoin(ps: seq<string>)
    requires |ps| >= 1
    requires forall k :: 0 <= k < |ps| ==> ',' !in ps[k]
    ensures ListItems(Text(Join(",", ps))) == StrippedNonEmpty(ps)
  {
    TextItems(Join(",", ps));
    CommaItemsOfJoin(ps);
  }

  /** NonEmpty leaves a list of non-empty items alone. */
  lemma {:induction false} NonEmptyKeeps(items: seq<string>)
    requires forall k :: 0 <= k < |items| ==> items[k] != ""
    ensures NonEmpty(items) == items
  {
    if |items| > 0 {
      NonEmptyKeeps(items[1..]);
      assert [items[0]] + items[1..] == items;
    }
  }

  /** The two list formatters agree on non-empty lists of non-empty items and
      differ on the empty list: "- None" against "". */
  lemma FormattersCompared(items: seq<string>)
    requires forall k :: 0 <= k < |items| ==> items[k] != ""
    ensures |items| > 0 ==> FormatListEnd(Items(items)) == FormatList(items)
    ensures |items| == 0 ==> FormatList(items) == "- None" && FormatListEnd(Items(items)) == ""
  {
    NonEmptyKeeps(items);
    assert ListItems(Items(items)) == items;
  }

  /** Each line of format_list's output is "- " and one item, in order. */
  lemma FormatListEndLines(arg: ListArg)
    requires arg.Items? ==> forall i :: 0 <= i < |arg.items| ==> '\n' !in arg.items[i]
    requires arg.Text? ==> '\n' !in arg.s
    ensures |ListItems(arg)| > 0 ==> Split(FormatListEnd(arg), '\n') == Bullets(ListItems(arg))
  {
    var items := ListItems(arg);
    if arg.Text? {
      CommaItemsHaveNoNewline(arg.s);
      TextItems(arg.s);
    } else {
      forall k | 0 <= k < |items|
        ensures '\n' !in items[k]
      {
        assert items[k] in multiset(items);
        assert items[k] in arg.items;
      }
    }
    if |items| > 0 {
      BulletsHaveNoNewline(items);
      SplitJoin(Bullets(items), '\n');
    }
  }

  /** A newline-free text gives newline-free comma items. */
  lemma CommaItemsHaveNoNewline(s: string)
    requires '\n' !in s
    ensures forall k :: 0 <= k < |CommaItems(s)| ==> '\n' !in CommaItems(s)[k]
  {
    var pieces := Split(s, ',');
    SplitPiecesFrom(s, ',', '\n');
    StrippedNonEmptyNoNewline(pieces);
  }

  /** Every piece of a split is made of characters of the string. */
  lemma {:induction false} SplitPiecesFrom(s: string, sep: char, c: char)
    requires c !in s
    ensures forall k :: 0 <= k < |Split(s, sep)| ==> c !in Split(s, sep)[k]
  {
    if |s| > 0 {
      assert c !in s[1..];
      SplitPiecesFrom(s[1..], sep, c);
    }
  }

  lemma {:induction false} StrippedNonEmptyNoNewline(pieces: seq<string>)
    requires forall k :: 0 <= k < |pieces| ==> ',' !in pieces[k] && '\n' !in pieces[k]
    ensures forall k :: 0 <= k < |StrippedNonEmpty(pieces)| ==> '\n' !in StrippedNonEmpty(pieces)[k]
  {
    if |pieces| > 0 {
      StripKeepsOut(pieces[0], '\n');
      StrippedNonEmptyNoNewline(pieces[1..]);
    }
  }

  // ---------------------------------------------------------------------------
  // Progress, focus, blockers
  // ---------------------------------------------------------------------------

  /** The schedule length in days. */
  const TotalDays: real := 330.0

  /** calculate_progress: day / 330 * 100 plus a per-file bonus capped at cap,
      the sum capped at 100. fileCount is None when counting the files raised;
      the uncapped schedule progress is returned then. */
  function CalculateProgress(day: int, fileCount: Option<nat>, perFile: real, cap: real): (r: real)
    requires perFile >= 0.0 && cap >= 0.0
    ensures var base := day as real / TotalDays * 100.0;
      && (fileCount.None? ==> r == base)
      && (fileCount.Some? ==> r <= 100.0 && r <= base + cap && (r == 100.0 || r >= base))
  {
    var base := day as real / TotalDays * 100.0;
    match fileCount
    case None => base
    case Some(n) =>
      var bonus := if n as real * perFile < cap then n as real * perFile else cap;
      if base + bonus < 100.0 then base + bonus else 100.0
  }

  /** Bonus settings of the two scripts: 0.3 per file up to 15, and 0.5 per
      file up to 10. */
  function AutomationProgress(day: int, fileCount: Option<nat>): real
  {
    CalculateProgress(day, fileCount, 0.3, 15.0)
  }

  function ContextProgress(day: int, fileCount: Option<nat>): real
  {
    CalculateProgress(day, fileCount, 0.5, 10.0)
  }

  /** More files never lower the progress; on the normal path it never passes
      100 and its bonus never passes the script's cap. */
  lemma ProgressMonotoneInFiles(day: int, n1: nat, n2: nat)
    requires n1 <= n2
    ensures AutomationProgress(day, Some(n1)) <= AutomationProgress(day, Some(n2))
    ensures ContextProgress(day, Some(n1)) <= ContextProgress(day, Some(n2))
    ensures AutomationProgress(day, Some(n2)) <= 100.0 && ContextProgress(day, Some(n2)) <= 100.0
    ensures AutomationProgress(day, Some(n2)) <= day as real / TotalDays * 100.0 + 15.0
    ensures ContextProgress(day, Some(n2)) <= day as real / TotalDays * 100.0 + 10.0
  {
    assert n1 as real * 0.3 <= n2 as real * 0.3;
    assert n1 as real * 0.5 <= n2 as real * 0.5;
  }

  const EarlyFocus: map<int, string> := map[
    1 := "Project setup and environment configuration",
    2 := "Unity VR project initialization and XR setup",
    3 := "Blender-Unity pipeline establishment",
    4 := "Basic temporal data structure design",
    5 := "First VR controller interaction",
    6 := "Temporal visualization prototype",
    7 := "Week 1 review and documentation",
    8 := "Temporal brush concept implementation",
    9 := "VR hand tracking refinement",
    10 := "Time dimension visualization tests",
    11 := "Performance baseline measurement",
    12 := "User interaction patterns design",
    13 := "Integration testing",
    14 := "Week 2 review and planning"]

  const WeekdayFocus: map<int, string> := map[
    0 := "Core feature development",
    1 := "Blender scripting & algorithms",
    2 := "Unity VR implementation",
    3 := "Integration & testing",
    4 := "Documentation & review",
    5 := "Experimentation & research",
    6 := "Planning & paper writing"]

  /** The weekday table of the context script. */
  const ContextWeekdayFocus: map<int, string> := map[
    0 := "Core feature development",
    1 := "Blender scripting",
    2 := "Unity VR implementation",
    3 := "Integration & testing",
    4 := "Documentation & review",
    5 := "Experimentation",
    6 := "Planning & research"]

  const FoundationDefault := "Foundation development"
  const GeneralDevelopment := "General development"

  /** suggest_today_focus of the automation script; weekday is Monday = 0. */
  function SuggestTodayFocus(day: int, weekday: int): (r: string)
    ensures 1 <= day <= 14 ==> r == EarlyFocus[day]
    ensures day <= 0 ==> r == FoundationDefault
    ensures day > 14 && 0 <= weekday <= 6 ==> r == WeekdayFocus[weekday]
    ensures r == GeneralDevelopment <==> day > 14 && !(0 <= weekday <= 6)
  {
    if day <= 14 then Get(EarlyFocus, day, FoundationDefault)
    else Get(WeekdayFocus, weekday, GeneralDevelopment)
  }

  /** suggest_today_focus of the context script: the weekday alone decides. */
  function SuggestContextFocus(weekday: int): (r: string)
    ensures 0 <= weekday <= 6 ==> r == ContextWeekdayFocus[weekday]
    ensures r == GeneralDevelopment <==> !(0 <= weekday <= 6)
  {
    Get(ContextWeekdayFocus, weekday, GeneralDevelopment)
  }

  /** Every day of the week has its own focus in both tables. */
  lemma WeekdayTablesInjective(w1: int, w2: int)
    requires 0 <= w1 <= 6 && 0 <= w2 <= 6 && w1 != w2
    ensures WeekdayFocus[w1] != WeekdayFocus[w2]
    ensures ContextWeekdayFocus[w1] != ContextWeekdayFocus[w2]
  {
  }

  const NoBlockers := "\U{2705} No blockers detected"
  const TodoBlocker := "\U{2757} Critical blockers in TODO.md"
  const TodoCritical := "\U{26A0}\U{FE0F} Critical issues in TODO.md"
  const RecentFixes := "\U{1F527} Recent bug fixes in progress"

  /** detect_blockers of the automation script. todo is the TODO file's text
      (None when it is missing or unreadable), lastCommit the last commit line
      and largeFile the name of the first large file found, if any. */
  function DetectBlockers(todo: Option<string>, lastCommit: string, largeFile: Option<string>): (r: seq<string>)
    ensures |r| >= 1
    ensures r == [NoBlockers] <==>
      && (todo.None? || (!Contains(Upper(todo.value), "BLOCKER") && !Contains(Upper(todo.value), "CRITICAL")))
      && !Contains(Lower(lastCommit), "fix")
      && largeFile.None?
  {
    var fromTodo :=
      if todo.None? then []
      else ((if Contains(Upper(todo.value), "BLOCKER") then [TodoBlocker] else [])
        + (if Contains(Upper(todo.value), "CRITICAL") then [TodoCritical] else []));
    var fromGit := if Contains(Lower(lastCommit), "fix") then [RecentFixes] else [];
    var fromFiles := if largeFile.Some? then ["\U{1F4E6} Large file warning: " + largeFile.value] else [];
    var blockers := fromTodo + fromGit + fromFiles;
    assert NoBlockers[0] == '\U{2705}';
    assert forall k :: 0 <= k < |blockers| ==> |blockers[k]| > 0 && blockers[k][0] != '\U{2705}';
    assert |blockers| > 0 ==> blockers[0][0] != NoBlockers[0];
    assert blockers != [NoBlockers];
    if blockers != [] then blockers else [NoBlockers]
  }

  const ContextNoBlockers := "No blockers detected"

  /** TODO.md as the context script finds it: absent, present but not readable
      as UTF-8 text, or its contents. */
  datatype TodoFile = Missing | Unreadable | Contents(text: string)

  /** detect_blockers of the context script; recentCommits is None when git
      fails. The TODO read has no try around it, so an unreadable file raises
      out of the call before any blocker is collected. */
  function DetectContextBlockers(todo: TodoFile, recentCommits: Option<string>): (r: Completion<seq<string>>)
    ensures r.Raised? <==> todo.Unreadable?
    ensures r.Raised? ==> r.state == []
    ensures r.Done? ==> |r.state| >= 1
    ensures r.Done? ==> (r.state == [ContextNoBlockers] <==>
      && (todo.Missing? || (!Contains(todo.text, "BLOCKER") && !Contains(todo.text, "CRITICAL")))
      && (recentCommits.None? || (!Contains(Lower(recentCommits.value), "fix") && !Contains(Lower(recentCommits.value), "bug"))))
  {
    if todo.Unreadable? then
      Raised([])
    else
      var fromTodo :=
        if todo.Contents? && (Contains(todo.text, "BLOCKER") || Contains(todo.text, "CRITICAL"))
        then ["Critical issues in TODO.md"] else [];
      var fromGit :=
        if recentCommits.Some? && (Contains(Lower(recentCommits.value), "fix") || Contains(Lower(recentCommits.value), "bug"))
        then ["Recent bug fixes needed"] else [];
      var blockers := fromTodo + fromGit;
      assert ContextNoBlockers[0] == 'N';
      assert forall k :: 0 <= k < |blockers| ==> |blockers[k]| > 0 && blockers[k][0] != 'N';
      assert |blockers| > 0 ==> blockers[0][0] != ContextNoBlockers[0];
      assert blockers != [ContextNoBlockers];
      Done(if blockers != [] then blockers else [ContextNoBlockers])
  }

  // ---------------------------------------------------------------------------
  // Daily notes summary
  // ---------------------------------------------------------------------------

  /** A line the summary keeps: not blank, not a heading. */
  predicate Kept(line: string)
  {
    Strip(line) != "" && !StartsWith(line, "#")
  }

  /** The stripped kept lines of lines[from..to] before the first "## " line. */
  function SectionLines(lines: seq<string>, from: nat, to: nat): (r: seq<string>)
    requires from <= to <= |lines|
    ensures |r| <= to - from
    decreases (to as int) - (from as int)
  {
    if from == to then []
    else if StartsWith(lines[from], "## ") then []
    else (if Kept(lines[from]) then [Strip(lines[from])] else []) + SectionLines(lines, from + 1, to)
  }

  /** The first k elements (all when there are fewer). */
  function Take(s: seq<string>, k: nat): (r: seq<string>)
    ensures |r| == if |s| < k then |s| else k
    ensures r == s[..|r|]
  {
    if |s| <= k then s else s[..k]
  }

  /** Which date headings a script looks for: the automation script accepts
      "## 2025-" and "## 2026-", the context script only "## 2025-". */
  datatype HeadingStyle = AnyYear | Only2025

  predicate IsDateHeading(style: HeadingStyle, line: string)
  {
    match style
    case AnyYear => StartsWith(line, "## 2025-") || StartsWith(line, "## 2026-")
    case Only2025 => StartsWith(line, "## 2025-")
  }

  /** The last index below n whose line is a date heading. */
  function LastHeading(lines: seq<string>, n: nat, style: HeadingStyle): (r: Option<nat>)
    requires n <= |lines|
    ensures r.Some? ==> r.value < n
  {
    if n == 0 then None
    else if IsDateHeading(style, lines[n - 1]) then Some(n - 1)
    else LastHeading(lines, n - 1, style)
  }

  /** LastHeading finds a heading with none after it, or reports that there
      is none at all. */
  lemma {:induction false} LastHeadingIsLast(lines: seq<string>, n: nat, style: HeadingStyle)
    requires n <= |lines|
    ensures var r := LastHeading(lines, n, style);
      && (r.Some? ==> IsDateHeading(style, lines[r.value]))
      && (r.Some? ==> forall k :: r.value < k < n ==> !IsDateHeading(style, lines[k]))
      && (r.None? ==> forall k :: 0 <= k < n ==> !IsDateHeading(style, lines[k]))
  {
    if n > 0 && !IsDateHeading(style, lines[n - 1]) {
      LastHeadingIsLast(lines, n - 1, style);
    }
  }

  /** Line i is a date heading of the style and no later line is one. */
  predicate IsLastHeading(lines: seq<string>, i: int, style: HeadingStyle)
  {
    && 0 <= i < |lines|
    && IsDateHeading(style, lines[i])
    && forall k :: i < k < |lines| ==> !IsDateHeading(style, lines[k])
  }

  /** No line is a date heading of the style. */
  predicate NoHeading(lines: seq<string>, style: HeadingStyle)
  {
    forall k :: 0 <= k < |lines| ==> !IsDateHeading(style, lines[k])
  }

  /** The backwards search over the whole file answers exactly the last
      heading, and nothing exactly when there is no heading. */
  lemma LastHeadingFinds(lines: seq<string>, style: HeadingStyle)
    ensures LastHeading(lines, |lines|, style).None? <==> NoHeading(lines, style)
    ensures forall i :: IsLastHeading(lines, i, style) <==> LastHeading(lines, |lines|, style) == Some(i)
  {
    LastHeadingIsLast(lines, |lines|, style);
  }

  const NoPreviousWork := "No previous work recorded"
  const NoSummary := "No summary found"

  /** What the automation script reads from the notes file's lines:
      NoPreviousWork when no line is a 2025 or 2026 heading, otherwise the
      window summary under the last such heading. */
  ghost predicate IsYesterdayRead(lines: seq<string>, r: string)
  {
    && (NoHeading(lines, AnyYear) ==> r == NoPreviousWork)
    && (forall i: nat :: IsLastHeading(lines, i, AnyYear) ==> r == WindowSummary(lines, i))
  }

  /** The kept lines among the (at most) nine lines after the heading at i,
      up to the next "## " line: their first three joined by spaces, or
      NoSummary when there are none. */
  function WindowSummary(lines: seq<string>, i: nat): string
    requires i < |lines|
  {
    var found := SectionLines(lines, i + 1, if i + 10 < |lines| then i + 10 else |lines|);
    if found == [] then NoSummary else Join(" ", Take(found, 3))
  }

  /** load_yesterday_summary of the automation script: notes is the notes
      file's text, None when the file does not exist. */
  function LoadYesterdaySummary(notes: Option<string>): (r: string)
    ensures notes.None? ==> r == NoPreviousWork
    ensures notes.Some? ==> IsYesterdayRead(Split(notes.value, '\n'), r)
  {
    match notes
    case None => NoPreviousWork
    case Some(content) => YesterdayFromLines(Split(content, '\n'))
  }

  /** The backwards search of load_yesterday_summary over the file's lines. */
  function YesterdayFromLines(lines: seq<string>): (r: string)
    ensures IsYesterdayRead(lines, r)
  {
    LastHeadingFinds(lines, AnyYear);
    match LastHeading(lines, |lines|, AnyYear)
    case None => NoPreviousWork
    case Some(i) => WindowSummary(lines, i)
  }

  /** The first three kept lines of the section under the heading at line
      `heading`, joined by spaces. */
  function SectionSummary(lines: seq<string>, heading: nat): string
    requires heading < |lines|
  {
    Join(" ", Take(SectionLines(lines, heading + 1, |lines|), 3))
  }

  /** extract_section_summary: scan from the line after the heading, stop at
      the next "## " line or once three lines are kept, join with spaces. */
  method ExtractSectionSummary(lines: seq<string>, startIdx: nat) returns (r: string)
    ensures startIdx < |lines| ==> r == SectionSummary(lines, startIdx)
    ensures startIdx >= |lines| ==> r == ""
  {
    if startIdx >= |lines| {
      return "";
    }
    var summary := CollectSummary(lines, startIdx + 1);
    r := Join(" ", summary);
  }

  /** The scanning loop of extract_section_summary. */
  method CollectSummary(lines: seq<string>, from: nat) returns (summary: seq<string>)
    requires from <= |lines|
    ensures summary == Take(SectionLines(lines, from, |lines|), 3)
  {
    summary := [];
    var i := from;
    ghost var all := SectionLines(lines, from, |lines|);
    while i < |lines|
      invariant from <= i <= |lines|
      invariant |summary| < 3
      invariant summary + SectionLines(lines, i, |lines|) == all
      decreases |lines| - i
    {
      var stop;
      summary, stop := ScanLine(lines, i, summary);
      if stop {
        return;
      }
      i := i + 1;
    }
    SectionEnds(lines, i);
    assert all == summary + [];
  }

  /** One line of the scan: a "## " line ends it, a kept line is appended
      stripped, any other line is skipped; the scan also ends once three
      lines are kept. On stopping, the summary is complete. */
  method ScanLine(lines: seq<string>, i: nat, summary: seq<string>) returns (next: seq<string>, stop: bool)
    requires i < |lines| && |summary| < 3
    ensures !stop ==> |next| < 3 && next + SectionLines(lines, i + 1, |lines|) == summary + SectionLines(lines, i, |lines|)
    ensures stop ==> next == Take(summary + SectionLines(lines, i, |lines|), 3)
  {
    if StartsWith(lines[i], "## ") {
      SectionEnds(lines, i);
      assert summary + SectionLines(lines, i, |lines|) == summary;
      return summary, true;
    }
    if Kept(lines[i]) {
      SectionKeeps(lines, i, summary);
      next := summary + [Strip(lines[i])];
      if |next| == 3 {
        TakeOfLonger(next, SectionLines(lines, i + 1, |lines|), 3);
        return next, true;
      }
    } else {
      SectionSkips(lines, i);
      next := summary;
    }
    stop := false;
  }

  /** The scan stops at the end of the lines or at the next "## " heading,
      adding nothing more. */
  lemma SectionEnds(lines: seq<string>, i: nat)
    requires i <= |lines|
    requires i == |lines| || StartsWith(lines[i], "## ")
    ensures SectionLines(lines, i, |lines|) == []
  {
  }

  /** A kept line moves from the rest of the section to the summary. */
  lemma SectionKeeps(lines: seq<string>, i: nat, summary: seq<string>)
    requires i < |lines| && !StartsWith(lines[i], "## ") && Kept(lines[i])
    ensures summary + SectionLines(lines, i, |lines|) == (summary + [Strip(lines[i])]) + SectionLines(lines, i + 1, |lines|)
  {
    assert SectionLines(lines, i, |lines|) == [Strip(lines[i])] + SectionLines(lines, i + 1, |lines|);
  }

  /** Any other line is skipped. */
  lemma SectionSkips(lines: seq<string>, i: nat)
    requires i < |lines| && !StartsWith(lines[i], "## ") && !Kept(lines[i])
    ensures SectionLines(lines, i, |lines|) == SectionLines(lines, i + 1, |lines|)
  {
  }

  /** Taking k from s + t when s already has k elements gives s. */
  lemma TakeOfLonger(s: seq<string>, t: seq<string>, k: nat)
    requires |s| == k
    ensures Take(s + t, k) == s
  {
    assert (s + t)[..k] == s;
  }

  /** What the context script reads from the notes file's lines:
      NoPreviousWork when no line is a "## 2025-" heading, otherwise the
      section summary under the last such heading. */
  ghost predicate IsContextRead(lines: seq<string>, r: string)
  {
    && (NoHeading(lines, Only2025) ==> r == NoPreviousWork)
    && (forall i: nat :: IsLastHeading(lines, i, Only2025) ==> r == SectionSummary(lines, i))
  }

  /** load_yesterday_summary of the context script: notes is the notes
      file's text, None when the file does not exist. */
  method LoadContextSummary(notes: Option<string>) returns (r: string)
    ensures notes.None? ==> r == NoPreviousWork
    ensures notes.Some? ==> IsContextRead(Split(notes.value, '\n'), r)
  {
    if notes.None? {
      return NoPreviousWork;
    }
    var lines := Split(notes.value, '\n');
    r := ContextFromLines(lines);
  }

  /** The context script's backwards search for the last "## 2025-" heading,
      followed by extract_section_summary from the line after it. */
  method ContextFromLines(lines: seq<string>) returns (r: string)
    ensures IsContextRead(lines, r)
  {
    var heading := LastHeading(lines, |lines|, Only2025);
    r := SummaryUnder(lines, heading);
    ContextSummaryIsRead(lines);
  }

  /** The context read as a declarative function of the lines. */
  function ContextSummaryOf(lines: seq<string>): string
  {
    match LastHeading(lines, |lines|, Only2025)
    case None => NoPreviousWork
    case Some(i) => SectionSummary(lines, i)
  }

  /** The declarative context read is the summary under the last heading. */
  lemma ContextSummaryIsRead(lines: seq<string>)
    ensures IsContextRead(lines, ContextSummaryOf(lines))
  {
    LastHeadingFinds(lines, Only2025);
  }

  /** The section summary under a heading found at the given index, read to
      the end of the file with extract_section_summary's scan. */
  method SummaryUnder(lines: seq<string>, heading: Option<nat>) returns (r: string)
    requires heading == LastHeading(lines, |lines|, Only2025)
    ensures r == ContextSummaryOf(lines)
  {
    if heading.None? {
      return NoPreviousWork;
    }
    r := ExtractSectionSummary(lines, heading.value);
  }

  /** Reading a shorter stretch gives a prefix of the section. */
  lemma {:induction false} SectionPrefix(lines: seq<string>, from: nat, to: nat, n: nat)
    requires from <= to <= n <= |lines|
    ensures SectionLines(lines, from, to) <= SectionLines(lines, from, n)
    decreases (to as int) - (from as int)
  {
    if from < to && !StartsWith(lines[from], "## ") {
      SectionPrefix(lines, from + 1, to, n);
    }
  }

  /** The two scripts' readers agree on a section whose first three kept lines
      fall within the nine lines after its heading: the automation script's
      window then yields the context script's summary. */
  lemma ReadersAgree(lines: seq<string>, i: nat, windowEnd: nat)
    requires i < |lines| && windowEnd == (if i + 10 < |lines| then i + 10 else |lines|)
    requires |SectionLines(lines, i + 1, windowEnd)| >= 3
    ensures Take(SectionLines(lines, i + 1, windowEnd), 3) == Take(SectionLines(lines, i + 1, |lines|), 3)
  {
    SectionPrefix(lines, i + 1, windowEnd, |lines|);
    TakeOfPrefix(SectionLines(lines, i + 1, windowEnd), SectionLines(lines, i + 1, |lines|), 3);
  }

  /** A prefix with at least k elements has the same first k elements. */
  lemma TakeOfPrefix(w: seq<string>, all: seq<string>, k: nat)
    requires w <= all && |w| >= k
    ensures Take(w, k) == Take(all, k)
  {
    assert w[..k] == all[..k];
  }
}

=== FILE: brush.dfy ===
/**
 The temporal brush (TemporalBrushData): the stroke recorder, the brush radius
 setting and the target time each brush mode computes for an object.
 */
module Brush {
  import opened Wrappers
  import opened UnityMath

  /** One recorded brush sample; the timestamp is the engine clock at recording. */
  datatype BrushStroke = BrushStroke(position: Vec3, pressure: real, timeValue: real, timestamp: real)

  datatype BrushMode = Absolute | Relative | Smooth | Ripple

  /** The recorder: whether a stroke is being recorded, its samples, the radius
      and the mode. */
  datatype Recorder = Recorder(isRecording: bool, stroke: seq<BrushStroke>, radius: real, mode: BrushMode)

  /** The serialized defaults: radius 0.5, Relative mode, nothing recorded. */
  const Initial := Recorder(false, [], 0.5, Relative)

  /** StartStroke: recording on, earlier samples discarded, the first sample kept. */
  function StartStroke(rec: Recorder, position: Vec3, pressure: real, timeValue: real, now: real): (r: Recorder)
    ensures r.isRecording
    ensures |r.stroke| == 1
    ensures r.stroke[0].position == position && r.stroke[0].pressure == pressure
    ensures r.stroke[0].timeValue == timeValue && r.stroke[0].timestamp == now
    ensures r.radius == rec.radius && r.mode == rec.mode
  {
    rec.(isRecording := true, stroke := [BrushStroke(position, pressure, timeValue, now)])
  }

  /** UpdateStroke: ignored when not recording; otherwise one sample appended. */
  function UpdateStroke(rec: Recorder, position: Vec3, pressure: real, timeValue: real, now: real): (r: Recorder)
    ensures !rec.isRecording ==> r == rec
    ensures rec.isRecording ==> r.isRecording && |r.stroke| == |rec.stroke| + 1
    ensures rec.isRecording ==> r.stroke[..|rec.stroke|] == rec.stroke
    ensures rec.isRecording ==> r.stroke[|rec.stroke|] == BrushStroke(position, pressure, timeValue, now)
    ensures r.radius == rec.radius && r.mode == rec.mode
  {
    if !rec.isRecording then rec
    else rec.(stroke := rec.stroke + [BrushStroke(position, pressure, timeValue, now)])
  }

  /** EndStroke: recording off, samples kept. */
  function EndStroke(rec: Recorder): (r: Recorder)
    ensures !r.isRecording
    ensures r.stroke == rec.stroke && r.radius == rec.radius && r.mode == rec.mode
  {
    rec.(isRecording := false)
  }

  /** Feed a run of samples through UpdateStroke. */
  function UpdateAll(rec: Recorder, samples: seq<BrushStroke>): (r: Recorder)
    ensures r.isRecording == rec.isRecording
    decreases |samples|
  {
    if |samples| == 0 then rec
    else
      var s := samples[0];
      UpdateAll(UpdateStroke(rec, s.position, s.pressure, s.timeValue, s.timestamp), samples[1..])
  }

  /** A whole stroke: start, any run of updates and end record exactly the
      samples given, in order, and leave the recorder idle. */
  lemma {:induction false} StrokeRecordsSamples(rec: Recorder, first: BrushStroke, samples: seq<BrushStroke>)
    ensures var r := EndStroke(UpdateAll(StartStroke(rec, first.position, first.pressure, first.timeValue, first.timestamp), samples));
      !r.isRecording && r.stroke == [first] + samples
  {
    UpdateAllAppends(StartStroke(rec, first.position, first.pressure, first.timeValue, first.timestamp), samples);
  }

  /** While recording, UpdateAll appends its samples. */
  lemma {:induction false} UpdateAllAppends(rec: Recorder, samples: seq<BrushStroke>)
    requires rec.isRecording
    ensures UpdateAll(rec, samples).stroke == rec.stroke + samples
    decreases |samples|
  {
    if |samples| > 0 {
      var s := samples[0];
      var next := UpdateStroke(rec, s.position, s.pressure, s.timeValue, s.timestamp);
      UpdateAllAppends(next, samples[1..]);
      assert next.stroke + samples[1..] == rec.stroke + samples;
    }
  }

  /** Updates outside a stroke record nothing. */
  lemma {:induction false} IdleIgnoresUpdates(rec: Recorder, samples: seq<BrushStroke>)
    requires !rec.isRecording
    ensures UpdateAll(rec, samples) == rec
    decreases |samples|
  {
    if |samples| > 0 {
      IdleIgnoresUpdates(rec, samples[1..]);
    }
  }

  /** SetBrushRadius: never below 0.1. */
  function SetBrushRadius(rec: Recorder, radius: real): (r: Recorder)
    ensures r.radius >= 0.1
    ensures radius >= 0.1 ==> r.radius == radius
    ensures radius < 0.1 ==> r.radius == 0.1
    ensures r.isRecording == rec.isRecording && r.stroke == rec.stroke && r.mode == rec.mode
  {
    rec.(radius := Max(0.1, radius))
  }

  function SetBrushMode(rec: Recorder, mode: BrushMode): (r: Recorder)
    ensures r.mode == mode
    ensures r.isRecording == rec.isRecording && r.stroke == rec.stroke && r.radius == rec.radius
  {
    rec.(mode := mode)
  }

  /** The object's current time as CalculateTargetTime sees it: the getter's
      result is discarded, so the local stays 0. */
  const CurrentTime: real := 0.0

  /** Relative mode's offset, (brushTime - 50) * 0.2 * strength. */
  function RelativeDelta(brushTime: real, strength: real): real
  {
    (brushTime - 50.0) * 0.2 * strength
  }

  /** The target time each mode computes from the object's current time
      (None for Ripple). */
  function TargetTimeFrom(mode: BrushMode, currentTime: real, brushTime: real, strength: real): (r: Option<real>)
    ensures r.None? <==> mode == Ripple
    ensures mode == Absolute ==> r == Some(brushTime)
    ensures mode == Relative ==> 0.0 <= r.value <= 100.0
    ensures mode == Smooth ==> Between(r.value, currentTime, brushTime)
  {
    match mode
    case Absolute => Some(brushTime)
    case Relative => Some(Clamp(currentTime + RelativeDelta(brushTime, strength), 0.0, 100.0))
    case Smooth => Some(Lerp(currentTime, brushTime, strength * 0.1))
    case Ripple => None
  }

  /** CalculateTargetTime as written: the current time is always 0. */
  function CalculateTargetTime(mode: BrushMode, brushTime: real, strength: real): (r: Option<real>)
    ensures r.None? <==> mode == Ripple
    ensures mode == Absolute ==> r == Some(brushTime)
    ensures mode == Relative ==> 0.0 <= r.value <= 100.0
    ensures mode == Smooth ==> Between(r.value, CurrentTime, brushTime)
  {
    TargetTimeFrom(mode, CurrentTime, brushTime, strength)
  }

  /** As written, a neutral Relative stroke (strength 0, or brush time 50)
      sends every object to time 0, wherever it is. */
  lemma RelativeIgnoresObjectTime(brushTime: real, strength: real)
    ensures CalculateTargetTime(Relative, brushTime, 0.0) == Some(0.0)
    ensures CalculateTargetTime(Relative, 50.0, strength) == Some(0.0)
  {
  }

  /** The intended behaviour reads the object's time: a neutral Relative
      stroke leaves an object in [0, 100] where it is, so an object at 50 stays
      at 50 where the written code moves it to 0. */
  lemma RelativeKeepsObjectTime(currentTime: real, brushTime: real, strength: real)
    requires 0.0 <= currentTime <= 100.0
    ensures TargetTimeFrom(Relative, currentTime, brushTime, 0.0) == Some(currentTime)
    ensures TargetTimeFrom(Relative, currentTime, 50.0, strength) == Some(currentTime)
    ensures TargetTimeFrom(Relative, 50.0, 50.0, 0.0) != CalculateTargetTime(Relative, 50.0, 0.0)
  {
  }

  /** Relative mode: for non-negative strength a later brush time never gives
      an earlier target. */
  lemma RelativeMonotone(currentTime: real, b1: real, b2: real, strength: real)
    requires strength >= 0.0 && b1 <= b2
    ensures TargetTimeFrom(Relative, currentTime, b1, strength).value <= TargetTimeFrom(Relative, currentTime, b2, strength).value
  {
    assert (b1 - 50.0) * strength <= (b2 - 50.0) * strength;
    assert RelativeDelta(b1, strength) <= RelativeDelta(b2, strength);
  }

  /** Smooth mode: full blend at strength 10 or more, none at strength 0 or less. */
  lemma SmoothEndpoints(currentTime: real, brushTime: real, strength: real)
    ensures strength >= 10.0 ==> TargetTimeFrom(Smooth, currentTime, brushTime, strength) == Some(brushTime)
    ensures strength <= 0.0 ==> TargetTimeFrom(Smooth, currentTime, brushTime, strength) == Some(currentTime)
  {
  }
}

=== FILE: calendar.dfy ===
/**
 Proleptic Gregorian day numbers, as Python's date.toordinal() computes them,
 and the project day count of the automation scripts: whole days since
 2025-06-26, plus one.
 */
module Calendar {

  datatype Date = Date(year: int, month: int, day: int)

  predicate IsLeap(y: int)
  {
    y % 4 == 0 && (y % 100 != 0 || y % 400 == 0)
  }

  function DaysInYear(y: int): nat
  {
    if IsLeap(y) then 366 else 365
  }

  function DaysInMonth(y: int, m: int): (n: nat)
    requires 1 <= m <= 12
    ensures 28 <= n <= 31
  {
    if m == 2 then (if IsLeap(y) then 29 else 28)
    else if m == 4 || m == 6 || m == 9 || m == 11 then 30
    else 31
  }

  predicate Valid(d: Date)
  {
    d.year >= 1 && 1 <= d.month <= 12 && 1 <= d.day <= DaysInMonth(d.year, d.month)
  }

  /** Days in the months of year y before month m. */
  function DaysBeforeMonth(y: int, m: int): nat
    requires 1 <= m <= 13
    decreases m
  {
    if m == 1 then 0 else DaysBeforeMonth(y, m - 1) + DaysInMonth(y, m - 1)
  }

  /** Days in the years before year y (years 1 .. y-1). */
  function DaysBeforeYear(y: int): int
  {
    var p := y - 1;
    365 * p + p / 4 - p / 100 + p / 400
  }

  /** date.toordinal(): 0001-01-01 is day 1. */
  function Ordinal(d: Date): int
    requires Valid(d)
  {
    DaysBeforeYear(d.year) + DaysBeforeMonth(d.year, d.month) + d.day
  }

  /** The calendar's successor of a date. */
  function NextDate(d: Date): (r: Date)
    requires Valid(d)
    ensures Valid(r)
  {
    if d.day < DaysInMonth(d.year, d.month) then Date(d.year, d.month, d.day + 1)
    else if d.month < 12 then Date(d.year, d.month + 1, 1)
    else Date(d.year + 1, 1, 1)
  }

  /** The months of a year add up to the year. */
  lemma MonthsFillYear(y: int)
    ensures DaysBeforeMonth(y, 13) == DaysInYear(y)
  {
    var leap := if IsLeap(y) then 1 else 0;
    assert DaysBeforeMonth(y, 2) == 31;
    assert DaysBeforeMonth(y, 3) == 59 + leap;
    assert DaysBeforeMonth(y, 4) == 90 + leap;
    assert DaysBeforeMonth(y, 5) == 120 + leap;
    assert DaysBeforeMonth(y, 6) == 151 + leap;
    assert DaysBeforeMonth(y, 7) == 181 + leap;
    assert DaysBeforeMonth(y, 8) == 212 + leap;
    assert DaysBeforeMonth(y, 9) == 243 + leap;
    assert DaysBeforeMonth(y, 10) == 273 + leap;
    assert DaysBeforeMonth(y, 11) == 304 + leap;
    assert DaysBeforeMonth(y, 12) == 334 + leap;
  }

  /** One more year adds exactly that year's length. */
  lemma YearStep(y: int)
    ensures DaysBeforeYear(y + 1) == DaysBeforeYear(y) + DaysInYear(y)
  {
    var p := y - 1;
    assert y / 4 == p / 4 + (if y % 4 == 0 then 1 else 0);
    assert y / 100 == p / 100 + (if y % 100 == 0 then 1 else 0);
    assert y / 400 == p / 400 + (if y % 400 == 0 then 1 else 0);
    if y % 400 == 0 {
      assert y % 100 == 0 && y % 4 == 0;
    } else if y % 100 == 0 {
      assert y % 4 == 0;
    }
  }

  /** Day numbers count days: the next date is one day later. */
  lemma {:induction false} OrdinalNext(d: Date)
    requires Valid(d)
    ensures Ordinal(NextDate(d)) == Ordinal(d) + 1
  {
    if d.day < DaysInMonth(d.year, d.month) {
    } else if d.month < 12 {
    } else {
      YearStep(d.year);
      MonthsFillYear(d.year);
    }
  }

  /** The project's first day. */
  const Start := Date(2025, 6, 26)

  /** get_project_day: (now - start).days + 1. The time of day of now never
      reaches a whole day, so only now's date matters. */
  function ProjectDay(today: Date): int
    requires Valid(today)
  {
    Ordinal(today) - Ordinal(Start) + 1
  }

  /** Day 1 is the start date and each calendar day adds one. */
  lemma ProjectDayCounts(today: Date)
    requires Valid(today)
    ensures ProjectDay(Start) == 1
    ensures ProjectDay(NextDate(today)) == ProjectDay(today) + 1
  {
    OrdinalNext(today);
  }

  /** The foundation phase (days 1 .. 14) ends on 2025-07-09, and the new
      year 2026 starts on day 190. */
  lemma ProjectDayLandmarks()
    ensures ProjectDay(Date(2025, 7, 9)) == 14
    ensures ProjectDay(Date(2026, 1, 1)) == 190
  {
  }
}

=== FILE: controller.dfy ===
/**
 The per-frame input handling of the three controller variants
 (TemporalVRController): the earliest device-based one, the older and the
 current action-based ones. Button, trigger, joystick, hand positions and ray
 hits are inputs of a frame; what a frame sends to other components
 (broadcasts, brushes, trail updates, range changes) is its list of effects.
 */
module Controller {
  import opened Wrappers
  import opened UnityMath
  import opened Modes

  /** Earliest: Scripts/TemporalVRController.cs; Older: TemporalVR/TVR_Controller.cs;
      Core: TemporalVR/Core/TVR_Controller.cs. */
  datatype Variant = Earliest | Older | Core

  /** Serialized settings: timeline length in metres, temporal range and scrub
      sensitivity (inspector defaults 10, 100 and 2). */
  datatype Settings = Settings(timelineLength: real, temporalRange: real, scrubSensitivity: real)

  const DefaultSettings := Settings(10.0, 100.0, 2.0)

  /** The controller's own state. `grabStartX` is the x coordinate of the hand
      when the grab began (the only coordinate the scrub reads). */
  datatype State = State(mode: Mode, wasPressed: bool, grabbing: bool, current: real,
                         grabStartX: real, grabStartTime: real)

  /** What a ray hit carries: the point and which components the hit object has. */
  datatype Hit = Hit(point: Vec3, hasMorphV2: bool, hasTemporalObject: bool)

  /** One frame's inputs. `hasLeft`/`hasRight` say whether the action-based
      controllers were found (ignored by the earliest variant, which reads 0 or
      false from an invalid device instead); `selectPressed` is the select action
      above 0.5, or the primary button for the earliest variant. `hit` is the
      paint ray (2 m in Core, 5 m otherwise); `shiftHit` the 5 m ray taken while
      Left Shift is held (Core only). */
  datatype Input = Input(
    hasLeft: bool, hasRight: bool,
    selectPressed: bool,
    trigger: real, leftTrigger: real,
    rightPos: Vec3, leftPos: Vec3,
    joystickX: real, deltaTime: real,
    hit: Option<Hit>,
    shiftHeld: bool, shiftHit: Option<Hit>)

  /** A collider found by the sculpt sphere: its identity and whether it
      carries a TemporalObject component. */
  datatype Collider = Collider(id: nat, hasTemporalObject: bool)

  /** The engine's Physics.OverlapSphere: the colliders within a sphere of the
      given centre and radius. */
  type Overlap = (Vec3, real) -> seq<Collider>

  /** What a frame sends out.
      - `ModeChanged(m)` announces the new mode: Core calls the event system's
        BroadcastModeChange and the feedback's UpdateModeColor, the older
        variant only UpdateModeColor; the earliest variant announces nothing
        (it only pulses the controller).
      - `UpdateObjects(t)` asks every time-bound object in the scene (TMorphObj
        in Core, TObject in the older variant) to update itself to time t.
      - `SetTemporalRange(target, start, end)` is the call on the
        TemporalObject of collider `target`. */
  datatype Effect =
    | ModeChanged(mode: Mode)
    | TimeChanged(time: real)
    | MorphBrush(position: Vec3, radius: real, strength: real, targetTime: real)
    | TrailPoint(position: Vec3, targetTime: real)
    | ClearTrail
    | ObjectBrush(position: Vec3, strength: real, time: real)
    | SetTemporalRange(target: nat, start: real, end: real)
    | UpdateObjects(time: real)

  /** The action-based variants return from every handler when the right
      controller was not found. */
  predicate RightAvailable(v: Variant, input: Input)
  {
    v == Earliest || input.hasRight
  }

  // ---------------------------------------------------------------------------
  // Mode switch
  // ---------------------------------------------------------------------------

  /** HandleModeSwitch: the earliest variant advances every frame the button
      reads pressed, silently; the others advance on a rising edge, announce
      the new mode and then remember the button state. */
  function ModeSwitch(v: Variant, s: State, input: Input): (r: (State, seq<Effect>))
    ensures !RightAvailable(v, input) ==> r == (s, [])
    ensures v == Earliest ==> r.0.wasPressed == s.wasPressed
    ensures v != Earliest && input.hasRight ==> r.0.wasPressed == input.selectPressed
    ensures var advance := if v == Earliest then input.selectPressed
                           else input.hasRight && input.selectPressed && !s.wasPressed;
      && (advance ==> r.0.mode == Next(s.mode))
      && (advance && v != Earliest ==> r.1 == [ModeChanged(r.0.mode)])
      && (!advance ==> r.0.mode == s.mode)
    ensures v == Earliest || r.0.mode == s.mode ==> r.1 == []
    ensures r.0.grabbing == s.grabbing && r.0.current == s.current
    ensures r.0.grabStartX == s.grabStartX && r.0.grabStartTime == s.grabStartTime
  {
    if v == Earliest then
      if input.selectPressed then (s.(mode := Next(s.mode)), []) else (s, [])
    else if !input.hasRight then
      (s, [])
    else
      var switched := input.selectPressed && !s.wasPressed;
      var mode := if switched then Next(s.mode) else s.mode;
      (s.(mode := mode, wasPressed := input.selectPressed), if switched then [ModeChanged(mode)] else [])
  }

  /** The button held for k frames: the earliest variant switches every frame,
      the edge-triggered variants exactly once. */
  function HoldButton(v: Variant, s: State, input: Input, k: nat): State
    requires input.selectPressed && input.hasRight
    decreases k
  {
    if k == 0 then s else HoldButton(v, ModeSwitch(v, s, input).0, input, k - 1)
  }

  lemma {:induction false} HoldButtonSwitches(v: Variant, s: State, input: Input, k: nat)
    requires input.selectPressed && input.hasRight && k >= 1
    ensures v == Earliest ==> HoldButton(v, s, input, k).mode == Advance(s.mode, k)
    ensures v != Earliest ==> HoldButton(v, s, input, k).mode == (if s.wasPressed then s.mode else Next(s.mode))
    ensures v != Earliest ==> HoldButton(v, s, input, k).wasPressed
    decreases k
  {
    var s1 := ModeSwitch(v, s, input).0;
    if k > 1 {
      HoldButtonSwitches(v, s1, input, k - 1);
      if v == Earliest {
        AdvanceShift(s.mode, k - 1);
      }
    } else if v == Earliest {
      assert Advance(s.mode, 1) == Next(Advance(s.mode, 0));
    }
  }

  /** Advance(Next(m), k) == Advance(m, k + 1). */
  lemma {:induction false} AdvanceShift(m: Mode, k: nat)
    ensures Advance(Next(m), k) == Advance(m, k + 1)
  {
    if k > 0 {
      var j := k - 1;
      AdvanceShift(m, j);
      var a := Advance(Next(m), j);
      assert a == Advance(m, j + 1);
      assert Advance(Next(m), j + 1) == Next(a);
    }
  }

  // ---------------------------------------------------------------------------
  // Scrubbing
  // ---------------------------------------------------------------------------

  /** Trigger value that starts a grab: 0.8 in the earliest variant, 0.5 later. */
  function GrabThreshold(v: Variant): (g: real)
    ensures g > ReleaseThreshold
  {
    if v == Earliest then 0.8 else 0.5
  }

  const ReleaseThreshold: real := 0.2

  /** The grab hysteresis: grab above the grab threshold when not grabbing,
      release below the release threshold when grabbing. */
  function NextGrab(v: Variant, s: State, trigger: real, handX: real): (r: State)
    ensures trigger > GrabThreshold(v) && !s.grabbing ==> r.grabbing && r.grabStartX == handX && r.grabStartTime == s.current
    ensures trigger < ReleaseThreshold && s.grabbing ==> !r.grabbing
    ensures !(trigger > GrabThreshold(v) && !s.grabbing) && !(trigger < ReleaseThreshold && s.grabbing) ==> r == s
    ensures r.current == s.current && r.mode == s.mode && r.wasPressed == s.wasPressed
  {
    if trigger > GrabThreshold(v) && !s.grabbing then
      s.(grabbing := true, grabStartX := handX, grabStartTime := s.current)
    else if trigger < ReleaseThreshold && s.grabbing then
      s.(grabbing := false)
    else
      s
  }

  /** The scrubbed time: the grab start time moved by the hand's x offset
      (scaled by sensitivity, timeline length and range), clamped to the range. */
  function ScrubbedTime(settings: Settings, grabStartTime: real, grabStartX: real, handX: real): (t: real)
    requires settings.timelineLength != 0.0
    ensures 0.0 <= settings.temporalRange ==> 0.0 <= t <= settings.temporalRange
    ensures handX == grabStartX ==> t == Clamp(grabStartTime, 0.0, settings.temporalRange)
  {
    var deltaX := (handX - grabStartX) * settings.scrubSensitivity;
    Clamp(grabStartTime + (deltaX / settings.timelineLength) * settings.temporalRange, 0.0, settings.temporalRange)
  }

  /** HandleTimeScrubbing. While grabbing, the scrubbed time is broadcast; the
      action-based variants then update every time-bound object to it. */
  function ScrubFrame(v: Variant, settings: Settings, s: State, input: Input): (r: (State, seq<Effect>))
    requires settings.timelineLength != 0.0
    ensures !RightAvailable(v, input) ==> r == (s, [])
    ensures RightAvailable(v, input) ==> r.0.grabbing == NextGrab(v, s, input.trigger, input.rightPos.x).grabbing
    ensures !r.0.grabbing ==> r.0.current == s.current && r.1 == []
    ensures RightAvailable(v, input) && r.0.grabbing ==> |r.1| >= 1 && r.1[0] == TimeChanged(r.0.current)
    ensures RightAvailable(v, input) && r.0.grabbing && v == Earliest ==> |r.1| == 1
    ensures RightAvailable(v, input) && r.0.grabbing && v != Earliest ==>
      r.1 == [TimeChanged(r.0.current), UpdateObjects(r.0.current)]
    ensures RightAvailable(v, input) && r.0.grabbing && 0.0 <= settings.temporalRange ==>
      0.0 <= r.0.current <= settings.temporalRange
    ensures r.0.mode == s.mode && r.0.wasPressed == s.wasPressed
  {
    if !RightAvailable(v, input) then
      (s, [])
    else
      var g := NextGrab(v, s, input.trigger, input.rightPos.x);
      if g.grabbing then
        var t := ScrubbedTime(settings, g.grabStartTime, g.grabStartX, input.rightPos.x);
        var updates := if v == Earliest then [] else [UpdateObjects(t)];
        (g.(current := t), [TimeChanged(t)] + updates)
      else
        (g, [])
  }

  /** The frame a grab starts, the time does not jump: it is the current time
      (clamped to the range). */
  lemma GrabStartKeepsTime(v: Variant, settings: Settings, s: State, input: Input)
    requires settings.timelineLength != 0.0 && RightAvailable(v, input)
    requires input.trigger > GrabThreshold(v) && !s.grabbing
    ensures ScrubFrame(v, settings, s, input).0.current == Clamp(s.current, 0.0, settings.temporalRange)
  {
  }

  /** A trigger between the thresholds never changes the grab state. */
  lemma HysteresisBand(v: Variant, settings: Settings, s: State, input: Input)
    requires settings.timelineLength != 0.0
    requires ReleaseThreshold <= input.trigger <= GrabThreshold(v)
    ensures ScrubFrame(v, settings, s, input).0.grabbing == s.grabbing
  {
  }

  // ---------------------------------------------------------------------------
  // Painting
  // ---------------------------------------------------------------------------

  const PaintThreshold: real := 0.1

  /** Brush radius of the current variant: 0.05 m plus 0.08 m per unit of trigger. */
  function BrushRadius(trigger: real): (r: real)
    ensures 0.0 <= trigger <= 1.0 ==> 0.05 <= r <= 0.13
  {
    0.05 + trigger * 0.08
  }

  /** Target time from the hand height: (y - 0.5) / 2, clamped to [0, 1]. */
  function TargetTime(handY: real): (t: real)
    ensures 0.0 <= t <= 1.0
    ensures 0.5 <= handY <= 2.5 ==> t == (handY - 0.5) / 2.0
  {
    Clamp01((handY - 0.5) / 2.0)
  }

  /** The morph brush at the paint-ray hit (full radius, trigger strength). */
  predicate BrushesAtHit(input: Input)
  {
    input.hit.Some? && input.hit.value.hasMorphV2
  }

  /** The precise brush at the Shift ray's hit. */
  predicate BrushesPrecisely(input: Input)
  {
    input.shiftHeld && input.shiftHit.Some? && input.shiftHit.value.hasMorphV2
  }

  /** What a Core paint frame above the threshold sends, up to order: a morph
      brush at the hit (when the hit has a V2 morph object), a trail point at
      any hit, and a precise brush at the Shift hit; nothing else. */
  predicate CorePaintEffects(input: Input, effects: seq<Effect>)
  {
    var radius, strength, target := BrushRadius(input.trigger), input.trigger, TargetTime(input.rightPos.y);
    && (BrushesAtHit(input) ==> MorphBrush(input.hit.value.point, radius, strength, target) in effects)
    && (input.hit.Some? ==> TrailPoint(input.hit.value.point, target) in effects)
    && (BrushesPrecisely(input) ==>
          MorphBrush(input.shiftHit.value.point, radius * 0.5, strength * 1.5, target) in effects)
    && |effects| == (if BrushesAtHit(input) then 1 else 0) + (if input.hit.Some? then 1 else 0)
                    + (if BrushesPrecisely(input) then 1 else 0)
    && (forall e :: e in effects ==>
          || (BrushesAtHit(input) && e == MorphBrush(input.hit.value.point, radius, strength, target))
          || (input.hit.Some? && e == TrailPoint(input.hit.value.point, target))
          || (BrushesPrecisely(input) && e == MorphBrush(input.shiftHit.value.point, radius * 0.5, strength * 1.5, target)))
  }

  /** HandleTemporalPainting. Core: brush the V2 morph object under the ray and
      extend the trail at the hit; with Shift held, a precise brush of half the
      radius and 1.5 times the strength; a released trigger clears the trail.
      Older and earliest: brush the temporal object under the ray with the
      trigger as strength at the current time. */
  function PaintFrame(v: Variant, s: State, input: Input): (effects: seq<Effect>)
    ensures !RightAvailable(v, input) ==> effects == []
    ensures input.trigger <= PaintThreshold ==> effects == (if v == Core && input.hasRight then [ClearTrail] else [])
    ensures forall k :: 0 <= k < |effects| && effects[k].MorphBrush? ==>
      v == Core && input.trigger > PaintThreshold && effects[k].targetTime == TargetTime(input.rightPos.y)
      && (effects[k].radius == BrushRadius(input.trigger) || effects[k].radius == BrushRadius(input.trigger) * 0.5)
    ensures forall k :: 0 <= k < |effects| && effects[k].ObjectBrush? ==>
      v != Core && effects[k].strength == input.trigger && effects[k].time == s.current
    ensures v == Core && input.hasRight && input.trigger > PaintThreshold ==>
      CorePaintEffects(input, effects)
    ensures v != Core && RightAvailable(v, input) && input.trigger > PaintThreshold ==>
      && (effects != [] <==> input.hit.Some? && input.hit.value.hasTemporalObject)
      && (effects != [] ==> effects == [ObjectBrush(input.hit.value.point, input.trigger, s.current)])
  {
    if !RightAvailable(v, input) then
      []
    else if v == Core then
      if input.trigger > PaintThreshold then
        var radius, strength, target := BrushRadius(input.trigger), input.trigger, TargetTime(input.rightPos.y);
        var atHit :=
          match input.hit
          case None => []
          case Some(h) =>
            (if h.hasMorphV2 then [MorphBrush(h.point, radius, strength, target)] else [])
            + [TrailPoint(h.point, target)];
        var precise :=
          match input.shiftHit
          case Some(h) =>
            if input.shiftHeld && h.hasMorphV2 then [MorphBrush(h.point, radius * 0.5, strength * 1.5, target)] else []
          case None => [];
        atHit + precise
      else
        [ClearTrail]
    else if input.trigger > PaintThreshold then
      match input.hit
      case Some(h) => if h.hasTemporalObject then [ObjectBrush(h.point, input.trigger, s.current)] else []
      case None => []
    else
      []
  }

  /** Holding Shift over a V2 morph object adds exactly the precise brush to
      what the same frame sends without Shift. */
  lemma PaintShiftAddsPrecise(s: State, input: Input)
    requires input.hasRight && input.trigger > PaintThreshold
    requires input.shiftHit.Some? && input.shiftHit.value.hasMorphV2
    ensures var radius, target := BrushRadius(input.trigger), TargetTime(input.rightPos.y);
      PaintFrame(Core, s, input.(shiftHeld := true)) ==
      PaintFrame(Core, s, input.(shiftHeld := false))
      + [MorphBrush(input.shiftHit.value.point, radius * 0.5, input.trigger * 1.5, target)]
  {
  }

  // ---------------------------------------------------------------------------
  // Sculpting and preview
  // ---------------------------------------------------------------------------

  const SculptThreshold: real := 0.8

  /** The ids of the colliders carrying a TemporalObject, in the order found. */
  function SculptTargets(cs: seq<Collider>): (ids: seq<nat>)
    ensures |ids| <= |cs|
    ensures forall id :: id in ids <==> Collider(id, true) in cs
    ensures ids == [] <==> forall c :: c in cs ==> !c.hasTemporalObject
  {
    if cs == [] then
      []
    else
      var rest := SculptTargets(cs[1..]);
      assert forall c :: c in cs <==> c == cs[0] || c in cs[1..];
      (if cs[0].hasTemporalObject then [cs[0].id] else []) + rest
  }

  /** Both triggers are past 0.8 and, in the action-based variants, both
      controllers were found. */
  predicate SculptActive(v: Variant, input: Input)
  {
    (v == Earliest || (input.hasLeft && input.hasRight))
    && input.leftTrigger > SculptThreshold && input.trigger > SculptThreshold
  }

  /** The sphere between the hands: centred at their midpoint, with half their
      distance as radius. */
  function SculptCentre(input: Input): Vec3
  {
    Scale(Add(input.leftPos, input.rightPos), 0.5)
  }

  /** The ranges sculpting hands out for a hand distance d: one per target, in
      the targets' order, centred on the current time and 20 * d wide. */
  function SculptRanges(ids: seq<nat>, current: real, d: real): (effects: seq<Effect>)
    ensures |effects| == |ids|
    ensures forall k :: 0 <= k < |ids| ==> effects[k] == SetTemporalRange(ids[k], current - 10.0 * d, current + 10.0 * d)
    ensures forall k :: 0 <= k < |effects| ==>
      && effects[k].SetTemporalRange?
      && (effects[k].start + effects[k].end) / 2.0 == current
      && effects[k].end - effects[k].start == 20.0 * d
  {
    var timeRange := d * 20.0;
    assert timeRange / 2.0 == 10.0 * d;
    seq(|ids|, k requires 0 <= k < |ids| => SetTemporalRange(ids[k], current - timeRange / 2.0, current + timeRange / 2.0))
  }

  /** HandleTemporalSculpting: with both triggers past 0.8, every TemporalObject
      in the sphere between the hands gets a range centred on the current time
      and 20 times the hand distance wide. */
  function SculptFrame(v: Variant, s: State, input: Input, sqrt: real -> real, overlap: Overlap): (effects: seq<Effect>)
    ensures !SculptActive(v, input) ==> effects == []
    ensures SculptActive(v, input) ==>
      effects == SculptRanges(SculptTargets(overlap(SculptCentre(input), Distance(input.leftPos, input.rightPos, sqrt) / 2.0)),
                              s.current, Distance(input.leftPos, input.rightPos, sqrt))
  {
    if v != Earliest && (!input.hasLeft || !input.hasRight) then
      []
    else if input.leftTrigger > SculptThreshold && input.trigger > SculptThreshold then
      var handDistance := Distance(input.leftPos, input.rightPos, sqrt);
      SculptRanges(SculptTargets(overlap(SculptCentre(input), handDistance / 2.0)), s.current, handDistance)
    else
      []
  }

  /** Every TemporalObject the sphere finds is given the range. */
  lemma SculptReachesEveryTemporalObject(v: Variant, s: State, input: Input, sqrt: real -> real,
                                         overlap: Overlap, c: Collider)
    requires SculptActive(v, input) && c.hasTemporalObject
    requires c in overlap(SculptCentre(input), Distance(input.leftPos, input.rightPos, sqrt) / 2.0)
    ensures SetTemporalRange(c.id, s.current - 10.0 * Distance(input.leftPos, input.rightPos, sqrt),
                             s.current + 10.0 * Distance(input.leftPos, input.rightPos, sqrt))
            in SculptFrame(v, s, input, sqrt, overlap)
  {
    RangesReachTarget(overlap(SculptCentre(input), Distance(input.leftPos, input.rightPos, sqrt) / 2.0), c,
                      s.current, Distance(input.leftPos, input.rightPos, sqrt));
  }

  /** Each collider with a TemporalObject is given its range. */
  lemma RangesReachTarget(cs: seq<Collider>, c: Collider, current: real, d: real)
    requires c in cs && c.hasTemporalObject
    ensures SetTemporalRange(c.id, current - 10.0 * d, current + 10.0 * d) in SculptRanges(SculptTargets(cs), current, d)
  {
    var ids := SculptTargets(cs);
    TargetFound(cs, c);
    var k :| 0 <= k < |ids| && ids[k] == c.id;
    assert SculptRanges(ids, current, d)[k] == SetTemporalRange(c.id, current - 10.0 * d, current + 10.0 * d);
  }

  /** Sculpting announces something exactly when it is active and the sphere
      holds at least one TemporalObject. */
  lemma SculptAnnouncesIffTargets(v: Variant, s: State, input: Input, sqrt: real -> real, overlap: Overlap)
    ensures SculptFrame(v, s, input, sqrt, overlap) != [] <==>
      SculptActive(v, input)
      && exists c :: c in overlap(SculptCentre(input), Distance(input.leftPos, input.rightPos, sqrt) / 2.0)
                     && c.hasTemporalObject
  {
    var d := Distance(input.leftPos, input.rightPos, sqrt);
    var ids := SculptTargets(overlap(SculptCentre(input), d / 2.0));
    if SculptActive(v, input) {
      assert |SculptRanges(ids, s.current, d)| == |ids|;
    }
  }

  /** A collider with a TemporalObject is among the sculpt targets. */
  lemma TargetFound(cs: seq<Collider>, c: Collider)
    requires c in cs && c.hasTemporalObject
    ensures c.id in SculptTargets(cs)
  {
    assert Collider(c.id, true) == c;
  }

  /** HandlePreviewMode: only the earliest variant reads the joystick; a
      deflection past 0.1 moves the time by x * deltaTime * 10 within the range. */
  function PreviewFrame(v: Variant, settings: Settings, s: State, input: Input): (r: (State, seq<Effect>))
    ensures v != Earliest || Abs(input.joystickX) <= 0.1 ==> r == (s, [])
    ensures v == Earliest && Abs(input.joystickX) > 0.1 ==>
      r.0 == s.(current := Clamp(s.current + input.joystickX * input.deltaTime * 10.0, 0.0, settings.temporalRange))
      && r.1 == [TimeChanged(r.0.current)]
    ensures 0.0 <= settings.temporalRange ==> (0.0 <= s.current <= settings.temporalRange ==> 0.0 <= r.0.current <= settings.temporalRange)
  {
    if v == Earliest && Abs(input.joystickX) > 0.1 then
      var t := Clamp(s.current + input.joystickX * input.deltaTime * 10.0, 0.0, settings.temporalRange);
      (s.(current := t), [TimeChanged(t)])
    else
      (s, [])
  }

  // ---------------------------------------------------------------------------
  // Frame
  // ---------------------------------------------------------------------------

  /** Update: switch mode, then run the handler of the (new) mode. */
  function Frame(v: Variant, settings: Settings, s: State, input: Input, sqrt: real -> real, overlap: Overlap): (r: (State, seq<Effect>))
    requires settings.timelineLength != 0.0
    ensures r.0.mode == ModeSwitch(v, s, input).0.mode
  {
    var (switched, modeEffects) := ModeSwitch(v, s, input);
    match switched.mode
    case Scrub =>
      var (t, e) := ScrubFrame(v, settings, switched, input);
      (t, modeEffects + e)
    case Paint => (switched, modeEffects + PaintFrame(v, switched, input))
    case Sculpt => (switched, modeEffects + SculptFrame(v, switched, input, sqrt, overlap))
    case Preview =>
      var (t, e) := PreviewFrame(v, settings, switched, input);
      (t, modeEffects + e)
  }

  /** The time stays within [0, temporalRange] whatever the frame does. */
  predicate TimeInRange(settings: Settings, s: State)
  {
    0.0 <= s.current <= settings.temporalRange
  }

  lemma FrameKeepsTimeInRange(v: Variant, settings: Settings, s: State, input: Input, sqrt: real -> real, overlap: Overlap)
    requires settings.timelineLength != 0.0 && TimeInRange(settings, s)
    ensures TimeInRange(settings, Frame(v, settings, s, input, sqrt, overlap).0)
  {
  }

  /** UpdateVisualFeedback's cursor position along the timeline, in [0, 1]
      while the time is in range. */
  function CursorFraction(settings: Settings, s: State): (f: real)
    requires settings.temporalRange != 0.0
    ensures TimeInRange(settings, s) ==> 0.0 <= f <= 1.0
    ensures f * settings.temporalRange == s.current
  {
    s.current / settings.temporalRange
  }
}

=== FILE: event_system.dfy ===
/**
 The central event system (TemporalEventSystem): the last broadcast global
 time and mode, and the registry of temporal objects, a list without
 duplicates kept in registration order. Objects are named by identifiers.
 */
module EventSystem {
  import opened UnityMath
  import opened Modes

  type ObjectId = nat

  datatype Events = Events(globalTime: real, mode: Mode, registered: seq<ObjectId>)

  /** The state after Awake: time 0, Scrub mode, nothing registered. */
  const Initial: Events := Events(0.0, Scrub, [])

  predicate Distinct(s: seq<ObjectId>)
  {
    forall i, j :: 0 <= i < j < |s| ==> s[i] != s[j]
  }

  /** BroadcastTimeChange: the time is remembered (listeners are engine code). */
  function BroadcastTimeChange(e: Events, newTime: real): (r: Events)
    ensures GetCurrentGlobalTime(r) == newTime
    ensures GetCurrentMode(r) == GetCurrentMode(e) && r.registered == e.registered
  {
    e.(globalTime := newTime)
  }

  /** BroadcastModeChange: the mode is remembered. */
  function BroadcastModeChange(e: Events, newMode: Mode): (r: Events)
    ensures GetCurrentMode(r) == newMode
    ensures GetCurrentGlobalTime(r) == GetCurrentGlobalTime(e) && r.registered == e.registered
  {
    e.(mode := newMode)
  }

  function GetCurrentGlobalTime(e: Events): real
  {
    e.globalTime
  }

  function GetCurrentMode(e: Events): Mode
  {
    e.mode
  }

  /** GetRegisteredObjects returns a new list with the registry's contents;
      with values in place of references the copy is the sequence itself, and
      nothing done to it reaches the registry. */
  function GetRegisteredObjects(e: Events): (r: seq<ObjectId>)
    ensures r == e.registered
  {
    e.registered
  }

  /** RegisterTemporalObject: append when absent. */
  function Register(e: Events, obj: ObjectId): (r: Events)
    ensures obj in r.registered
    ensures obj in e.registered ==> r == e
    ensures obj !in e.registered ==> r.registered == e.registered + [obj]
    ensures Distinct(e.registered) ==> Distinct(r.registered)
    ensures r.globalTime == e.globalTime && r.mode == e.mode
  {
    if obj in e.registered then e else e.(registered := e.registered + [obj])
  }

  /** The index of the first occurrence of x. */
  function FirstIndex(s: seq<ObjectId>, x: ObjectId): (i: nat)
    requires x in s
    ensures i < |s| && s[i] == x
    ensures forall j :: 0 <= j < i ==> s[j] != x
  {
    if s[0] == x then 0 else 1 + FirstIndex(s[1..], x)
  }

  /** List.Remove: drop the first occurrence, keeping the rest in order. */
  function RemoveFirst(s: seq<ObjectId>, x: ObjectId): (r: seq<ObjectId>)
    ensures x !in s ==> r == s
    ensures x in s ==> r == s[..FirstIndex(s, x)] + s[FirstIndex(s, x) + 1..]
  {
    if |s| == 0 then []
    else if s[0] == x then s[1..]
    else
      var rest := RemoveFirst(s[1..], x);
      if x in s[1..] then
        var i := FirstIndex(s[1..], x);
        assert FirstIndex(s, x) == i + 1;
        assert [s[0]] + s[1..][..i] == s[..i + 1];
        assert s[1..][i + 1..] == s[i + 2..];
        [s[0]] + rest
      else
        [s[0]] + rest
  }

  /** UnregisterTemporalObject: remove when present. */
  function Unregister(e: Events, obj: ObjectId): (r: Events)
    ensures obj !in e.registered ==> r == e
    ensures obj in e.registered ==> r.registered == RemoveFirst(e.registered, obj)
    ensures r.globalTime == e.globalTime && r.mode == e.mode
  {
    if obj in e.registered then e.(registered := RemoveFirst(e.registered, obj)) else e
  }

  /** In a registry without duplicates, unregistering removes the object
      entirely, keeps every other object and keeps the registry duplicate-free. */
  lemma {:induction false} UnregisterRemoves(s: seq<ObjectId>, x: ObjectId)
    requires Distinct(s)
    ensures x !in RemoveFirst(s, x)
    ensures Distinct(RemoveFirst(s, x))
    ensures forall y :: y != x ==> (y in RemoveFirst(s, x) <==> y in s)
  {
    if |s| > 0 {
      var tail := s[1..];
      HeadNotInTail(s);
      if s[0] == x {
        assert RemoveFirst(s, x) == tail;
      } else {
        assert RemoveFirst(s, x) == [s[0]] + RemoveFirst(tail, x);
        assert Distinct(tail) by {
          forall i, j | 0 <= i < j < |tail|
            ensures tail[i] != tail[j]
          {
            assert tail[i] == s[i + 1] && tail[j] == s[j + 1];
          }
        }
        UnregisterRemoves(tail, x);
      }
    }
  }

  /** In a registry without duplicates the first object does not recur. */
  lemma HeadNotInTail(s: seq<ObjectId>)
    requires Distinct(s) && |s| > 0
    ensures s[0] !in s[1..]
  {
    forall k | 0 <= k < |s| - 1
      ensures s[1..][k] != s[0]
    {
      assert s[1..][k] == s[k + 1];
    }
  }

  /** Registering an absent object and unregistering it again restores the
      registry exactly. */
  lemma RegisterUnregisterRoundTrip(e: Events, obj: ObjectId)
    requires obj !in e.registered
    ensures Unregister(Register(e, obj), obj) == e
  {
    RemoveAppended(e.registered, obj);
  }

  lemma {:induction false} RemoveAppended(s: seq<ObjectId>, x: ObjectId)
    requires x !in s
    ensures RemoveFirst(s + [x], x) == s
  {
    if |s| > 0 {
      assert (s + [x])[1..] == s[1..] + [x];
      RemoveAppended(s[1..], x);
    }
  }

  /** One ApplyTemporalBrush call made by ApplyTimeToAllObjects. */
  datatype BrushCall = BrushCall(obj: ObjectId, position: Vec3, strength: real, time: real)

  /** The registered objects still alive, in order. */
  function Alive(s: seq<ObjectId>, alive: ObjectId -> bool): (r: seq<ObjectId>)
    ensures forall y :: y in r <==> y in s && alive(y)
    ensures Distinct(s) ==> Distinct(r)
  {
    if |s| == 0 then []
    else
      var rest := Alive(s[1..], alive);
      assert forall y :: y in s[1..] ==> y in s;
      if alive(s[0]) then [s[0]] + rest else rest
  }

  /** ApplyTimeToAllObjects: every live registered object, in registration
      order, receives a brush at its own position with strength 1 at the given
      time. `alive` is Unity's null test and `position` the object's transform. */
  function ApplyTimeToAllObjects(e: Events, time: real, alive: ObjectId -> bool, position: ObjectId -> Vec3): (calls: seq<BrushCall>)
    ensures |calls| == |Alive(e.registered, alive)|
    ensures forall k :: 0 <= k < |calls| ==>
      calls[k] == BrushCall(Alive(e.registered, alive)[k], position(Alive(e.registered, alive)[k]), 1.0, time)
  {
    var live := Alive(e.registered, alive);
    seq(|live|, k requires 0 <= k < |live| => BrushCall(live[k], position(live[k]), 1.0, time))
  }

  /** In a duplicate-free registry each live object is brushed exactly once and
      nothing else is. */
  lemma ApplyTimeVisitsEachOnce(e: Events, time: real, alive: ObjectId -> bool, position: ObjectId -> Vec3, obj: ObjectId)
    requires Distinct(e.registered)
    ensures var calls := ApplyTimeToAllObjects(e, time, alive, position);
      && (obj in e.registered && alive(obj) ==> exists k :: 0 <= k < |calls| && calls[k].obj == obj)
      && (forall k, l :: 0 <= k < l < |calls| ==> calls[k].obj != calls[l].obj)
      && (forall k :: 0 <= k < |calls| ==> calls[k].obj in e.registered && alive(calls[k].obj))
  {
    var live := Alive(e.registered, alive);
    if obj in e.registered && alive(obj) {
      var k :| 0 <= k < |live| && live[k] == obj;
    }
  }
}

=== FILE: feedback.dfy ===
/**
 Visual feedback (TVRFeedback in Core): the brush trail, a first-in first-out
 queue of at most 20 positions mirrored into a line renderer, the colour
 parameter derived from a time value, and the per-mode indicators of which
 exactly the current mode's is shown.
 */
module Feedback {
  import opened Wrappers
  import opened UnityMath
  import opened Modes

  /** The trail keeps at most this many positions. */
  const MaxTrailPoints: nat := 20

  /** The trail queue, the line renderer's points (absent until the first
      trail update creates it), the trail colour and the indicators' active
      flags (absent before the indicators are set up). */
  datatype Feedback = Feedback(
    trail: seq<Vec3>,
    renderer: Option<seq<Vec3>>,
    trailColor: Color,
    indicators: Option<map<Mode, bool>>)

  /** Time value (0 .. 100) to a colour parameter in [0, 1]. */
  function TimeToColorParam(timeValue: real): (p: real)
    ensures 0.0 <= p <= 1.0
    ensures 0.0 <= timeValue <= 100.0 ==> p == timeValue / 100.0
    ensures timeValue <= 0.0 ==> p == 0.0
    ensures timeValue >= 100.0 ==> p == 1.0
  {
    Clamp01(timeValue / 100.0)
  }

  const Blue := Color(0.0, 0.0, 1.0, 1.0)
  const Red := Color(1.0, 0.0, 0.0, 1.0)

  /** Enqueue, then dequeue the oldest when the queue has grown past 20. */
  function Enqueue(trail: seq<Vec3>, position: Vec3): (r: seq<Vec3>)
    requires |trail| <= MaxTrailPoints
    ensures |r| <= MaxTrailPoints
    ensures |r| > 0 && r[|r| - 1] == position
    ensures |trail| < MaxTrailPoints ==> r == trail + [position]
    ensures |trail| == MaxTrailPoints ==> r == trail[1..] + [position]
  {
    var q := trail + [position];
    if |q| > MaxTrailPoints then q[1..] else q
  }

  /** UpdateBrushTrail: the renderer shows the queue in insertion order. */
  function UpdateBrushTrail(f: Feedback, position: Vec3, timeValue: real): (r: Feedback)
    requires |f.trail| <= MaxTrailPoints
    ensures |r.trail| <= MaxTrailPoints
    ensures r.trail == Enqueue(f.trail, position)
    ensures r.renderer == Some(r.trail)
    ensures r.trailColor == LerpColor(Blue, Red, TimeToColorParam(timeValue))
    ensures r.indicators == f.indicators
  {
    var q := Enqueue(f.trail, position);
    f.(trail := q, renderer := Some(q), trailColor := LerpColor(Blue, Red, TimeToColorParam(timeValue)))
  }

  /** ClearBrushTrail: empty queue, and zero points on an existing renderer. */
  function ClearBrushTrail(f: Feedback): (r: Feedback)
    ensures r.trail == []
    ensures f.renderer.Some? ==> r.renderer == Some([])
    ensures f.renderer.None? ==> r.renderer == None
    ensures r.trailColor == f.trailColor && r.indicators == f.indicators
  {
    f.(trail := [], renderer := if f.renderer.Some? then Some([]) else None)
  }

  /** The last min(|s|, n) elements of s. */
  function LastN(s: seq<Vec3>, n: nat): (r: seq<Vec3>)
    ensures |r| == if |s| < n then |s| else n
  {
    if |s| <= n then s else s[|s| - n..]
  }

  /** Feed a sequence of positions to the trail, oldest first. */
  function Feed(f: Feedback, ps: seq<Vec3>, timeValue: real): (r: Feedback)
    requires |f.trail| <= MaxTrailPoints
    ensures |r.trail| <= MaxTrailPoints
    decreases |ps|
  {
    if |ps| == 0 then f
    else Feed(UpdateBrushTrail(f, ps[0], timeValue), ps[1..], timeValue)
  }

  /** The trail is a sliding window: after a clear and any run of updates it
      holds exactly the newest min(n, 20) positions, oldest first, and the
      renderer shows the same points. */
  lemma {:induction false} TrailIsLastTwenty(f: Feedback, ps: seq<Vec3>, timeValue: real)
    requires |f.trail| <= MaxTrailPoints
    ensures Feed(f, ps, timeValue).trail == LastN(f.trail + ps, MaxTrailPoints)
    ensures |ps| > 0 ==> Feed(f, ps, timeValue).renderer == Some(Feed(f, ps, timeValue).trail)
    decreases |ps|
  {
    if |ps| > 0 {
      var p, rest := ps[0], ps[1..];
      var f1 := UpdateBrushTrail(f, p, timeValue);
      assert Feed(f, ps, timeValue) == Feed(f1, rest, timeValue);
      TrailIsLastTwenty(f1, rest, timeValue);
      LastNAppend(f.trail, p, rest);
      assert f.trail + [p] + rest == f.trail + ps;
      if |rest| == 0 {
        assert Feed(f1, rest, timeValue) == f1;
      }
    }
  }

  /** Sliding one element into the window and then the rest gives the window
      of everything. */
  lemma LastNAppend(trail: seq<Vec3>, p: Vec3, rest: seq<Vec3>)
    requires |trail| <= MaxTrailPoints
    ensures LastN(Enqueue(trail, p) + rest, MaxTrailPoints) == LastN(trail + [p] + rest, MaxTrailPoints)
  {
    var all := trail + [p] + rest;
    if |trail| == MaxTrailPoints {
      assert Enqueue(trail, p) + rest == all[1..];
    } else {
      assert Enqueue(trail, p) + rest == all;
    }
  }

  /** The mode colours (scrub blue, paint green, sculpt orange, preview yellow). */
  function GetModeColor(mode: Mode): (c: Color)
    ensures c.a == 1.0
  {
    match mode
    case Scrub => Color(0.2, 0.4, 1.0, 1.0)
    case Paint => Color(0.2, 1.0, 0.4, 1.0)
    case Sculpt => Color(1.0, 0.4, 0.2, 1.0)
    case Preview => Color(1.0, 1.0, 0.2, 1.0)
  }

  /** Each mode has its own colour. */
  lemma ModeColorsDistinct(m1: Mode, m2: Mode)
    ensures GetModeColor(m1) == GetModeColor(m2) <==> m1 == m2
  {
  }

  /** Set every indicator active exactly when it belongs to the mode. */
  function ActivateOnly(indicators: map<Mode, bool>, mode: Mode): (r: map<Mode, bool>)
    ensures r.Keys == indicators.Keys
    ensures forall k :: k in r ==> (r[k] <==> k == mode)
  {
    map k | k in indicators :: k == mode
  }

  /** UpdateModeColor: with indicators set up, exactly the indicator of the
      given mode is shown; without them nothing changes. */
  function UpdateModeColor(f: Feedback, mode: Mode): (r: Feedback)
    ensures f.indicators.None? ==> r == f
    ensures f.indicators.Some? ==> r.indicators.Some? && r.indicators.value.Keys == f.indicators.value.Keys
    ensures f.indicators.Some? ==> forall k :: k in r.indicators.value ==> (r.indicators.value[k] <==> k == mode)
    ensures r.trail == f.trail && r.renderer == f.renderer && r.trailColor == f.trailColor
  {
    match f.indicators
    case None => f
    case Some(ind) => f.(indicators := Some(ActivateOnly(ind, mode)))
  }

  /** UpdateModeIndicators, run every frame with the controller's mode: the
      same effect, but it iterates the indicators without a null check, so it
      raises before they are set up. */
  function UpdateModeIndicators(f: Feedback, currentMode: Mode): (r: Completion<Feedback>)
    ensures f.indicators.None? <==> r.Raised?
    ensures r.Raised? ==> r.Final() == f
    ensures r.Done? ==> r.Final() == UpdateModeColor(f, currentMode)
  {
    if f.indicators.None? then Raised(f) else Done(UpdateModeColor(f, currentMode))
  }

  /** The indicator state depends only on the latest mode. */
  lemma IndicatorsLatestWins(f: Feedback, m1: Mode, m2: Mode)
    ensures UpdateModeColor(UpdateModeColor(f, m1), m2) == UpdateModeColor(f, m2)
  {
  }
}

=== FILE: keyframes.dfy ===
/**
 Keyframes (TKeyframe) and the pieces of keyframe lookup shared by both morph
 objects: the first consecutive pair of keyframes that brackets a time, and
 the local interpolation parameter within that pair.
 */
module Keyframes {
  import opened Wrappers
  import opened UnityMath

  /** The part of a Unity mesh the morph code reads and writes. A mesh without
      normals reports an empty normal array. */
  datatype Mesh = Mesh(vertices: seq<Vec3>, normals: seq<Vec3>, triangles: seq<int>)

  /** A keyframe; its vertex and normal arrays may be null. */
  datatype Keyframe = Keyframe(time: real, vertices: Option<seq<Vec3>>, normals: Option<seq<Vec3>>, color: Color)

  /** Assigning a null normal array to a mesh leaves it without normals. */
  function NormalsOrEmpty(normals: Option<seq<Vec3>>): (r: seq<Vec3>)
    ensures normals.Some? ==> r == normals.value
    ensures normals.None? ==> r == []
  {
    match normals
    case Some(n) => n
    case None => []
  }

  /** CaptureFromMesh: the keyframe takes the mesh's vertex and normal arrays. */
  function CaptureFromMesh(k: Keyframe, mesh: Mesh): (r: Keyframe)
    ensures r.time == k.time && r.color == k.color
    ensures r.vertices == Some(mesh.vertices) && r.normals == Some(mesh.normals)
  {
    k.(vertices := Some(mesh.vertices), normals := Some(mesh.normals))
  }

  /** The keyframe's vertices exist and fit the mesh's vertex count. */
  predicate FitsMesh(k: Keyframe, mesh: Mesh)
  {
    k.vertices.Some? && |k.vertices.value| == |mesh.vertices|
  }

  /** ApplyToMesh: copy the keyframe's vertices and normals into the mesh when
      its vertex array is present and has the mesh's vertex count. */
  function ApplyToMesh(k: Keyframe, mesh: Mesh): (r: Mesh)
    ensures r.triangles == mesh.triangles
    ensures !FitsMesh(k, mesh) ==> r == mesh
    ensures FitsMesh(k, mesh) ==> r.vertices == k.vertices.value && r.normals == NormalsOrEmpty(k.normals)
  {
    if FitsMesh(k, mesh) then
      mesh.(vertices := k.vertices.value, normals := NormalsOrEmpty(k.normals))
    else
      mesh
  }

  /** Capturing a mesh and applying the keyframe back to it changes nothing. */
  lemma CaptureApplyRoundTrip(k: Keyframe, mesh: Mesh)
    ensures ApplyToMesh(CaptureFromMesh(k, mesh), mesh) == mesh
  {
  }

  /** Applying the same keyframe twice is the same as applying it once. */
  lemma ApplyToMeshIdempotent(k: Keyframe, mesh: Mesh)
    ensures ApplyToMesh(k, ApplyToMesh(k, mesh)) == ApplyToMesh(k, mesh)
  {
  }

  // ---------------------------------------------------------------------------
  // Segment search
  // ---------------------------------------------------------------------------

  /** Keyframes i and i + 1 bracket the time. */
  predicate Brackets(keys: seq<Keyframe>, i: int, time: real)
  {
    0 <= i < |keys| - 1 && keys[i].time <= time <= keys[i + 1].time
  }

  /** The loop `for (i = start; i < Count - 1; i++) if (bracket) break;`: the
      first bracketing index at or after `start`, if any. */
  function FirstBracket(keys: seq<Keyframe>, time: real, start: nat): (r: Option<nat>)
    ensures r.Some? ==> start <= r.value && Brackets(keys, r.value, time)
    ensures r.Some? ==> forall j :: start <= j < r.value ==> !Brackets(keys, j, time)
    ensures r.None? ==> forall j :: start <= j < |keys| - 1 ==> !Brackets(keys, j, time)
    decreases |keys| - start
  {
    if start + 1 >= |keys| then None
    else if Brackets(keys, start, time) then Some(start)
    else FirstBracket(keys, time, start + 1)
  }

  /** A discrete intermediate-value property: whenever the time lies between
      keyframe `start` and the last keyframe, some consecutive pair in between
      brackets it, whether or not the key times are sorted. */
  lemma {:induction false} BracketExists(keys: seq<Keyframe>, time: real, start: nat)
    requires start < |keys| - 1
    requires keys[start].time <= time <= keys[|keys| - 1].time
    ensures FirstBracket(keys, time, start).Some?
    decreases |keys| - start
  {
    if !Brackets(keys, start, time) {
      BracketExists(keys, time, start + 1);
    }
  }

  /** Key times strictly increase along the list. */
  predicate Increasing(keys: seq<Keyframe>)
  {
    forall i, j :: 0 <= i < j < |keys| ==> keys[i].time < keys[j].time
  }

  /** Consecutive key times differ: the interpolation parameter is defined on
      every segment. */
  predicate DistinctConsecutive(keys: seq<Keyframe>)
  {
    forall i :: 0 <= i < |keys| - 1 ==> keys[i].time != keys[i + 1].time
  }

  /** With increasing key times, the segment found for the time of keyframe j
      ends at j (or starts at it, for the first keyframe). */
  lemma BracketAtKeyframe(keys: seq<Keyframe>, j: nat)
    requires Increasing(keys) && 2 <= |keys| && j < |keys|
    ensures j == 0 ==> FirstBracket(keys, keys[j].time, 0) == Some(0)
    ensures j > 0 ==> FirstBracket(keys, keys[j].time, 0) == Some(j - 1)
  {
    if j == 0 {
      assert Brackets(keys, 0, keys[j].time);
    } else {
      assert Brackets(keys, j - 1, keys[j].time);
    }
  }

  /** With increasing key times, a time strictly after keyframe i and not after
      keyframe i + 1 is bracketed first by the pair (i, i + 1). */
  lemma BracketInterior(keys: seq<Keyframe>, i: nat, time: real)
    requires Increasing(keys) && i + 1 < |keys|
    requires keys[i].time < time <= keys[i + 1].time
    ensures FirstBracket(keys, time, 0) == Some(i)
  {
    assert Brackets(keys, i, time);
    forall j | 0 <= j < i
      ensures !Brackets(keys, j, time)
    {
      assert keys[j + 1].time <= keys[i].time;
    }
  }

  /** (time - from) / (to - from): the position of the time within a segment. */
  function SegmentParameter(from: real, to: real, time: real): (t: real)
    requires from <= time <= to && from != to
    ensures 0.0 <= t <= 1.0
    ensures time == from ==> t == 0.0
    ensures time == to ==> t == 1.0
    ensures from + (to - from) * t == time
  {
    var d := to - from;
    var t := (time - from) / d;
    assert t * d == time - from;
    t
  }

  /** Vector3.Lerp of two vertex arrays, element by element. */
  function LerpVertices(a: seq<Vec3>, b: seq<Vec3>, t: real): (r: seq<Vec3>)
    requires |a| == |b|
    ensures |r| == |a|
    ensures forall i :: 0 <= i < |a| ==> r[i] == Lerp3(a[i], b[i], t)
    ensures t <= 0.0 ==> r == a
    ensures t >= 1.0 ==> r == b
  {
    seq(|a|, i requires 0 <= i < |a| => Lerp3(a[i], b[i], t))
  }

  /** Vector3.Slerp of two normal arrays, element by element; the engine's
      slerp is a parameter. */
  function SlerpNormals(a: seq<Vec3>, b: seq<Vec3>, t: real, slerp: (Vec3, Vec3, real) -> Vec3): (r: seq<Vec3>)
    requires |a| == |b|
    ensures |r| == |a|
    ensures forall i :: 0 <= i < |a| ==> r[i] == slerp(a[i], b[i], t)
  {
    seq(|a|, i requires 0 <= i < |a| => slerp(a[i], b[i], t))
  }
}

=== FILE: mesh_data.dfy ===
/**
 Per-vertex temporal data of a mesh (TemporalMeshData): one time value per
 vertex, a neighbour map derived from the triangle list, a brush that blends
 vertex times toward a target time with squared falloff, and propagation of a
 change to the neighbours of a brushed vertex.
 */
module TemporalMesh {
  import opened Wrappers
  import opened UnityMath

  /** Vertex index -> neighbour indices, in insertion order. */
  type Groups = map<int, seq<int>>

  datatype MeshData = MeshData(
    vertexTimes: seq<real>,
    timeVelocities: seq<real>,
    minTime: real,
    maxTime: real,
    groups: Groups)

  /** The constructor: every vertex starts at time 0 with velocity 0, the time
      range defaults to [0, 10] and there are no neighbours yet. A negative
      count throws in C#, so the count is a nat here. */
  function New(vertexCount: nat): (d: MeshData)
    ensures |d.vertexTimes| == vertexCount && |d.timeVelocities| == vertexCount
    ensures forall i :: 0 <= i < vertexCount ==> d.vertexTimes[i] == 0.0
    ensures forall i :: 0 <= i < vertexCount ==> d.timeVelocities[i] == 0.0
    ensures d.minTime == 0.0 && d.maxTime == 10.0 && d.groups == map[]
  {
    MeshData(seq(vertexCount, _ => 0.0), seq(vertexCount, _ => 0.0), 0.0, 10.0, map[])
  }

  // ---------------------------------------------------------------------------
  // Neighbour map
  // ---------------------------------------------------------------------------

  predicate Distinct(s: seq<int>)
  {
    forall i, j :: 0 <= i < j < |s| ==> s[i] != s[j]
  }

  /** No neighbour list holds an index twice. */
  predicate NoDuplicates(g: Groups)
  {
    forall v :: v in g ==> Distinct(g[v])
  }

  /** n is listed as a neighbour of v. */
  predicate HasNeighbor(g: Groups, v: int, n: int)
  {
    v in g && n in g[v]
  }

  /** AddNeighbor: create v's list if missing, then append n unless present. */
  function AddNeighbor(g: Groups, v: int, n: int): (r: Groups)
    requires NoDuplicates(g)
    ensures NoDuplicates(r)
    ensures r.Keys == g.Keys + {v}
    ensures forall k, m :: HasNeighbor(r, k, m) <==> HasNeighbor(g, k, m) || (k == v && m == n)
    ensures forall k :: k in g && k != v ==> r[k] == g[k]
    ensures HasNeighbor(g, v, n) ==> r == g
  {
    var list := if v in g then g[v] else [];
    if n in list then g[v := list] else g[v := list + [n]]
  }

  /** Vertex v is a corner of triangle t. */
  predicate InTriangle(tris: seq<int>, t: int, v: int)
  {
    0 <= t && 3 * t + 2 < |tris| && (tris[3 * t] == v || tris[3 * t + 1] == v || tris[3 * t + 2] == v)
  }

  /** The neighbour pairs one triangle (a, b, c) contributes: each corner
      lists the other two. */
  predicate Corners(a: int, b: int, c: int, v: int, n: int)
  {
    (v == a && (n == b || n == c)) || (v == b && (n == a || n == c)) || (v == c && (n == a || n == b))
  }

  /** v and n sit at two different corners of triangle t. */
  predicate PairIn(tris: seq<int>, t: int, v: int, n: int)
  {
    0 <= t && 3 * t + 2 < |tris| && Corners(tris[3 * t], tris[3 * t + 1], tris[3 * t + 2], v, n)
  }

  /** Reference adjacency: v and n share one of the first `count` triangles. */
  ghost predicate Linked(tris: seq<int>, count: int, v: int, n: int)
  {
    exists t :: 0 <= t < count && PairIn(tris, t, v, n)
  }

  /** Reference vertex set: v is a corner of one of the first `count` triangles. */
  ghost predicate Touches(tris: seq<int>, count: int, v: int)
  {
    exists t :: 0 <= t < count && InTriangle(tris, t, v)
  }

  /** g is exactly the neighbour map of the first `count` triangles. */
  ghost predicate Describes(g: Groups, tris: seq<int>, count: int)
  {
    && NoDuplicates(g)
    && (forall v :: v in g <==> Touches(tris, count, v))
    && (forall v, n :: HasNeighbor(g, v, n) <==> Linked(tris, count, v, n))
  }

  /** The six AddNeighbor calls of one triangle (a, b, c), two per corner. */
  function AddTriangle(g: Groups, a: int, b: int, c: int): (r: Groups)
    requires NoDuplicates(g)
    ensures NoDuplicates(r)
    ensures r.Keys == g.Keys + {a} + {b} + {c}
    ensures forall k, m :: HasNeighbor(r, k, m) <==> HasNeighbor(g, k, m) || Corners(a, b, c, k, m)
  {
    AddCorner(AddCorner(AddCorner(g, a, b, c), b, a, c), c, a, b)
  }

  /** The two AddNeighbor calls of one corner v whose other corners are x, y. */
  function AddCorner(g: Groups, v: int, x: int, y: int): (r: Groups)
    requires NoDuplicates(g)
    ensures NoDuplicates(r)
    ensures r.Keys == g.Keys + {v}
    ensures forall k, m :: HasNeighbor(r, k, m) <==> HasNeighbor(g, k, m) || (k == v && (m == x || m == y))
  {
    AddNeighbor(AddNeighbor(g, v, x), v, y)
  }

  /** The vertex set of count + 1 triangles adds the corners of triangle count. */
  lemma TouchesStep(tris: seq<int>, count: nat, v: int)
    ensures Touches(tris, count + 1, v) <==> Touches(tris, count, v) || InTriangle(tris, count, v)
  {
    if Touches(tris, count + 1, v) {
      var t :| 0 <= t < count + 1 && InTriangle(tris, t, v);
      if t < count {
        assert Touches(tris, count, v);
      }
    }
  }

  /** The adjacency of count + 1 triangles adds the corner pairs of triangle count. */
  lemma LinkedStep(tris: seq<int>, count: nat, v: int, n: int)
    ensures Linked(tris, count + 1, v, n) <==> Linked(tris, count, v, n) || PairIn(tris, count, v, n)
  {
    if Linked(tris, count + 1, v, n) {
      var t :| 0 <= t < count + 1 && PairIn(tris, t, v, n);
      if t < count {
        assert Linked(tris, count, v, n);
      }
    }
  }

  /** A map that extends the map of the first `count` triangles by exactly the
      corner pairs of triangle `count` is the map of the first count + 1. */
  lemma DescribesStep(g: Groups, r: Groups, tris: seq<int>, count: nat)
    requires 3 * count + 2 < |tris|
    requires Describes(g, tris, count)
    requires NoDuplicates(r)
    requires r.Keys == g.Keys + {tris[3 * count]} + {tris[3 * count + 1]} + {tris[3 * count + 2]}
    requires forall k, m :: HasNeighbor(r, k, m) <==>
      HasNeighbor(g, k, m) || Corners(tris[3 * count], tris[3 * count + 1], tris[3 * count + 2], k, m)
    ensures Describes(r, tris, count + 1)
  {
    KeysStep(g, r, tris, count);
    LinksStep(g, r, tris, count);
  }

  lemma KeysStep(g: Groups, r: Groups, tris: seq<int>, count: nat)
    requires 3 * count + 2 < |tris|
    requires forall v :: v in g <==> Touches(tris, count, v)
    requires r.Keys == g.Keys + {tris[3 * count]} + {tris[3 * count + 1]} + {tris[3 * count + 2]}
    ensures forall v :: v in r <==> Touches(tris, count + 1, v)
  {
    forall v
      ensures v in r <==> Touches(tris, count + 1, v)
    {
      TouchesStep(tris, count, v);
    }
  }

  lemma LinksStep(g: Groups, r: Groups, tris: seq<int>, count: nat)
    requires 3 * count + 2 < |tris|
    requires forall v, n :: HasNeighbor(g, v, n) <==> Linked(tris, count, v, n)
    requires forall v, n :: HasNeighbor(r, v, n) <==> HasNeighbor(g, v, n) || PairIn(tris, count, v, n)
    ensures forall v, n :: HasNeighbor(r, v, n) <==> Linked(tris, count + 1, v, n)
  {
    forall v, n
      ensures HasNeighbor(r, v, n) <==> Linked(tris, count + 1, v, n)
    {
      LinkedStep(tris, count, v, n);
    }
  }

  /** The loop of BuildVertexGroups from index i = 3 * count on, starting from
      the map of the first `count` triangles. A trailing partial triangle makes
      the source read past the end of the array: the exception leaves the map of
      the complete triangles behind. */
  function Scan(g: Groups, tris: seq<int>, count: nat): (r: Completion<Groups>)
    requires 3 * count <= |tris|
    requires Describes(g, tris, count)
    ensures r.Done? <==> |tris| % 3 == 0
    ensures Describes(r.Final(), tris, |tris| / 3)
    decreases |tris| - 3 * count
  {
    ScanArithmetic(|tris|, count);
    if 3 * count == |tris| then
      Done(g)
    else if 3 * count + 2 >= |tris| then
      Raised(g)
    else
      var next := AddTriangle(g, tris[3 * count], tris[3 * count + 1], tris[3 * count + 2]);
      DescribesStep(g, next, tris, count);
      Scan(next, tris, count + 1)
  }

  /** Where the scan stops: at the end of a whole number of triangles, or
      within a trailing partial one. */
  lemma ScanArithmetic(n: nat, count: nat)
    requires 3 * count <= n
    ensures 3 * count == n ==> n % 3 == 0 && n / 3 == count
    ensures 3 * count < n <= 3 * count + 2 ==> n % 3 != 0 && n / 3 == count
  {
  }

  /** BuildVertexGroups clears the map and scans the triangle list: the result
      depends on the triangles alone, lists every pair of corners of a complete
      triangle, and nothing else. */
  function BuildVertexGroups(tris: seq<int>): (r: Completion<Groups>)
    ensures r.Done? <==> |tris| % 3 == 0
    ensures Describes(r.Final(), tris, |tris| / 3)
  {
    Scan(map[], tris, 0)
  }

  /** Corners of a triangle are mutual neighbours after BuildVertexGroups. */
  lemma TriangleCornersAreNeighbors(tris: seq<int>, t: nat)
    requires 3 * t + 2 < |tris|
    ensures var g := BuildVertexGroups(tris).Final();
      var a, b, c := tris[3 * t], tris[3 * t + 1], tris[3 * t + 2];
      HasNeighbor(g, a, b) && HasNeighbor(g, a, c) && HasNeighbor(g, b, a)
      && HasNeighbor(g, b, c) && HasNeighbor(g, c, a) && HasNeighbor(g, c, b)
  {
    var a, b, c := tris[3 * t], tris[3 * t + 1], tris[3 * t + 2];
    assert PairIn(tris, t, a, b) && PairIn(tris, t, a, c) && PairIn(tris, t, b, a);
    assert PairIn(tris, t, b, c) && PairIn(tris, t, c, a) && PairIn(tris, t, c, b);
  }

  /** The neighbour relation BuildVertexGroups produces is symmetric. */
  lemma NeighborsSymmetric(tris: seq<int>, v: int, n: int)
    ensures var g := BuildVertexGroups(tris).Final();
      HasNeighbor(g, v, n) ==> HasNeighbor(g, n, v)
  {
    var g := BuildVertexGroups(tris).Final();
    if HasNeighbor(g, v, n) {
      var t :| 0 <= t < |tris| / 3 && PairIn(tris, t, v, n);
      assert PairIn(tris, t, n, v);
    }
  }

  /** Every neighbour index comes from the triangle list, so non-negative
      triangle indices give non-negative neighbour indices. */
  ghost predicate NonNegative(g: Groups)
  {
    forall v, n :: HasNeighbor(g, v, n) ==> n >= 0
  }

  /** The neighbour in a triangle's corner pair is one of its entries. */
  lemma CornerNonNegative(tris: seq<int>, t: int, v: int, n: int)
    requires forall i :: 0 <= i < |tris| ==> tris[i] >= 0
    requires PairIn(tris, t, v, n)
    ensures n >= 0
  {
    assert n == tris[3 * t] || n == tris[3 * t + 1] || n == tris[3 * t + 2];
  }

  lemma GroupsNonNegative(tris: seq<int>)
    requires forall i :: 0 <= i < |tris| ==> tris[i] >= 0
    ensures NonNegative(BuildVertexGroups(tris).Final())
  {
    var g := BuildVertexGroups(tris).Final();
    assert Describes(g, tris, |tris| / 3);
    forall v, n | HasNeighbor(g, v, n)
      ensures n >= 0
    {
      assert Linked(tris, |tris| / 3, v, n);
      var t :| 0 <= t < |tris| / 3 && PairIn(tris, t, v, n);
      CornerNonNegative(tris, t, v, n);
    }
  }

  // ---------------------------------------------------------------------------
  // Brush and propagation
  // ---------------------------------------------------------------------------

  /** The brush arguments of ApplyTemporalBrush. */
  datatype Brush = Brush(position: Vec3, radius: real, strength: real, targetTime: real)

  /** The smooth falloff (1 - d / r)^2 (Mathf.Pow with exponent 2). Inside the
      brush it lies in [0, 1], is 1 at the centre and 0 on the rim. */
  function Falloff(distance: real, radius: real): (f: real)
    requires radius != 0.0
    ensures f >= 0.0
    ensures 0.0 <= distance <= radius ==> f <= 1.0
    ensures distance == 0.0 ==> f == 1.0
    ensures distance == radius ==> f == 0.0
  {
    var u := 1.0 - distance / radius;
    if 0.0 <= distance <= radius then
      assert 0.0 <= distance / radius <= 1.0 by {
        assert distance / radius * radius == distance;
      }
      FractionBounds(u, u);
      u * u
    else
      u * u
  }

  /** One step of PropagateTimeChange's loop: neighbour j (if in range and
      more than 0.1 away from the source) moves toward the source's time. */
  function PropagateOne(times: seq<real>, v: nat, j: int, influence: real): (r: seq<real>)
    requires v < |times| && j >= 0
  {
    if j < |times| && Abs(times[v] - times[j]) > 0.1 then
      times[j := Lerp(times[j], times[v], influence)]
    else
      times
  }

  /** PropagateTimeChange over the neighbour list ns of vertex v. Negative
      indices would throw, so they are excluded. */
  function Propagate(times: seq<real>, v: nat, ns: seq<int>, influence: real): (r: seq<real>)
    requires v < |times|
    requires forall k :: 0 <= k < |ns| ==> ns[k] >= 0
    ensures |r| == |times|
    ensures r[v] == times[v]
    ensures forall j :: 0 <= j < |times| && j !in ns ==> r[j] == times[j]
    ensures forall j :: 0 <= j < |times| && r[j] != times[j] ==> Abs(times[v] - times[j]) > 0.1
    ensures forall j :: 0 <= j < |times| ==> Between(r[j], times[j], times[v])
    decreases |ns|
  {
    if |ns| == 0 then
      times
    else
      var next := PropagateOne(times, v, ns[0], influence);
      var r := Propagate(next, v, ns[1..], influence);
      assert forall j :: 0 <= j < |times| && j !in ns ==> j != ns[0] && j !in ns[1..];
      r
  }

  /** The neighbours PropagateTimeChange visits from v. */
  function NeighborsOf(g: Groups, v: int): seq<int>
  {
    if v in g then g[v] else []
  }

  /** Vertex i lies within the brush (Vector3.Distance <= radius). */
  predicate InRadius(world: seq<Vec3>, i: int, b: Brush, sqrt: real -> real)
  {
    0 <= i < |world| && Distance(world[i], b.position, sqrt) <= b.radius
  }

  /** One iteration of ApplyTemporalBrush's loop for vertex i. */
  function BrushVertex(times: seq<real>, g: Groups, world: seq<Vec3>, i: nat, b: Brush,
                       deltaTime: real, sqrt: real -> real): (r: seq<real>)
    requires i < |world| <= |times| && b.radius != 0.0 && NonNegative(g)
    ensures |r| == |times|
    ensures !InRadius(world, i, b, sqrt) ==> r == times
    ensures InRadius(world, i, b, sqrt) ==> Between(r[i], times[i], b.targetTime)
  {
    var distance := Distance(world[i], b.position, sqrt);
    if distance <= b.radius then
      var influence := b.strength * Falloff(distance, b.radius);
      var blended := times[i := Lerp(times[i], b.targetTime, influence * deltaTime)];
      var ns := NeighborsOf(g, i);
      assert forall k :: 0 <= k < |ns| ==> HasNeighbor(g, i, ns[k]);
      Propagate(blended, i, ns, influence * 0.5)
    else
      times
  }

  /** Vertex j can be changed by the brush step at vertex i: i is inside the
      brush and j is i itself or one of its neighbours. */
  ghost predicate ReachedFrom(g: Groups, world: seq<Vec3>, i: int, j: int, b: Brush, sqrt: real -> real)
  {
    InRadius(world, i, b, sqrt) && (j == i || HasNeighbor(g, i, j))
  }

  /** The loop of ApplyTemporalBrush from vertex i on. */
  function BrushFrom(times: seq<real>, g: Groups, world: seq<Vec3>, i: nat, b: Brush,
                     deltaTime: real, sqrt: real -> real): (r: seq<real>)
    requires i <= |world| <= |times| && b.radius != 0.0 && NonNegative(g)
    ensures |r| == |times|
    decreases |world| - i
  {
    if i == |world| then times
    else BrushFrom(BrushVertex(times, g, world, i, b, deltaTime, sqrt), g, world, i + 1, b, deltaTime, sqrt)
  }

  /** ApplyTemporalBrush. The world-space vertex positions (TransformPoint) and
      the square root behind Vector3.Distance are supplied by the engine. */
  function ApplyTemporalBrush(d: MeshData, world: seq<Vec3>, b: Brush, deltaTime: real,
                              sqrt: real -> real): (r: MeshData)
    requires |world| <= |d.vertexTimes| && b.radius != 0.0 && NonNegative(d.groups)
    ensures |r.vertexTimes| == |d.vertexTimes|
    ensures r.groups == d.groups && r.timeVelocities == d.timeVelocities
    ensures r.minTime == d.minTime && r.maxTime == d.maxTime
  {
    d.(vertexTimes := BrushFrom(d.vertexTimes, d.groups, world, 0, b, deltaTime, sqrt))
  }

  /** Every time lies in [lo, hi]. */
  predicate AllWithin(times: seq<real>, lo: real, hi: real)
  {
    forall j :: 0 <= j < |times| ==> lo <= times[j] <= hi
  }

  /** Blending toward a target and propagating between vertices never leaves
      the range spanned by the old times and the target time. */
  lemma {:induction false} BrushFromStaysWithin(times: seq<real>, g: Groups, world: seq<Vec3>, i: nat,
                                               b: Brush, deltaTime: real, sqrt: real -> real, lo: real, hi: real)
    requires i <= |world| <= |times| && b.radius != 0.0 && NonNegative(g)
    requires AllWithin(times, lo, hi) && lo <= b.targetTime <= hi
    ensures AllWithin(BrushFrom(times, g, world, i, b, deltaTime, sqrt), lo, hi)
    decreases |world| - i
  {
    if i < |world| {
      var next := BrushVertex(times, g, world, i, b, deltaTime, sqrt);
      if InRadius(world, i, b, sqrt) {
        var distance := Distance(world[i], b.position, sqrt);
        var influence := b.strength * Falloff(distance, b.radius);
        var blended := times[i := Lerp(times[i], b.targetTime, influence * deltaTime)];
        assert AllWithin(blended, lo, hi);
      }
      BrushFromStaysWithin(next, g, world, i + 1, b, deltaTime, sqrt, lo, hi);
    }
  }

  lemma ApplyTemporalBrushStaysWithin(d: MeshData, world: seq<Vec3>, b: Brush, deltaTime: real,
                                      sqrt: real -> real, lo: real, hi: real)
    requires |world| <= |d.vertexTimes| && b.radius != 0.0 && NonNegative(d.groups)
    requires AllWithin(d.vertexTimes, lo, hi) && lo <= b.targetTime <= hi
    ensures AllWithin(ApplyTemporalBrush(d, world, b, deltaTime, sqrt).vertexTimes, lo, hi)
  {
    BrushFromStaysWithin(d.vertexTimes, d.groups, world, 0, b, deltaTime, sqrt, lo, hi);
  }

  /** Locality: a vertex the brush changes is inside the brush or a neighbour of
      a vertex inside the brush. */
  lemma {:induction false} BrushFromIsLocal(times: seq<real>, g: Groups, world: seq<Vec3>, i: nat,
                                           b: Brush, deltaTime: real, sqrt: real -> real, j: nat)
    requires i <= |world| <= |times| && b.radius != 0.0 && NonNegative(g)
    requires j < |times| && BrushFrom(times, g, world, i, b, deltaTime, sqrt)[j] != times[j]
    ensures exists k :: i <= k < |world| && ReachedFrom(g, world, k, j, b, sqrt)
    decreases |world| - i
  {
    var next := BrushVertex(times, g, world, i, b, deltaTime, sqrt);
    if next[j] != times[j] {
      assert InRadius(world, i, b, sqrt);
      if j != i {
        var distance := Distance(world[i], b.position, sqrt);
        var influence := b.strength * Falloff(distance, b.radius);
        var blended := times[i := Lerp(times[i], b.targetTime, influence * deltaTime)];
        assert blended[j] == times[j];
        assert j in NeighborsOf(g, i);
      }
      assert ReachedFrom(g, world, i, j, b, sqrt);
    } else {
      BrushFromIsLocal(next, g, world, i + 1, b, deltaTime, sqrt, j);
    }
  }

  lemma ApplyTemporalBrushIsLocal(d: MeshData, world: seq<Vec3>, b: Brush, deltaTime: real,
                                  sqrt: real -> real, j: nat)
    requires |world| <= |d.vertexTimes| && b.radius != 0.0 && NonNegative(d.groups)
    requires j < |d.vertexTimes|
    requires !InRadius(world, j, b, sqrt)
    requires forall k :: 0 <= k < |world| && InRadius(world, k, b, sqrt) ==> !HasNeighbor(d.groups, k, j)
    ensures ApplyTemporalBrush(d, world, b, deltaTime, sqrt).vertexTimes[j] == d.vertexTimes[j]
  {
    if ApplyTemporalBrush(d, world, b, deltaTime, sqrt).vertexTimes[j] != d.vertexTimes[j] {
      BrushFromIsLocal(d.vertexTimes, d.groups, world, 0, b, deltaTime, sqrt, j);
    }
  }
}

=== FILE: modes.dfy ===
/**
 The four temporal modes and the modulo-4 cycle every controller variant uses
 to switch between them.
 */
module Modes {
  datatype Mode = Scrub | Paint | Sculpt | Preview

  /** The enum's integer value. */
  function Index(m: Mode): (i: nat)
    ensures i < 4
  {
    match m
    case Scrub => 0
    case Paint => 1
    case Sculpt => 2
    case Preview => 3
  }

  /** The cast from int back to the enum. */
  function FromIndex(i: nat): (m: Mode)
    requires i < 4
    ensures Index(m) == i
  {
    if i == 0 then Scrub else if i == 1 then Paint else if i == 2 then Sculpt else Preview
  }

  lemma IndexRoundTrip(m: Mode)
    ensures FromIndex(Index(m)) == m
  {
  }

  /** `(TemporalMode)(((int)currentMode + 1) % 4)`. */
  function Next(m: Mode): (r: Mode)
    ensures Index(r) == (Index(m) + 1) % 4
    ensures r != m
  {
    FromIndex((Index(m) + 1) % 4)
  }

  /** The mode after k switches. */
  function Advance(m: Mode, k: nat): Mode
  {
    if k == 0 then m else Next(Advance(m, k - 1))
  }

  /** k switches move the mode k places round the cycle. */
  lemma {:induction false} AdvanceIndex(m: Mode, k: nat)
    ensures Index(Advance(m, k)) == (Index(m) + k) % 4
  {
    if k > 0 {
      var before, q := Advance(m, k - 1), Index(m) + (k - 1);
      AdvanceIndex(m, k - 1);
      NextShift(before, q);
      assert Advance(m, k) == Next(before) && q + 1 == Index(m) + k;
    }
  }

  /** One switch from the mode at place q of the cycle goes to place q + 1. */
  lemma NextShift(b: Mode, q: nat)
    requires Index(b) == q % 4
    ensures Index(Next(b)) == (q + 1) % 4
  {
    ModSucc(q);
  }

  lemma ModSucc(q: nat)
    ensures (q % 4 + 1) % 4 == (q + 1) % 4
  {
    var d := q / 4;
    assert q == 4 * d + q % 4;
    if q % 4 == 3 {
      assert q + 1 == 4 * (d + 1);
    } else {
      assert q + 1 == 4 * d + (q % 4 + 1);
    }
  }

  /** Moving i < 4 places k further round the cycle lands back on i exactly
      when k is a multiple of 4. */
  lemma ModShift(i: nat, k: nat)
    requires i < 4
    ensures (i + k) % 4 == i <==> k % 4 == 0
  {
    var d, r := k / 4, k % 4;
    assert k == 4 * d + r;
    assert i + k == 4 * d + (i + r);
    if i + r < 4 {
      assert (i + k) % 4 == i + r;
    } else {
      assert (i + k) % 4 == i + r - 4;
    }
  }

  /** Four switches return to the starting mode; fewer never do. */
  lemma CycleLength(m: Mode, k: nat)
    ensures Advance(m, k) == m <==> k % 4 == 0
  {
    AdvanceIndex(m, k);
    ModShift(Index(m), k);
    IndexRoundTrip(m);
    IndexRoundTrip(Advance(m, k));
  }
}

=== FILE: morph.dfy ===
/**
 The first morph object (TMorphObj): a list of keyframes, a working mesh and a
 re-entrancy flag. UpdateToTime clamps the requested time into the keyframe
 range, finds the first bracketing pair of keyframes and interpolates the
 mesh and colour between them.
 */
module Morph {
  import opened Wrappers
  import opened UnityMath
  import opened Keyframes

  /** The engine's Vector3.Slerp, supplied by the caller. */
  type Slerp = (Vec3, Vec3, real) -> Vec3

  /** The engine's Mesh.RecalculateNormals: new normals computed from a mesh. */
  type Recalc = Mesh -> seq<Vec3>

  /** The state of a TMorphObj the morph logic touches. `color` is the colour
      last written to the renderer's property block. */
  datatype MorphObj = MorphObj(
    keyframes: Option<seq<Keyframe>>,
    workingMesh: Option<Mesh>,
    hasRenderer: bool,
    color: Color,
    isUpdating: bool)

  /** KeyframeCount: 0 for a null list, otherwise its length. */
  function KeyframeCount(o: MorphObj): (n: nat)
    ensures o.keyframes.None? ==> n == 0
    ensures o.keyframes.Some? ==> n == |o.keyframes.value|
  {
    match o.keyframes
    case None => 0
    case Some(keys) => |keys|
  }

  /** ApplyColor: only an object with a renderer takes the colour. */
  function ApplyColor(o: MorphObj, c: Color): (r: MorphObj)
    ensures o.hasRenderer ==> r == o.(color := c)
    ensures !o.hasRenderer ==> r == o
  {
    if o.hasRenderer then o.(color := c) else o
  }

  /** ApplyKeyframe: the mesh takes the keyframe's vertices, and its normals
      when present (otherwise they are recalculated); no vertex-count check. */
  function ApplyKeyframe(o: MorphObj, kf: Keyframe, recalc: Recalc): (r: MorphObj)
    ensures r.keyframes == o.keyframes && r.hasRenderer == o.hasRenderer && r.isUpdating == o.isUpdating
    ensures kf.vertices.None? || o.workingMesh.None? ==> r == o
    ensures kf.vertices.Some? && o.workingMesh.Some? ==>
      && r.workingMesh.Some?
      && r.workingMesh.value.vertices == kf.vertices.value
      && r.workingMesh.value.triangles == o.workingMesh.value.triangles
      && (kf.normals.Some? ==> r.workingMesh.value.normals == kf.normals.value)
      && (o.hasRenderer ==> r.color == kf.color)
      && (!o.hasRenderer ==> r.color == o.color)
  {
    if kf.vertices.None? || o.workingMesh.None? then
      o
    else
      var withVertices := o.workingMesh.value.(vertices := kf.vertices.value);
      var normals := if kf.normals.Some? then kf.normals.value else recalc(withVertices);
      ApplyColor(o.(workingMesh := Some(withVertices.(normals := normals))), kf.color)
  }

  /** Both keyframes carry vertex arrays of one length: LerpMesh interpolates. */
  predicate Interpolable(from: Keyframe, to: Keyframe)
  {
    from.vertices.Some? && to.vertices.Some? && |from.vertices.value| == |to.vertices.value|
  }

  /** Both keyframes carry normal arrays of one length: normals are slerped. */
  predicate NormalsInterpolable(from: Keyframe, to: Keyframe)
  {
    from.normals.Some? && to.normals.Some? && |from.normals.value| == |to.normals.value|
  }

  /** LerpMesh: interpolate vertices (and normals when both exist with equal
      length, else recalculate them); a no-op on null or mismatched vertex
      arrays. */
  function LerpMesh(mesh: Mesh, from: Keyframe, to: Keyframe, t: real, slerp: Slerp, recalc: Recalc): (r: Mesh)
    ensures r.triangles == mesh.triangles
    ensures !Interpolable(from, to) ==> r == mesh
    ensures Interpolable(from, to) ==>
      && |r.vertices| == |from.vertices.value|
      && (t <= 0.0 ==> r.vertices == from.vertices.value)
      && (t >= 1.0 ==> r.vertices == to.vertices.value)
      && (forall i :: 0 <= i < |r.vertices| ==> r.vertices[i] == Lerp3(from.vertices.value[i], to.vertices.value[i], t))
    ensures Interpolable(from, to) && NormalsInterpolable(from, to) ==>
      r.normals == SlerpNormals(from.normals.value, to.normals.value, t, slerp)
    ensures Interpolable(from, to) && !NormalsInterpolable(from, to) ==>
      r.normals == recalc(mesh.(vertices := r.vertices))
  {
    if !Interpolable(from, to) then
      mesh
    else
      var withVertices := mesh.(vertices := LerpVertices(from.vertices.value, to.vertices.value, t));
      if NormalsInterpolable(from, to) then
        withVertices.(normals := SlerpNormals(from.normals.value, to.normals.value, t, slerp))
      else
        withVertices.(normals := recalc(withVertices))
  }

  /** The requested time clamped into [first key time, last key time]. */
  function ClampedTime(keys: seq<Keyframe>, time: real): (c: real)
    requires |keys| >= 1
    ensures keys[0].time <= keys[|keys| - 1].time ==> keys[0].time <= c <= keys[|keys| - 1].time
    ensures keys[0].time <= time <= keys[|keys| - 1].time ==> c == time
  {
    Clamp(time, keys[0].time, keys[|keys| - 1].time)
  }

  /** The pair of keyframes the clamped time falls into, if any, has distinct
      times: the interpolation parameter divides by that pair's time gap and
      by no other. */
  predicate SegmentDefined(keys: seq<Keyframe>, time: real)
    requires |keys| >= 1
  {
    var seg := FirstBracket(keys, ClampedTime(keys, time), 0);
    seg.Some? ==> keys[seg.value].time != keys[seg.value + 1].time
  }

  /** Distinct consecutive key times define every segment. */
  lemma DistinctSegmentDefined(keys: seq<Keyframe>, time: real)
    requires |keys| >= 1 && DistinctConsecutive(keys)
    ensures SegmentDefined(keys, time)
  {
  }

  /** The body of UpdateToTime's try block, for at least two keyframes and a
      working mesh. */
  function Interpolate(o: MorphObj, keys: seq<Keyframe>, time: real, slerp: Slerp, recalc: Recalc): (r: MorphObj)
    requires |keys| >= 2 && o.workingMesh.Some? && SegmentDefined(keys, time)
    ensures r.keyframes == o.keyframes && r.hasRenderer == o.hasRenderer && r.isUpdating == o.isUpdating
    ensures r.workingMesh.Some?
  {
    var clamped := ClampedTime(keys, time);
    match FirstBracket(keys, clamped, 0)
    case None =>
      if clamped <= keys[0].time then ApplyKeyframe(o, keys[0], recalc)
      else if clamped >= keys[|keys| - 1].time then ApplyKeyframe(o, keys[|keys| - 1], recalc)
      else o
    case Some(i) =>
      var t := SegmentParameter(keys[i].time, keys[i + 1].time, clamped);
      var lerped := o.(workingMesh := Some(LerpMesh(o.workingMesh.value, keys[i], keys[i + 1], t, slerp, recalc)));
      if lerped.hasRenderer then ApplyColor(lerped, LerpColor(keys[i].color, keys[i + 1].color, t)) else lerped
  }

  /** UpdateToTime. Reading the count of a null keyframe list throws before the
      flag is set; inside the try block the flag is set and then cleared by the
      finally clause. On the path that interpolates, a bracketing pair with
      equal times would divide zero by zero, so there the pair the time falls
      into must have distinct times. */
  function UpdateToTime(o: MorphObj, time: real, slerp: Slerp, recalc: Recalc): (r: Completion<MorphObj>)
    requires !o.isUpdating && o.keyframes.Some? && |o.keyframes.value| >= 2 && o.workingMesh.Some? ==>
      SegmentDefined(o.keyframes.value, time)
    ensures o.isUpdating ==> r == Done(o)
    ensures !o.isUpdating && o.keyframes.None? ==> r == Raised(o)
    ensures o.keyframes.Some? && (|o.keyframes.value| < 2 || o.workingMesh.None?) ==> r == Done(o)
    ensures o.keyframes.Some? ==> r.Done?
    ensures r.Final().isUpdating == o.isUpdating
    ensures r.Final().keyframes == o.keyframes && r.Final().hasRenderer == o.hasRenderer
    ensures r.Final().workingMesh.Some? <==> o.workingMesh.Some?
  {
    if o.isUpdating then
      Done(o)
    else if o.keyframes.None? then
      Raised(o)
    else if |o.keyframes.value| < 2 || o.workingMesh.None? then
      Done(o)
    else
      var updating := o.(isUpdating := true);
      var done := Interpolate(updating, o.keyframes.value, time, slerp, recalc);
      Done(done.(isUpdating := false))
  }

  /** When the first key time is not after the last, the clamped time always
      falls in some segment, and its interpolation parameter lies in [0, 1]. */
  lemma UpdateToTimeFindsSegment(keys: seq<Keyframe>, time: real)
    requires |keys| >= 2 && SegmentDefined(keys, time)
    requires keys[0].time <= keys[|keys| - 1].time
    ensures var c := ClampedTime(keys, time);
      var seg := FirstBracket(keys, c, 0);
      && seg.Some?
      && keys[seg.value].time <= c <= keys[seg.value + 1].time
      && 0.0 <= SegmentParameter(keys[seg.value].time, keys[seg.value + 1].time, c) <= 1.0
  {
    BracketExists(keys, ClampedTime(keys, time), 0);
  }

  /** Every keyframe carries vertices of the same count n. */
  predicate UniformVertices(keys: seq<Keyframe>, n: nat)
  {
    forall i :: 0 <= i < |keys| ==> keys[i].vertices.Some? && |keys[i].vertices.value| == n
  }

  lemma IncreasingDistinct(keys: seq<Keyframe>)
    requires Increasing(keys)
    ensures DistinctConsecutive(keys)
  {
    forall i | 0 <= i < |keys| - 1
      ensures keys[i].time != keys[i + 1].time
    {
      assert keys[i].time < keys[i + 1].time;
    }
  }

  /** Interpolation passes through the keyframes: with increasing key times,
      updating to the time of keyframe j reproduces its vertices (and colour). */
  lemma UpdateToTimeReachesKeyframe(o: MorphObj, j: nat, n: nat, slerp: Slerp, recalc: Recalc)
    requires !o.isUpdating && o.keyframes.Some? && o.workingMesh.Some?
    requires Increasing(o.keyframes.value) && 2 <= |o.keyframes.value| && j < |o.keyframes.value|
    requires UniformVertices(o.keyframes.value, n)
    ensures var r := UpdateToTime(o, o.keyframes.value[j].time, slerp, recalc);
      && r.Done?
      && r.Final().workingMesh.value.vertices == o.keyframes.value[j].vertices.value
      && (o.hasRenderer ==> r.Final().color == o.keyframes.value[j].color)
  {
    var keys := o.keyframes.value;
    assert keys[0].time <= keys[j].time <= keys[|keys| - 1].time;
    BracketAtKeyframe(keys, j);
    var i := if j == 0 then 0 else j - 1;
    assert Interpolable(keys[i], keys[i + 1]);
  }

  /** Between keyframes the mesh and colour are interpolated: with increasing
      key times and one vertex count, a time strictly after keyframe i and not
      after keyframe i + 1 gives the vertices lerped from i to i + 1 by the
      time's position in that segment, and likewise the colour. */
  lemma InteriorInterpolates(o: MorphObj, i: nat, time: real, n: nat, slerp: Slerp, recalc: Recalc)
    requires !o.isUpdating && o.keyframes.Some? && o.workingMesh.Some?
    requires Increasing(o.keyframes.value) && i + 1 < |o.keyframes.value|
    requires UniformVertices(o.keyframes.value, n)
    requires o.keyframes.value[i].time < time <= o.keyframes.value[i + 1].time
    ensures var keys, r := o.keyframes.value, UpdateToTime(o, time, slerp, recalc);
      var t := SegmentParameter(keys[i].time, keys[i + 1].time, time);
      && r.Done?
      && r.Final().workingMesh.value.vertices == LerpVertices(keys[i].vertices.value, keys[i + 1].vertices.value, t)
      && (o.hasRenderer ==> r.Final().color == LerpColor(keys[i].color, keys[i + 1].color, t))
      && (!o.hasRenderer ==> r.Final().color == o.color)
  {
    var keys := o.keyframes.value;
    assert keys[0].time <= keys[i].time && keys[i + 1].time <= keys[|keys| - 1].time;
    BracketInterior(keys, i, time);
    assert Interpolable(keys[i], keys[i + 1]);
  }

  /** Outside the key range the object shows the nearest end keyframe. */
  lemma UpdateToTimeClamps(o: MorphObj, time: real, n: nat, slerp: Slerp, recalc: Recalc)
    requires !o.isUpdating && o.keyframes.Some? && o.workingMesh.Some?
    requires Increasing(o.keyframes.value) && 2 <= |o.keyframes.value|
    requires UniformVertices(o.keyframes.value, n)
    ensures var keys, r := o.keyframes.value, UpdateToTime(o, time, slerp, recalc);
      && (time <= keys[0].time ==> r.Final().workingMesh.value.vertices == keys[0].vertices.value)
      && (time >= keys[|keys| - 1].time ==>
            r.Final().workingMesh.value.vertices == keys[|keys| - 1].vertices.value)
  {
    var keys := o.keyframes.value;
    var last := |keys| - 1;
    if time <= keys[0].time {
      UpdateToTimeReachesKeyframe(o, 0, n, slerp, recalc);
      assert ClampedTime(keys, time) == ClampedTime(keys, keys[0].time);
    }
    if time >= keys[last].time {
      UpdateToTimeReachesKeyframe(o, last, n, slerp, recalc);
      assert ClampedTime(keys, time) == ClampedTime(keys, keys[last].time);
    }
  }

  /** The early returns never divide: an object already updating, or one
      with fewer than two keyframes or no mesh, is left as it is whatever its
      key times, repeated ones included. */
  lemma EarlyReturnsIgnoreKeyTimes(o: MorphObj, time: real, slerp: Slerp, recalc: Recalc)
    requires o.keyframes.Some? && (o.isUpdating || |o.keyframes.value| < 2 || o.workingMesh.None?)
    ensures UpdateToTime(o, time, slerp, recalc) == Done(o)
  {
  }
}

=== FILE: morph_v2.dfy ===
/**
 The second morph object (TMorphObj_V2). Brushing only marks per-vertex time
 offsets in [0, 1] (accumulating, never moving the mesh); playback advances a
 position along the timeline, and each vertex is drawn from the keyframes at
 the playback position shifted by its own offset.
 */
module MorphV2 {
  import opened Wrappers
  import opened UnityMath
  import opened Keyframes
  import opened TemporalMesh

  /** Inspector defaults of the brush settings; the falloff power is fixed at 2. */
  const InterpolationStep: real := 0.5
  const TimeChangeSpeed: real := 2.0

  // ---------------------------------------------------------------------------
  // Keyframe lookup
  // ---------------------------------------------------------------------------

  /** The three out-parameters of FindKeyframesForTime; null keyframes are None
      and keyframes are named by their index. */
  datatype Lookup = Lookup(from: Option<nat>, to: Option<nat>, t: real)

  /** FindKeyframesForTime: nulls for no keyframes, the first keyframe twice
      (t = 0) at or before its time, the last twice (t = 1) at or after its
      time, and otherwise the first bracketing consecutive pair with the local
      parameter, left at 0 for a zero-length pair. */
  function FindKeyframesForTime(keys: seq<Keyframe>, time: real): (r: Lookup)
    ensures r.from.Some? <==> r.to.Some?
    ensures r.from.Some? ==> r.from.value < |keys| && r.to.value < |keys|
    ensures |keys| == 0 ==> r == Lookup(None, None, 0.0)
    ensures |keys| > 0 && time <= keys[0].time ==> r == Lookup(Some(0), Some(0), 0.0)
    ensures |keys| > 0 && keys[0].time < time && keys[|keys| - 1].time <= time ==>
      r == Lookup(Some(|keys| - 1), Some(|keys| - 1), 1.0)
    ensures |keys| > 0 && keys[0].time < time < keys[|keys| - 1].time ==>
      && r.from.Some?
      && r.to.value == r.from.value + 1
      && Brackets(keys, r.from.value, time)
      && (forall j :: 0 <= j < r.from.value ==> !Brackets(keys, j, time))
    ensures 0.0 <= r.t <= 1.0
    ensures r.from.Some? && keys[r.from.value].time == keys[r.to.value].time && r.from != r.to ==> r.t == 0.0
  {
    if |keys| == 0 then
      Lookup(None, None, 0.0)
    else if time <= keys[0].time then
      Lookup(Some(0), Some(0), 0.0)
    else if time >= keys[|keys| - 1].time then
      Lookup(Some(|keys| - 1), Some(|keys| - 1), 1.0)
    else
      BracketExists(keys, time, 0);
      var i := FirstBracket(keys, time, 0).value;
      var duration := keys[i + 1].time - keys[i].time;
      Lookup(Some(i), Some(i + 1), if duration > 0.0 then SegmentParameter(keys[i].time, keys[i + 1].time, time) else 0.0)
  }

  /** The lookup interpolates exactly: with a non-degenerate bracket, the
      parameter places the time at from + (to - from) * t. */
  lemma LookupReproducesTime(keys: seq<Keyframe>, time: real)
    requires |keys| > 0 && keys[0].time < time < keys[|keys| - 1].time
    ensures var r := FindKeyframesForTime(keys, time);
      var a, b := keys[r.from.value].time, keys[r.to.value].time;
      a + (b - a) * r.t == time
  {
  }

  // ---------------------------------------------------------------------------
  // Temporal marking
  // ---------------------------------------------------------------------------

  /** Vertex j of the original mesh lies within the brush: squared distance at
      most radius squared. */
  predicate InBrush(original: seq<Vec3>, j: int, localBrush: Vec3, radius: real)
  {
    0 <= j < |original| && SqrMagnitude(Sub(original[j], localBrush)) <= radius * radius
  }

  /** The new time of a vertex inside the brush: the current time plus
      strength * falloff * deltaTime * speed, clamped to [0, 1]. */
  function MarkedTime(current: real, vertex: Vec3, localBrush: Vec3, radius: real, strength: real,
                      deltaTime: real, sqrt: real -> real): (r: real)
    requires radius != 0.0
    ensures 0.0 <= r <= 1.0
    ensures strength >= 0.0 && deltaTime >= 0.0 && 0.0 <= current <= 1.0 ==> current <= r
  {
    var distance := sqrt(SqrMagnitude(Sub(vertex, localBrush)));
    var influence := strength * Falloff(distance, radius);
    var increment := influence * deltaTime * TimeChangeSpeed;
    assert strength >= 0.0 && deltaTime >= 0.0 ==> increment >= 0.0 by {
      if strength >= 0.0 && deltaTime >= 0.0 {
        assert influence >= 0.0;
        assert influence * deltaTime >= 0.0;
      }
    }
    Clamp01(current + increment)
  }

  /** MarkTimeAtPosition on the vertex times: vertices inside the brush take
      their marked time, every other entry is unchanged. The brush position is
      already in the mesh's local space. */
  function MarkTimeAtPosition(times: seq<real>, original: seq<Vec3>, localBrush: Vec3, radius: real,
                              strength: real, deltaTime: real, sqrt: real -> real): (r: seq<real>)
    requires |original| <= |times| && radius != 0.0
    ensures |r| == |times|
    ensures forall j :: 0 <= j < |times| && !InBrush(original, j, localBrush, radius) ==> r[j] == times[j]
    ensures forall j :: 0 <= j < |times| && InBrush(original, j, localBrush, radius) ==>
      r[j] == MarkedTime(times[j], original[j], localBrush, radius, strength, deltaTime, sqrt)
  {
    seq(|times|, j requires 0 <= j < |times| =>
      if InBrush(original, j, localBrush, radius)
      then MarkedTime(times[j], original[j], localBrush, radius, strength, deltaTime, sqrt)
      else times[j])
  }

  /** Every time stays in [0, 1], and with non-negative strength and frame
      time no vertex time decreases. */
  lemma MarkTimeKeepsUnitRange(times: seq<real>, original: seq<Vec3>, localBrush: Vec3, radius: real,
                               strength: real, deltaTime: real, sqrt: real -> real)
    requires |original| <= |times| && radius != 0.0
    requires AllWithin(times, 0.0, 1.0)
    ensures var r := MarkTimeAtPosition(times, original, localBrush, radius, strength, deltaTime, sqrt);
      && AllWithin(r, 0.0, 1.0)
      && (strength >= 0.0 && deltaTime >= 0.0 ==> forall j :: 0 <= j < |times| ==> times[j] <= r[j])
  {
  }

  /** The number of interpolation steps between two brush positions. */
  function StrokeSteps(distance: real, radius: real): (n: int)
    requires radius != 0.0
    ensures n >= 2
    ensures n as real >= distance / (radius * InterpolationStep)
  {
    MaxInt(2, CeilToInt(distance / (radius * InterpolationStep)))
  }

  /** The points i / steps along the segment, for i = 0 .. steps. */
  function StrokePoints(from: Vec3, to: Vec3, steps: nat): (ps: seq<Vec3>)
    requires steps >= 1
    ensures |ps| == steps + 1
    ensures ps[0] == from && ps[steps] == to
    ensures forall i :: 0 <= i < |ps| ==>
      Between(ps[i].x, from.x, to.x) && Between(ps[i].y, from.y, to.y) && Between(ps[i].z, from.z, to.z)
  {
    var ps := seq(steps + 1, i requires 0 <= i <= steps => Lerp3(from, to, StrokeFraction(i, steps)));
    assert ps[0] == Lerp3(from, to, 0.0);
    assert ps[steps] == Lerp3(from, to, 1.0);
    ps
  }

  /** The fraction i / steps of the way along a stroke. */
  function StrokeFraction(i: nat, steps: nat): (f: real)
    requires steps >= 1
    ensures i == 0 ==> f == 0.0
    ensures i == steps ==> f == 1.0
  {
    if i == steps then 1.0 else i as real / steps as real
  }

  /** MarkTimeAtPosition at each point in turn; `toLocal` is the engine's
      InverseTransformPoint. */
  function MarkAlong(times: seq<real>, original: seq<Vec3>, points: seq<Vec3>, radius: real, strength: real,
                     deltaTime: real, sqrt: real -> real, toLocal: Vec3 -> Vec3): (r: seq<real>)
    requires |original| <= |times| && radius != 0.0
    ensures |r| == |times|
    decreases |points|
  {
    if |points| == 0 then times
    else
      var marked := MarkTimeAtPosition(times, original, toLocal(points[0]), radius, strength, deltaTime, sqrt);
      MarkAlong(marked, original, points[1..], radius, strength, deltaTime, sqrt, toLocal)
  }

  /** Marking along a stroke keeps times in [0, 1], never decreases them for a
      non-negative brush, and touches only vertices inside some brush stamp. */
  lemma {:induction false} MarkAlongKeepsUnitRange(times: seq<real>, original: seq<Vec3>, points: seq<Vec3>,
                                                  radius: real, strength: real, deltaTime: real,
                                                  sqrt: real -> real, toLocal: Vec3 -> Vec3)
    requires |original| <= |times| && radius != 0.0
    requires AllWithin(times, 0.0, 1.0)
    ensures var r := MarkAlong(times, original, points, radius, strength, deltaTime, sqrt, toLocal);
      && AllWithin(r, 0.0, 1.0)
      && (strength >= 0.0 && deltaTime >= 0.0 ==> forall j :: 0 <= j < |times| ==> times[j] <= r[j])
    decreases |points|
  {
    if |points| > 0 {
      var marked := MarkTimeAtPosition(times, original, toLocal(points[0]), radius, strength, deltaTime, sqrt);
      MarkTimeKeepsUnitRange(times, original, toLocal(points[0]), radius, strength, deltaTime, sqrt);
      MarkAlongKeepsUnitRange(marked, original, points[1..], radius, strength, deltaTime, sqrt, toLocal);
    }
  }

  lemma {:induction false} MarkAlongIsLocal(times: seq<real>, original: seq<Vec3>, points: seq<Vec3>,
                                           radius: real, strength: real, deltaTime: real,
                                           sqrt: real -> real, toLocal: Vec3 -> Vec3, j: nat)
    requires |original| <= |times| && radius != 0.0 && j < |times|
    requires forall k :: 0 <= k < |points| ==> !InBrush(original, j, toLocal(points[k]), radius)
    ensures MarkAlong(times, original, points, radius, strength, deltaTime, sqrt, toLocal)[j] == times[j]
    decreases |points|
  {
    if |points| > 0 {
      var marked := MarkTimeAtPosition(times, original, toLocal(points[0]), radius, strength, deltaTime, sqrt);
      assert forall k :: 0 <= k < |points[1..]| ==> points[1..][k] == points[k + 1];
      MarkAlongIsLocal(marked, original, points[1..], radius, strength, deltaTime, sqrt, toLocal, j);
    }
  }

  // ---------------------------------------------------------------------------
  // Object state
  // ---------------------------------------------------------------------------

  /** The playback fields: position on the timeline, play flag, speed, loop
      flag and the timeline length (globalTimeScale). */
  datatype Playback = Playback(position: real, isPlaying: bool, speed: real, loop: bool, scale: real)

  /** What exists once a mesh was found: the temporal data, the original
      vertex and normal arrays, and the working mesh's current arrays. */
  datatype Surface = Surface(data: MeshData, originalVertices: seq<Vec3>, originalNormals: seq<Vec3>,
                             vertices: seq<Vec3>, normals: seq<Vec3>)

  datatype MorphObjV2 = MorphObjV2(
    keyframes: seq<Keyframe>,
    surface: Option<Surface>,
    playback: Playback,
    lastBrushWorldPos: Vec3,
    wasBrushing: bool)

  /** The arrays the per-vertex loops index in step: one time and one normal
      per original vertex. */
  predicate WellFormed(s: Surface)
  {
    |s.originalNormals| == |s.originalVertices| == |s.data.vertexTimes|
  }

  /** InterpolateBrushStroke from `from` to `to`. */
  function InterpolateBrushStroke(times: seq<real>, original: seq<Vec3>, from: Vec3, to: Vec3, radius: real,
                                  strength: real, deltaTime: real, sqrt: real -> real,
                                  toLocal: Vec3 -> Vec3): (r: seq<real>)
    requires |original| <= |times| && radius != 0.0
    ensures |r| == |times|
    ensures AllWithin(times, 0.0, 1.0) ==> AllWithin(r, 0.0, 1.0)
    ensures AllWithin(times, 0.0, 1.0) && strength >= 0.0 && deltaTime >= 0.0 ==>
      forall j :: 0 <= j < |times| ==> times[j] <= r[j]
  {
    var steps := StrokeSteps(Distance(from, to, sqrt), radius);
    var points := StrokePoints(from, to, steps);
    if AllWithin(times, 0.0, 1.0) then
      MarkAlongKeepsUnitRange(times, original, points, radius, strength, deltaTime, sqrt, toLocal);
      MarkAlong(times, original, points, radius, strength, deltaTime, sqrt, toLocal)
    else
      MarkAlong(times, original, points, radius, strength, deltaTime, sqrt, toLocal)
  }

  /** MarkTemporalData: without a mesh nothing happens; a continuing stroke that
      jumped more than half a radius is filled in, otherwise the single
      position is marked; the position is then remembered. The target time
      only colours the marker. */
  function MarkTemporalData(o: MorphObjV2, brushWorldPos: Vec3, radius: real, strength: real,
                            deltaTime: real, sqrt: real -> real, toLocal: Vec3 -> Vec3): (r: MorphObjV2)
    requires o.surface.Some? ==> WellFormed(o.surface.value)
    requires radius != 0.0
    ensures o.surface.None? ==> r == o
    ensures o.surface.Some? ==> r.wasBrushing && r.lastBrushWorldPos == brushWorldPos
    ensures r.keyframes == o.keyframes && r.playback == o.playback
    ensures r.surface.Some? <==> o.surface.Some?
    ensures r.surface.Some? ==> WellFormed(r.surface.value)
  {
    match o.surface
    case None => o
    case Some(s) =>
      var times := s.data.vertexTimes;
      var marked :=
        if o.wasBrushing && Distance(o.lastBrushWorldPos, brushWorldPos, sqrt) > radius * InterpolationStep
        then InterpolateBrushStroke(times, s.originalVertices, o.lastBrushWorldPos, brushWorldPos, radius,
                                    strength, deltaTime, sqrt, toLocal)
        else MarkTimeAtPosition(times, s.originalVertices, toLocal(brushWorldPos), radius, strength, deltaTime, sqrt);
      o.(surface := Some(s.(data := s.data.(vertexTimes := marked))),
         lastBrushWorldPos := brushWorldPos, wasBrushing := true)
  }

  /** Marking never leaves [0, 1] and never lowers a time for a non-negative
      brush. */
  lemma MarkTemporalDataKeepsUnitRange(o: MorphObjV2, brushWorldPos: Vec3, radius: real, strength: real,
                                       deltaTime: real, sqrt: real -> real, toLocal: Vec3 -> Vec3)
    requires o.surface.Some? && WellFormed(o.surface.value) && radius != 0.0
    requires AllWithin(o.surface.value.data.vertexTimes, 0.0, 1.0)
    ensures var r := MarkTemporalData(o, brushWorldPos, radius, strength, deltaTime, sqrt, toLocal);
      var before, after := o.surface.value.data.vertexTimes, r.surface.value.data.vertexTimes;
      && AllWithin(after, 0.0, 1.0)
      && (strength >= 0.0 && deltaTime >= 0.0 ==> forall j :: 0 <= j < |before| ==> before[j] <= after[j])
  {
    var s := o.surface.value;
    if o.wasBrushing && Distance(o.lastBrushWorldPos, brushWorldPos, sqrt) > radius * InterpolationStep {
      var steps := StrokeSteps(Distance(o.lastBrushWorldPos, brushWorldPos, sqrt), radius);
      MarkAlongKeepsUnitRange(s.data.vertexTimes, s.originalVertices, StrokePoints(o.lastBrushWorldPos, brushWorldPos, steps),
                              radius, strength, deltaTime, sqrt, toLocal);
    } else {
      MarkTimeKeepsUnitRange(s.data.vertexTimes, s.originalVertices, toLocal(brushWorldPos), radius, strength, deltaTime, sqrt);
    }
  }

  // ---------------------------------------------------------------------------
  // Playback
  // ---------------------------------------------------------------------------

  /** The position lies on the timeline. */
  predicate OnTimeline(p: Playback)
  {
    0.0 <= p.position <= p.scale
  }

  /** The playback half of Update: advance by deltaTime * speed; past the end,
      wrap to 0 when looping, otherwise stop at the end. */
  function Tick(p: Playback, deltaTime: real): (r: Playback)
    ensures r.speed == p.speed && r.loop == p.loop && r.scale == p.scale
    ensures !p.isPlaying ==> r == p
    ensures p.isPlaying && (!p.loop || 0.0 <= p.scale) ==> r.position <= r.scale
    ensures p.isPlaying && p.position + deltaTime * p.speed > p.scale ==>
      (if p.loop then r.position == 0.0 && r.isPlaying else r.position == p.scale && !r.isPlaying)
    ensures p.isPlaying && p.position + deltaTime * p.speed <= p.scale ==>
      r.position == p.position + deltaTime * p.speed && r.isPlaying
  {
    if !p.isPlaying then
      p
    else
      var advanced := p.position + deltaTime * p.speed;
      if advanced > p.scale then
        if p.loop then p.(position := 0.0) else p.(position := p.scale, isPlaying := false)
      else
        p.(position := advanced)
  }

  /** TogglePlayback: flip the play flag; starting at or past the end rewinds. */
  function TogglePlayback(p: Playback): (r: Playback)
    ensures r.isPlaying == !p.isPlaying
    ensures r.isPlaying && p.position >= p.scale ==> r.position == 0.0
    ensures !(r.isPlaying && p.position >= p.scale) ==> r.position == p.position
    ensures r.speed == p.speed && r.loop == p.loop && r.scale == p.scale
  {
    var flipped := p.(isPlaying := !p.isPlaying);
    if flipped.isPlaying && flipped.position >= flipped.scale then flipped.(position := 0.0) else flipped
  }

  /** The position half of SetPlaybackTime: clamp into [0, scale]. */
  function Seek(p: Playback, time: real): (r: Playback)
    ensures 0.0 <= p.scale ==> OnTimeline(r)
    ensures 0.0 <= time <= p.scale ==> r.position == time
    ensures r == p.(position := r.position)
  {
    p.(position := Clamp(time, 0.0, p.scale))
  }

  /** OnPlaybackToggled: the event sets the play flag. */
  function OnPlaybackToggled(p: Playback, playing: bool): (r: Playback)
    ensures r.isPlaying == playing && r == p.(isPlaying := playing)
  {
    p.(isPlaying := playing)
  }

  /** The playback machine never leaves the timeline: each transition keeps the
      position in [0, scale] (a tick needs the position not to run backwards). */
  lemma PlaybackStaysOnTimeline(p: Playback, deltaTime: real, time: real, playing: bool)
    requires OnTimeline(p) && deltaTime * p.speed >= 0.0
    ensures OnTimeline(Tick(p, deltaTime))
    ensures OnTimeline(TogglePlayback(p))
    ensures OnTimeline(Seek(p, time))
    ensures OnTimeline(OnPlaybackToggled(p, playing))
  {
  }

  /** Toggling twice before the end of the timeline changes nothing. */
  lemma ToggleTwice(p: Playback)
    requires p.position < p.scale
    ensures TogglePlayback(TogglePlayback(p)) == p
  {
  }

  // ---------------------------------------------------------------------------
  // Mesh update for playback
  // ---------------------------------------------------------------------------

  /** The effective time of vertex i: the playback position shifted by the
      vertex's offset times the timeline length, clamped into the data range. */
  function EffectiveTime(data: MeshData, i: nat, position: real, scale: real): (e: real)
    requires i < |data.vertexTimes|
    ensures data.minTime <= data.maxTime ==> data.minTime <= e <= data.maxTime
    ensures data.minTime <= position + data.vertexTimes[i] * scale <= data.maxTime ==>
      e == position + data.vertexTimes[i] * scale
  {
    Clamp(position + data.vertexTimes[i] * scale, data.minTime, data.maxTime)
  }

  /** The vertex and normal computed for vertex i, or None where the source
      dereferences a null vertex array of a keyframe and throws. */
  function PlaybackVertex(keys: seq<Keyframe>, s: Surface, i: nat, p: Playback, slerp: (Vec3, Vec3, real) -> Vec3): (r: Option<(Vec3, Vec3)>)
    requires WellFormed(s) && i < |s.originalVertices|
    ensures var l := FindKeyframesForTime(keys, EffectiveTime(s.data, i, p.position, p.scale));
      l.from.None? ==> r == Some((s.originalVertices[i], s.originalNormals[i]))
    ensures var l := FindKeyframesForTime(keys, EffectiveTime(s.data, i, p.position, p.scale));
      l.from.Some? ==>
        var from, to := keys[l.from.value].vertices, keys[l.to.value].vertices;
        && (r.None? <==> from.None? || (i < |from.value| && to.None?))
        && (from.Some? && to.Some? && (i >= |from.value| || i >= |to.value|) ==>
              r == Some((s.originalVertices[i], s.originalNormals[i])))
        && (from.Some? && to.Some? && i < |from.value| && i < |to.value| ==>
              && r.Some?
              && Between(r.value.0.x, from.value[i].x, to.value[i].x)
              && Between(r.value.0.y, from.value[i].y, to.value[i].y)
              && Between(r.value.0.z, from.value[i].z, to.value[i].z))
  {
    var l := FindKeyframesForTime(keys, EffectiveTime(s.data, i, p.position, p.scale));
    if l.from.None? then
      Some((s.originalVertices[i], s.originalNormals[i]))
    else
      var from, to := keys[l.from.value], keys[l.to.value];
      if from.vertices.None? then None
      else if i >= |from.vertices.value| then Some((s.originalVertices[i], s.originalNormals[i]))
      else if to.vertices.None? then None
      else if i >= |to.vertices.value| then Some((s.originalVertices[i], s.originalNormals[i]))
      else
        var v := Lerp3(from.vertices.value[i], to.vertices.value[i], l.t);
        var n :=
          if from.normals.Some? && to.normals.Some? && i < |from.normals.value| && i < |to.normals.value|
          then slerp(from.normals.value[i], to.normals.value[i], l.t)
          else Zero;
        Some((v, n))
  }

  /** Every keyframe carries at least n vertices. */
  predicate KeysCover(keys: seq<Keyframe>, n: nat)
  {
    forall k :: 0 <= k < |keys| ==> keys[k].vertices.Some? && n <= |keys[k].vertices.value|
  }

  /** Playback passes through the keyframes: with increasing key times, a vertex
      whose effective time is keyframe j's time takes keyframe j's position. */
  lemma PlaybackAtKeyframe(keys: seq<Keyframe>, s: Surface, i: nat, p: Playback,
                           slerp: (Vec3, Vec3, real) -> Vec3, j: nat)
    requires WellFormed(s) && i < |s.originalVertices|
    requires Increasing(keys) && j < |keys| && KeysCover(keys, |s.originalVertices|)
    requires EffectiveTime(s.data, i, p.position, p.scale) == keys[j].time
    ensures var r := PlaybackVertex(keys, s, i, p, slerp);
      r.Some? && r.value.0 == keys[j].vertices.value[i]
  {
    var time := keys[j].time;
    var last := |keys| - 1;
    var l := FindKeyframesForTime(keys, time);
    assert keys[0].time <= time <= keys[last].time;
    if j == 0 {
      assert l == Lookup(Some(0), Some(0), 0.0);
    } else if j == last {
      assert l == Lookup(Some(last), Some(last), 1.0);
    } else {
      BracketAtKeyframe(keys, j);
      assert l.from == Some(j - 1) && l.to == Some(j);
      assert keys[j - 1].time < keys[j].time;
      assert l.t == 1.0;
    }
  }

  /** The loop of UpdateMeshForPlayback from vertex i on; None if some vertex
      throws. */
  function PlaybackFrom(keys: seq<Keyframe>, s: Surface, i: nat, p: Playback,
                        slerp: (Vec3, Vec3, real) -> Vec3): (r: Option<(seq<Vec3>, seq<Vec3>)>)
    requires WellFormed(s) && i <= |s.originalVertices|
    ensures r.Some? ==> |r.value.0| == |r.value.1| == |s.originalVertices| - i
    ensures r.Some? <==> forall j :: i <= j < |s.originalVertices| ==> PlaybackVertex(keys, s, j, p, slerp).Some?
    ensures r.Some? ==> forall j :: i <= j < |s.originalVertices| ==>
      PlaybackVertex(keys, s, j, p, slerp) == Some((r.value.0[j - i], r.value.1[j - i]))
    decreases |s.originalVertices| - i
  {
    if i == |s.originalVertices| then
      Some(([], []))
    else
      match PlaybackVertex(keys, s, i, p, slerp)
      case None => None
      case Some(vn) =>
        match PlaybackFrom(keys, s, i + 1, p, slerp)
        case None => None
        case Some(rest) => Some(([vn.0] + rest.0, [vn.1] + rest.1))
  }

  /** UpdateMeshForPlayback: nothing with fewer than two keyframes; without a
      mesh the source dereferences null arrays; otherwise every vertex is
      recomputed and the arrays replace the working mesh's, keeping the
      original lengths. A throwing vertex leaves the mesh untouched. */
  function UpdateMeshForPlayback(o: MorphObjV2, slerp: (Vec3, Vec3, real) -> Vec3): (r: Completion<MorphObjV2>)
    requires o.surface.Some? ==> WellFormed(o.surface.value)
    ensures |o.keyframes| < 2 ==> r == Done(o)
    ensures |o.keyframes| >= 2 && o.surface.None? ==> r == Raised(o)
    ensures r.Raised? ==> r.Final() == o
    ensures r.Final().keyframes == o.keyframes && r.Final().playback == o.playback
    ensures r.Final().surface.Some? <==> o.surface.Some?
    ensures r.Final().surface.Some? ==> WellFormed(r.Final().surface.value)
    ensures r.Done? && |o.keyframes| >= 2 ==>
      var s, s' := o.surface.value, r.Final().surface.value;
      && s'.data == s.data && s'.originalVertices == s.originalVertices && s'.originalNormals == s.originalNormals
      && |s'.vertices| == |s.originalVertices| && |s'.normals| == |s.originalNormals|
  {
    if |o.keyframes| < 2 then
      Done(o)
    else if o.surface.None? then
      Raised(o)
    else
      var s := o.surface.value;
      match PlaybackFrom(o.keyframes, s, 0, o.playback, slerp)
      case None => Raised(o)
      case Some(arrays) => Done(o.(surface := Some(s.(vertices := arrays.0, normals := arrays.1))))
  }

  /** With no brushed offsets (every vertex time 0), playing at the time of
      keyframe j shows keyframe j's vertices. */
  lemma PlaybackShowsKeyframe(o: MorphObjV2, j: nat, slerp: (Vec3, Vec3, real) -> Vec3)
    requires o.surface.Some? && WellFormed(o.surface.value)
    requires 2 <= |o.keyframes| && Increasing(o.keyframes) && j < |o.keyframes|
    requires KeysCover(o.keyframes, |o.surface.value.originalVertices|)
    requires forall i :: 0 <= i < |o.surface.value.data.vertexTimes| ==> o.surface.value.data.vertexTimes[i] == 0.0
    requires o.surface.value.data.minTime <= o.keyframes[j].time <= o.surface.value.data.maxTime
    requires o.playback.position == o.keyframes[j].time
    ensures var r := UpdateMeshForPlayback(o, slerp);
      && r.Done?
      && forall i :: 0 <= i < |o.surface.value.originalVertices| ==>
           r.Final().surface.value.vertices[i] == o.keyframes[j].vertices.value[i]
  {
    var s, keys, p := o.surface.value, o.keyframes, o.playback;
    var shown := keys[j].vertices.value;
    forall i | 0 <= i < |s.originalVertices|
      ensures PlaybackVertex(keys, s, i, p, slerp).Some?
      ensures PlaybackVertex(keys, s, i, p, slerp).value.0 == shown[i]
    {
      assert EffectiveTime(s.data, i, p.position, p.scale) == keys[j].time;
      PlaybackAtKeyframe(keys, s, i, p, slerp, j);
    }
    var arrays := PlaybackFrom(keys, s, 0, p, slerp);
    assert arrays.Some?;
    assert UpdateMeshForPlayback(o, slerp) == Done(o.(surface := Some(s.(vertices := arrays.value.0, normals := arrays.value.1))));
  }

  /** Update: a playback tick, then the mesh update while playing. */
  function Update(o: MorphObjV2, deltaTime: real, slerp: (Vec3, Vec3, real) -> Vec3): (r: Completion<MorphObjV2>)
    requires o.surface.Some? ==> WellFormed(o.surface.value)
    ensures !o.playback.isPlaying ==> r == Done(o)
    ensures o.playback.isPlaying ==> r.Final().playback == Tick(o.playback, deltaTime)
    ensures r.Final().keyframes == o.keyframes
  {
    if !o.playback.isPlaying then Done(o)
    else UpdateMeshForPlayback(o.(playback := Tick(o.playback, deltaTime)), slerp)
  }

  /** SetPlaybackTime: clamp the position, then refresh the mesh while playing. */
  function SetPlaybackTime(o: MorphObjV2, time: real, slerp: (Vec3, Vec3, real) -> Vec3): (r: Completion<MorphObjV2>)
    requires o.surface.Some? ==> WellFormed(o.surface.value)
    ensures r.Final().playback == Seek(o.playback, time)
    ensures !o.playback.isPlaying ==> r == Done(o.(playback := Seek(o.playback, time)))
    ensures 0.0 <= o.playback.scale ==> OnTimeline(r.Final().playback)
  {
    var seeked := o.(playback := Seek(o.playback, time));
    if seeked.playback.isPlaying then UpdateMeshForPlayback(seeked, slerp) else Done(seeked)
  }

  /** OnGlobalTimeChanged: the broadcast time is taken as a fraction of the
      timeline and scaled onto it; a fraction past 1 stops at the end. */
  function OnGlobalTimeChanged(o: MorphObjV2, globalTime: real, slerp: (Vec3, Vec3, real) -> Vec3): (r: Completion<MorphObjV2>)
    requires o.surface.Some? ==> WellFormed(o.surface.value)
    ensures r.Final().playback == Seek(o.playback, globalTime * o.playback.scale)
    ensures 0.0 <= o.playback.scale ==> OnTimeline(r.Final().playback)
    ensures 0.0 <= globalTime <= 1.0 && 0.0 <= o.playback.scale ==>
      r.Final().playback.position == globalTime * o.playback.scale
    ensures globalTime >= 1.0 && 0.0 <= o.playback.scale ==> r.Final().playback.position == o.playback.scale
  {
    SeekScaled(o.playback, globalTime);
    SetPlaybackTime(o, globalTime * o.playback.scale, slerp)
  }

  /** Seeking to a multiple g of the timeline's length lands at that point
      for g in [0, 1] and at the end from g = 1 on. */
  lemma SeekScaled(p: Playback, g: real)
    ensures 0.0 <= g <= 1.0 && 0.0 <= p.scale ==> Seek(p, g * p.scale).position == g * p.scale
    ensures g >= 1.0 && 0.0 <= p.scale ==> Seek(p, g * p.scale).position == p.scale
  {
    ScaleBounds(p.scale, g);
  }

  /** As written, the handler receives the controllers' time, which lies in
      [0, temporalRange] (100 by default), and reads it as a fraction: every
      time from 1 on shows the end of the timeline, so scrubbing from 1 to 100
      cannot be told apart. */
  lemma ControllerTimesCollapse(o: MorphObjV2, t1: real, t2: real, slerp: (Vec3, Vec3, real) -> Vec3)
    requires o.surface.Some? ==> WellFormed(o.surface.value)
    requires 0.0 <= o.playback.scale && 1.0 <= t1 && 1.0 <= t2
    ensures OnGlobalTimeChanged(o, t1, slerp).Final().playback.position
         == OnGlobalTimeChanged(o, t2, slerp).Final().playback.position
         == o.playback.scale
  {
  }

  /** The handler as evidently intended: the controllers' time normalised by
      their temporal range before it is scaled onto the timeline. */
  function OnControllerTimeChanged(o: MorphObjV2, time: real, temporalRange: real,
                                   slerp: (Vec3, Vec3, real) -> Vec3): (r: Completion<MorphObjV2>)
    requires o.surface.Some? ==> WellFormed(o.surface.value)
    requires temporalRange != 0.0
    ensures r.Final().playback == Seek(o.playback, time / temporalRange * o.playback.scale)
    ensures 0.0 <= o.playback.scale ==> OnTimeline(r.Final().playback)
    ensures 0.0 <= time <= temporalRange && 0.0 <= o.playback.scale ==>
      r.Final().playback.position == time / temporalRange * o.playback.scale
    ensures time == temporalRange && 0.0 <= o.playback.scale ==> r.Final().playback.position == o.playback.scale
  {
    QuotientBounds(time, temporalRange);
    SeekScaled(o.playback, time / temporalRange);
    SetPlaybackTime(o, time / temporalRange * o.playback.scale, slerp)
  }

  /** Corrected, a later controller time never shows an earlier point of the
      timeline: distinct times in the range give distinct playback positions. */
  lemma CorrectedTimePreservesOrder(o: MorphObjV2, t1: real, t2: real, temporalRange: real,
                                    slerp: (Vec3, Vec3, real) -> Vec3)
    requires o.surface.Some? ==> WellFormed(o.surface.value)
    requires 0.0 <= t1 < t2 <= temporalRange && 0.0 < o.playback.scale
    ensures OnControllerTimeChanged(o, t1, temporalRange, slerp).Final().playback.position
          < OnControllerTimeChanged(o, t2, temporalRange, slerp).Final().playback.position
  {
    SeekNormalisedOrder(o.playback, t1, t2, temporalRange);
  }

  /** Seeking to two normalised times keeps their order on the timeline. */
  lemma SeekNormalisedOrder(p: Playback, t1: real, t2: real, temporalRange: real)
    requires 0.0 <= t1 < t2 <= temporalRange && 0.0 < p.scale
    ensures Seek(p, t1 / temporalRange * p.scale).position < Seek(p, t2 / temporalRange * p.scale).position
  {
    NormalisedOrder(t1, t2, temporalRange, p.scale);
    SeekOrder(p, t1 / temporalRange * p.scale, t2 / temporalRange * p.scale);
  }

  /** Seeking keeps the order of two times on the timeline. */
  lemma SeekOrder(p: Playback, x1: real, x2: real)
    requires 0.0 <= x1 < x2 <= p.scale
    ensures Seek(p, x1).position < Seek(p, x2).position
  {
  }
}

=== FILE: text.dfy ===
/**
 The Python string operations the automation scripts rely on: prefix tests,
 str.strip, str.split with a one-character separator, str.join and ASCII case
 folding, with their round-trip and shape properties.
 */
module Text {

  /** str.startswith. */
  predicate StartsWith(s: string, prefix: string)
  {
    |prefix| <= |s| && s[..|prefix|] == prefix
  }

  /** sub occurs in s starting at offset i. */
  predicate OccursAt(s: string, sub: string, i: int)
  {
    0 <= i <= |s| - |sub| && s[i..i + |sub|] == sub
  }

  /** The `in` operator on strings. */
  predicate Contains(s: string, sub: string)
  {
    exists i | 0 <= i <= |s| :: OccursAt(s, sub, i)
  }

  /** The characters Python's str.isspace() accepts, which str.strip() removes. */
  predicate IsSpace(c: char)
  {
    ('\t' <= c <= '\r') || ('\U{1c}' <= c <= ' ')
    || c == '\U{85}' || c == '\U{a0}' || c == '\U{1680}'
    || ('\U{2000}' <= c <= '\U{200a}') || c == '\U{2028}' || c == '\U{2029}'
    || c == '\U{202f}' || c == '\U{205f}' || c == '\U{3000}'
  }

  /** str.lstrip(). */
  function TrimStart(s: string): (r: string)
    ensures |r| <= |s| && r == s[|s| - |r|..]
    ensures r == [] || !IsSpace(r[0])
    ensures forall i :: 0 <= i < |s| - |r| ==> IsSpace(s[i])
  {
    if |s| > 0 && IsSpace(s[0]) then TrimStart(s[1..]) else s
  }

  /** str.rstrip(). */
  function TrimEnd(s: string): (r: string)
    ensures |r| <= |s| && r == s[..|r|]
    ensures r == [] || !IsSpace(r[|r| - 1])
    ensures forall i :: |r| <= i < |s| ==> IsSpace(s[i])
  {
    if |s| > 0 && IsSpace(s[|s| - 1]) then TrimEnd(s[..|s| - 1]) else s
  }

  /** str.strip(): the longest infix of s without surrounding whitespace. */
  function Strip(s: string): (r: string)
    ensures r == [] || (!IsSpace(r[0]) && !IsSpace(r[|r| - 1]))
  {
    TrimEnd(TrimStart(s))
  }

  /** The stripped string occurs in the original. */
  lemma StripIsInfix(s: string)
    ensures Contains(s, Strip(s))
  {
    var left := TrimStart(s);
    var r := TrimEnd(left);
    assert r == s[|s| - |left|..][..|r|];
    assert r == s[|s| - |left|..|s| - |left| + |r|];
    assert OccursAt(s, r, |s| - |left|);
  }

  /** str.join. */
  function Join(sep: string, parts: seq<string>): string
  {
    if |parts| == 0 then ""
    else if |parts| == 1 then parts[0]
    else parts[0] + sep + Join(sep, parts[1..])
  }

  /** str.split with a single-character separator; the empty string splits into
      one empty piece, as in Python. */
  function Split(s: string, sep: char): (r: seq<string>)
    ensures |r| >= 1
    ensures forall k :: 0 <= k < |r| ==> sep !in r[k]
  {
    if |s| == 0 then [""]
    else
      var rest := Split(s[1..], sep);
      if s[0] == sep then [""] + rest
      else [[s[0]] + rest[0]] + rest[1..]
  }

  /** A piece free of the separator splits into itself. */
  lemma {:induction false} SplitNoSeparator(p: string, sep: char)
    requires sep !in p
    ensures Split(p, sep) == [p]
  {
    if |p| > 0 {
      assert sep !in p[1..];
      SplitNoSeparator(p[1..], sep);
      assert [p[0]] + p[1..] == p;
    }
  }

  /** Splitting p + sep + rest yields p followed by the pieces of rest. */
  lemma {:induction false} SplitAfterPiece(p: string, sep: char, rest: string)
    requires sep !in p
    ensures Split(p + [sep] + rest, sep) == [p] + Split(rest, sep)
  {
    if |p| == 0 {
      assert p + [sep] + rest == [sep] + rest;
      assert ([sep] + rest)[1..] == rest;
    } else {
      var s := p + [sep] + rest;
      assert s[1..] == p[1..] + [sep] + rest;
      assert sep !in p[1..];
      SplitAfterPiece(p[1..], sep, rest);
      assert [p[0]] + p[1..] == p;
    }
  }

  /** Joining pieces that do not contain the separator and splitting again
      returns the pieces. */
  lemma {:induction false} SplitJoin(parts: seq<string>, sep: char)
    requires |parts| >= 1
    requires forall k :: 0 <= k < |parts| ==> sep !in parts[k]
    ensures Split(Join([sep], parts), sep) == parts
  {
    if |parts| == 1 {
      SplitNoSeparator(parts[0], sep);
    } else {
      SplitJoin(parts[1..], sep);
      SplitAfterPiece(parts[0], sep, Join([sep], parts[1..]));
      assert [parts[0]] + parts[1..] == parts;
    }
  }

  /** ASCII part of str.lower(). */
  function LowerChar(c: char): char
  {
    if 'A' <= c <= 'Z' then (c as int + 32) as char else c
  }

  /** ASCII part of str.upper(). */
  function UpperChar(c: char): char
  {
    if 'a' <= c <= 'z' then (c as int - 32) as char else c
  }

  function Lower(s: string): (r: string)
    ensures |r| == |s|
    ensures forall i :: 0 <= i < |s| ==> r[i] == LowerChar(s[i])
  {
    seq(|s|, i requires 0 <= i < |s| => LowerChar(s[i]))
  }

  function Upper(s: string): (r: string)
    ensures |r| == |s|
    ensures forall i :: 0 <= i < |s| ==> r[i] == UpperChar(s[i])
  {
    seq(|s|, i requires 0 <= i < |s| => UpperChar(s[i]))
  }
}

=== FILE: unity_math.dfy ===
/**
 The subset of Unity's Mathf, Vector3 and Color arithmetic the temporal core uses,
 with IEEE floats modelled as mathematical reals.
 */
module UnityMath {

  /** Mathf.Clamp: the lower bound is compared first, so with min > max a value
      below min yields min and any other value above max yields max. */
  function Clamp(value: real, min: real, max: real): (r: real)
    ensures min <= max ==> min <= r <= max
    ensures min <= value <= max ==> r == value
    ensures value < min ==> r == min
  {
    if value < min then min else if value > max then max else value
  }

  /** Mathf.Clamp01. */
  function Clamp01(value: real): (r: real)
    ensures 0.0 <= r <= 1.0
    ensures 0.0 <= value <= 1.0 ==> r == value
  {
    if value < 0.0 then 0.0 else if value > 1.0 then 1.0 else value
  }

  /** Mathf.Lerp, which clamps its parameter to [0, 1]: the result always lies
      between the two end points. */
  function Lerp(a: real, b: real, t: real): (r: real)
    ensures Between(r, a, b)
    ensures t <= 0.0 ==> r == a
    ensures t >= 1.0 ==> r == b
  {
    var s := Clamp01(t);
    LerpBetween(a, b, s);
    a + (b - a) * s
  }

  /** An affine blend with weight s in [0, 1] stays between its end points. */
  lemma LerpBetween(a: real, b: real, s: real)
    requires 0.0 <= s <= 1.0
    ensures Between(a + (b - a) * s, a, b)
  {
    BlendAbove(a, b, s);
    BlendBelow(a, b, s);
  }

  /** The blend does not fall below the smaller end point. */
  lemma BlendAbove(a: real, b: real, s: real)
    requires 0.0 <= s <= 1.0
    ensures a <= b ==> a <= a + (b - a) * s
    ensures b <= a ==> b <= a + (b - a) * s
  {
    assert a + (b - a) * s == a * (1.0 - s) + b * s;
  }

  /** The blend does not rise above the larger end point. */
  lemma BlendBelow(a: real, b: real, s: real)
    requires 0.0 <= s <= 1.0
    ensures a <= b ==> a + (b - a) * s <= b
    ensures b <= a ==> a + (b - a) * s <= a
  {
    assert a + (b - a) * s == a * (1.0 - s) + b * s;
  }

  /** A fraction s in [0, 1] of a non-negative d lies between 0 and d. */
  lemma FractionBounds(d: real, s: real)
    requires d >= 0.0 && 0.0 <= s <= 1.0
    ensures 0.0 <= d * s <= d
  {
    assert d - d * s == d * (1.0 - s);
  }

  /** A non-negative d scaled by g: within [0, d] for g in [0, 1], at least d
      for g from 1 on. */
  lemma ScaleBounds(d: real, g: real)
    ensures 0.0 <= d && 0.0 <= g <= 1.0 ==> 0.0 <= g * d <= d
    ensures 0.0 <= d && g >= 1.0 ==> g * d >= d
  {
    if 0.0 <= d && 0.0 <= g <= 1.0 {
      FractionBounds(d, g);
      assert d * g == g * d;
    }
    if 0.0 <= d && g >= 1.0 {
      assert g * d - d == (g - 1.0) * d;
    }
  }

  /** A time t in [0, range] is a fraction of the range in [0, 1], and the
      whole range is the fraction 1. */
  lemma QuotientBounds(t: real, range: real)
    requires range != 0.0
    ensures 0.0 <= t <= range ==> 0.0 <= t / range <= 1.0
    ensures t == range ==> t / range == 1.0
  {
    var q := t / range;
    assert q * range == t;
  }

  /** Dividing by a positive range and scaling by a positive factor keep a
      strict order. */
  lemma QuotientOrder(t1: real, t2: real, range: real, d: real)
    requires 0.0 <= t1 < t2 <= range && d > 0.0
    ensures (t1 / range) * d < (t2 / range) * d
  {
    var q1, q2 := t1 / range, t2 / range;
    assert q1 * range == t1 && q2 * range == t2;
    assert (q2 - q1) * range == t2 - t1;
    assert q1 < q2;
    assert q2 * d - q1 * d == (q2 - q1) * d;
  }

  /** Two ordered times in [0, range], normalised by the range and scaled by a
      positive d, stay ordered within [0, d]. */
  lemma NormalisedOrder(t1: real, t2: real, range: real, d: real)
    requires 0.0 <= t1 < t2 <= range && d > 0.0
    ensures 0.0 <= t1 / range * d < t2 / range * d <= d
  {
    QuotientBounds(t1, range);
    QuotientBounds(t2, range);
    ScaleBounds(d, t1 / range);
    ScaleBounds(d, t2 / range);
    QuotientOrder(t1, t2, range, d);
  }

  /** x lies in the closed interval spanned by a and b, in either order. */
  predicate Between(x: real, a: real, b: real)
  {
    (a <= x <= b) || (b <= x <= a)
  }

  /** Mathf.Max on floats. */
  function Max(a: real, b: real): (r: real)
    ensures r >= a && r >= b
    ensures r == a || r == b
  {
    if a > b then a else b
  }

  /** Mathf.Max on ints. */
  function MaxInt(a: int, b: int): (r: int)
    ensures r >= a && r >= b
    ensures r == a || r == b
  {
    if a > b then a else b
  }

  /** Mathf.Abs. */
  function Abs(x: real): (r: real)
    ensures r >= 0.0
    ensures r == x || r == -x
  {
    if x < 0.0 then -x else x
  }

  /** Mathf.CeilToInt: the least integer not below x. */
  function CeilToInt(x: real): (r: int)
    ensures r as real >= x
    ensures (r - 1) as real < x
  {
    -((-x).Floor)
  }

  /** UnityEngine.Vector3. */
  datatype Vec3 = Vec3(x: real, y: real, z: real)

  const Zero: Vec3 := Vec3(0.0, 0.0, 0.0)

  function Add(a: Vec3, b: Vec3): Vec3
  {
    Vec3(a.x + b.x, a.y + b.y, a.z + b.z)
  }

  function Sub(a: Vec3, b: Vec3): Vec3
  {
    Vec3(a.x - b.x, a.y - b.y, a.z - b.z)
  }

  function Scale(a: Vec3, k: real): Vec3
  {
    Vec3(a.x * k, a.y * k, a.z * k)
  }

  /** Vector3.sqrMagnitude, the squared Euclidean length. */
  function SqrMagnitude(a: Vec3): (r: real)
    ensures r >= 0.0
  {
    a.x * a.x + a.y * a.y + a.z * a.z
  }

  /** Vector3.Distance, given the square root Unity uses as a parameter
      (square roots are not computable over the reals in this model). */
  function Distance(a: Vec3, b: Vec3, sqrt: real -> real): real
  {
    sqrt(SqrMagnitude(Sub(a, b)))
  }

  /** Vector3.Lerp, clamping its parameter like Mathf.Lerp. */
  function Lerp3(a: Vec3, b: Vec3, t: real): (r: Vec3)
    ensures Between(r.x, a.x, b.x) && Between(r.y, a.y, b.y) && Between(r.z, a.z, b.z)
    ensures t <= 0.0 ==> r == a
    ensures t >= 1.0 ==> r == b
  {
    Vec3(Lerp(a.x, b.x, t), Lerp(a.y, b.y, t), Lerp(a.z, b.z, t))
  }

  /** UnityEngine.Color. */
  datatype Color = Color(r: real, g: real, b: real, a: real)

  /** Color.Lerp, clamping its parameter. */
  function LerpColor(a: Color, b: Color, t: real): (c: Color)
    ensures t <= 0.0 ==> c == a
    ensures t >= 1.0 ==> c == b
  {
    Color(Lerp(a.r, b.r, t), Lerp(a.g, b.g, t), Lerp(a.b, b.b, t), Lerp(a.a, b.a, t))
  }
}

=== FILE: wrappers.dfy ===
/** Failure-carrying datatypes shared by the whole model. */
module Wrappers {

  /** A reference that may be null. */
  datatype Option<+T> = None | Some(value: T)

  /** The outcome of a C# method that either returns normally or leaves by an
      exception. Both cases carry the state the method leaves behind, because
      the source mutates fields before it can throw. */
  datatype Completion<+T> = Done(state: T) | Raised(state: T)
  {
    /** The state left behind, whichever way the call ended. */
    function Final(): T
    {
      match this
      case Done(s) => s
      case Raised(s) => s
    }
  }
}
